=== FILE: README.md ===
# WebsiteBama legacy archive engine, in Dafny

This project models the part of WebsiteBama that serves the archived pages of the old "MihanShop" sites under the new "Website Bama" brand. It also models the contact form's request handler.

- **Site constants** (`Site`, `Hosts`). These are the canonical domains, the alias table that maps every old-brand host to its new host, the public prefix of the mirrored assets and the list of legacy stylesheets.
- **Route resolver** (`Routes`, `Posix`). The segments of a request become an archive file: the home page, the panel archive's index, then the exact file, its `.html`, its `index.html` and, for one segment, the `.html` file directly below the archive root. `path.posix` and `path.join` are modelled on strings with Node's rules.
- **Link and asset localisers** (`Links`, `Assets`).
  - `toLocalRoute` turns links into routes of the site.
  - `rewriteExternalBrandUrl` renames old social-network profiles.
  - `toLocalAsset` sends asset URLs to the local mirror, the remote mirror or the encoded original, following the host's fallback chain.
- **Brand and style rewrites** (`Patterns`, `Brand`, `Theme`, `Background`, `StyleUrls`, `Srcset`, `Logo`).
  - JavaScript's global, case-insensitive `replace` is modelled as a leftmost, non-overlapping scan.
  - On top of it sit the brand-name table of `replaceSiteName`, the colour table of `applyThemeColors`, the surface rewrite of `applyBackgroundTokens`, `fixStyleUrls`, the `srcset` rewrite and the logo heuristics.
- **Page rewrite** (`Dom`, `Images`, `Passes`, `LogoSvgs`, `Document`, `Transform`).
  - The parsed page is a flat list of nodes in document order. Each node knows its parent, and a parent always comes first.
  - `transformLegacyHtml` is a class whose methods run each `.each` loop over that list in place. Each method is proved equal to a specification function of the document it started from.
  - Lemmas state what the finished page guarantees: no text node and no label names an old brand, and the title is never empty. They also show that no logo `svg` is left, that images below a logo show the new logo, and that nothing outside the body changes.
- **Page function** (`Pages`). `getLegacyPage` returns the rewritten page or the not-found page, behind a memo that serves each page as if it were worked out afresh.
- **Contact handler** (`Contact`).
  - `POST` trims the fields, refuses a missing name, phone or message, then refuses fields that are too long (limits counted in UTF-16 units), and otherwise appends the entry to the log.
  - A logged entry, sent again, is accepted unchanged.

The outside world is a parameter throughout. `Env.World` holds the working directory, the files on disk and two functions that stand in for `new URL(...)` and `encodeURI`. `Dom.Markup` holds the parser and the two serialisers of cheerio. Reading the archive file is the `read` parameter of `Pages`.

The page rewrite is modelled as the code does it, including the four defects listed under "## Findings". Each defective function also has a corrected twin. `Passes.ToolsFor` with `corrected` set builds the page's rewrites from those twins, which gives a second, corrected instance of the same rewrite. The lemmas about brand names hold for both instances.

## Model

| member | source | states |
|---|---|---|
| `Site.AliasesFixDomains` | lib/site.ts:20-24 | every canonical domain is in the alias table and stands for itself |
| `Site.AliasesKeepSubdomain` | lib/site.ts:25-28 | every old-brand host maps to the canonical host with the same sub-domain in front |
| `Site.OldHostsListed` | lib/site.ts:25-28 | the bare old domain and its `panel.`, `api.` and `cdn.` sub-domains are all in the table |
| `Site.AliasValuesAreDomains` | lib/site.ts:20-29 | the alias table only ever answers with one of the four canonical domains |
| `Site.PublicPrefixShape` | lib/site.ts:31 | the public prefix is `/legacy/` followed by the primary domain |
| `Site.StylesheetsShape` | lib/site.ts:33-55 | fifteen stylesheets: each build file in order under `/build/assets/`, then the carousel stylesheet |
| `Site.StylesheetsUnderPrefix` | lib/site.ts:50-55 | every stylesheet lies under the public prefix |
| `Hosts.NormalizeLegacyHost` | lib/legacy.ts:53 | a host in the alias table becomes a canonical domain; any other host is returned unchanged |
| `Hosts.NormalizeIdempotent` | lib/legacy.ts:53 | normalising a host twice is normalising it once |
| `Hosts.IsLegacyHostSpec` | lib/legacy.ts:55-58 | every host of the table is the site's own; any other host is the site's own exactly when it ends in `.websithebama.com` |
| `Hosts.SubdomainsOfPrimary` | lib/site.ts:12-17 | the panel, API and CDN domains are sub-domains of the primary domain |
| `Hosts.OldHostsAreLegacy` | lib/legacy.ts:55-58 | the four hosts of the old brand count as the site's own |
| `Env.NormalizeUrl` | lib/legacy.ts:36-42 | when `encodeURI` throws, the text is returned unchanged |
| `Text.Lower` | lib/legacy.ts:382 | definition: lower-casing keeps the length and lowers each character on its own |
| `Text.LowerIdempotent` | lib/legacy.ts:382 | lower-casing twice is lower-casing once |
| `Text.TrimSpec` | lib/legacy.ts:188 | `trim` removes exactly a run of white space at each end, and the result neither starts nor ends with white space |
| `Text.TrimIdempotent` | lib/legacy.ts:188 | trimming twice is trimming once |
| `Text.TrimKeeps` | lib/legacy.ts:247 | a text with no white space at either end is its own trim |
| `Text.Split` | lib/legacy.ts:340 | `split` on one character gives at least one piece, and no piece holds the separator |
| `Text.SplitJoin` | lib/legacy.ts:340 | splitting and joining again on the same character gives the input back |
| `Text.SplitHead` | lib/legacy.ts:143 | the first piece is the longest prefix free of the separator; a second piece exists exactly when the separator occurs |
| `Text.Utf16Length` | app/api/contact/route.ts:36 | `length` counts between one and two UTF-16 code units per character |
| `Patterns.PrefixMatchSpec` | lib/legacy.ts:342-353 | a literal matches at the start of a text exactly when each of its characters equals the text's, ignoring ASCII case under the `i` flag |
| `Patterns.SpaceRun` | lib/legacy.ts:342 | the greedy `\s*` run is all white space and stops at a character that is not |
| `Patterns.MatchLocal` | lib/legacy.ts:342-353 | a match depends only on the characters it covers |
| `Patterns.ReplaceAllIdentity` | lib/legacy.ts:343-353 | a global replace of a pattern that does not occur changes nothing |
| `Patterns.ReplaceAllNoMatch` | lib/legacy.ts:342-353 | replacing every match of a pattern by a replacement that cannot form one leaves no match |
| `Patterns.ReplaceAllLength` | lib/legacy.ts:438-458 | replacing a literal by a text of its own length keeps the length |
| `Patterns.ReplaceAllWhole` | lib/legacy.ts:343-353 | a text that is exactly a literal is replaced as a whole |
| `Patterns.ApplyRulesSplit` | lib/legacy.ts:342-353 | running two tables of replacements in a row is running their concatenation |
| `Patterns.ApplyRulesIdentity` | lib/legacy.ts:437-458 | a table none of whose patterns occurs keeps the text |
| `Patterns.ApplyRulesKeep` | lib/legacy.ts:342-353 | a table whose replacements cannot form a pattern never creates a match of it |
| `Patterns.ApplyRulesClear` | lib/legacy.ts:342-353 | a table that first replaces a pattern, and whose replacements cannot form it, leaves no match of it |
| `Patterns.ApplyRulesClearAll` | lib/legacy.ts:437-458 | a self-clearing table leaves no match of any of its patterns |
| `Patterns.ApplyRulesIdempotent` | lib/legacy.ts:437-458 | a self-clearing table applied twice is applied once |
| `Patterns.ApplyRulesLength` | lib/legacy.ts:437-458 | a table of literals, each replaced by a text of its own length, keeps the length |
| `Posix.NormalizeShape` | lib/legacy.ts:214 | `path.posix.normalize` never gives the empty path, keeps a leading `/`, never starts with `//` or `/../`, and starts with `./` only for `./` itself |
| `Posix.NormalizeNoDoubleSlash` | lib/legacy.ts:214 | a normalised path never holds two separators in a row |
| `Posix.NormalizeKeepsOut` | lib/legacy.ts:214 | normalising adds no character but `/` and `.` |
| `Posix.JoinPathsKeepsOut` | lib/legacy.ts:214 | `path.posix.join` adds no character but `/` and `.` |
| `Posix.JoinNonEmpty` | lib/legacy.ts:214 | the joined text is empty exactly when every argument is |
| `Posix.RelativeBelow` | lib/legacy.ts:100 | `path.relative` from a directory to a path below it is that path's own segments, with no climbing |
| `Posix.NormalizeSlashes` | lib/legacy.ts:35 | `normalizeSlashes` keeps the length, turns each backslash into `/` and keeps every other character |
| `Posix.NormalizeSlashesNoBackslash` | lib/legacy.ts:35 | a path without backslashes is left as it is |
| `PathExamples.NormalizeBlogAbout` | lib/legacy.ts:214 | example: `normalize("blog//about")` and `normalize("blog/about")` are `blog/about` |
| `PathExamples.JoinPathsBlogAbout` | lib/legacy.ts:214 | example: `join("blog", "/about")` is `blog/about` |
| `PathExamples.JoinPathsRootAbout` | lib/legacy.ts:214 | example: `join("", "/about")` is `/about` |
| `Routes.StripHtmlExtensionSpec` | lib/legacy.ts:44-45 | stripping removes nothing, `.html` or `index.html` (in any case) at the very end, and a trailing `/index.html` leaves its `/` |
| `Routes.CollapseSpace` | lib/legacy.ts:51 | the result holds no white space and is no longer than the input |
| `Routes.SanitizeRouteKey` | lib/legacy.ts:47-51 | a sanitised route key holds no white space |
| `Routes.SanitizeRouteKeySpec` | lib/legacy.ts:47-51 | for a key without white space, exactly one leading and one trailing `/` are removed when present and nothing else changes |
| `Routes.FirstHitFrom` | lib/legacy.ts:94-137 | the index found is a candidate that is there, and every candidate before it is missing; none is found only when all are missing |
| `Routes.ResolveLegacyFile` | lib/legacy.ts:61-138 | the method's answer is the resolution: home page, archive index, then the first candidate file that is there |
| `Routes.LookupIn` | lib/legacy.ts:82-137 | the probes below one archive root give the lookup's answer |
| `Routes.ProbeIn` | lib/legacy.ts:94-137 | the candidate files are probed in order and the first one present gives the page |
| `Routes.ProbeExact` | lib/legacy.ts:96-103 | the exact path, when it is a regular file, gives the page with its directory and sanitised route key |
| `Routes.ProbeHtml` | lib/legacy.ts:105-113 | otherwise the path with `.html`, when it exists, gives the page |
| `Routes.ProbeIndex` | lib/legacy.ts:115-123 | otherwise the path's `index.html`, when it exists, gives the page |
| `Routes.ProbeRootHtml` | lib/legacy.ts:125-135 | otherwise, for one segment, that segment's `.html` directly below the root gives the page, keyed by the segment |
| `Routes.ProbeMissed` | lib/legacy.ts:137 | when every probed file is missing there is no page |
| `Routes.HomeWithoutProbing` | lib/legacy.ts:62-70 | a request with no segments is the home page whatever is on disk |
| `Routes.LookupFound` | lib/legacy.ts:82-137 | every page the lookup gives exists on disk and belongs to the archive it looked in |
| `Routes.ResolutionFound` | lib/legacy.ts:72-137 | a page served for a non-empty request exists on disk, and is from the panel archive exactly when the first segment is `panel` |
| `Routes.NotFoundIffAllMiss` | lib/legacy.ts:82-137 | no page is found exactly when the archive index is not the answer and every candidate is missing |
| `Routes.CandidatesShape` | lib/legacy.ts:94-135 | three candidates for several segments, four for one, in the order the resolver tries them, with their route keys |
| `Routes.RouteKeyNoSpace` | lib/legacy.ts:101 | every route key the resolver hands out is free of white space |
| `Links.SplitAtSpec` | lib/legacy.ts:142-150 | the path part is the text before the first `#` (or `?`); the rest is empty or that character with the non-empty text up to the next one |
| `Links.SplitAtConcat` | lib/legacy.ts:142-150 | splitting a path part joined with its suffix gives both back |
| `Links.RewriteExternalBrandUrl` | lib/legacy.ts:152-183 | empty, non-external and unparsable URLs are kept; others are re-serialised with the profile path renamed |
| `Links.RenamedPathSpec` | lib/legacy.ts:160-177 | only the four old profile paths, in any case and with an optional trailing slash, on the four networks, are renamed, and only to the new profile paths |
| `Links.RenamedPathIdempotent` | lib/legacy.ts:160-177 | renaming a renamed pathname keeps it |
| `Links.RewriteIdempotent` | lib/legacy.ts:152-183 | rewriting an already rewritten URL that parses back into the same parts changes nothing more |
| `Links.StripUps` | lib/legacy.ts:217 | every leading `../` is removed and what is left is a tail of the input |
| `Links.LegacyRoute` | lib/legacy.ts:201-204 | corrected: the route for a link to the site drops every leading slash of the path, starts with `/` and ends with the query and fragment; for a well-formed URL it never starts with `//` |
| `Links.LegacyRouteAsWritten` | lib/legacy.ts:201-204 | as written: the route for a link to the site starts with `/` and ends with the query and fragment (it can start with `//`, see Findings) |
| `Links.ToLocalRoute` | lib/legacy.ts:186-222 | `toLocalRoute`, as written or corrected: the empty link is kept, and every other link is either kept as its trimmed text or becomes a route starting with `/` |
| `Links.ToLocalRouteKeeps` | lib/legacy.ts:186-209 | as written and corrected: the empty link, fragments, `mailto:`, `tel:` and `javascript:` links, and absolute URLs that do not parse or are on other hosts are kept, trimmed |
| `Links.ToLocalRouteOwnHost` | lib/legacy.ts:198-204 | a link to the site itself becomes a route that starts with `/` and ends with the URL's query and fragment; only the corrected route is sure not to start with `//` |
| `Links.ToLocalRouteRelative` | lib/legacy.ts:211-221 | as written, every other link becomes the route of its path joined onto the page's folder, root-relative links included; corrected, a root-relative link is taken against the archive root; either way the route starts with `/` |
| `Links.RouteFromSplitsBack` | lib/legacy.ts:211-221 | the route keeps the link's query and fragment: splitting it again gives them back behind the route path |
| `Links.LocalizeShape` | lib/legacy.ts:213-217 | a localised path never starts with `//`, `/../` or `../`, so it cannot leave the archive |
| `Links.RoutePathSafe` | lib/legacy.ts:213-220 | a route starts with one `/` and never with `//` or `/../` |
| `Links.RoutePathKeepsOut` | lib/legacy.ts:213-220 | a character missing from the folder and the path, other than `/`, `.` and `\`, is missing from the route |
| `Links.RootRelativeJoinedAsWritten` | lib/legacy.ts:213-214 | as written, `/about` becomes `/blog/about` on a page in `blog/` but `/about` at the archive root |
| `Links.RootRelativeIgnoresPageDir` | lib/legacy.ts:211-221 | corrected: a root-relative link is taken against the archive root whatever page it is on |
| `Links.RootRelativeAbout` | lib/legacy.ts:211-221 | corrected: `/about` is the route `/about` on every page |
| `Links.DoubleSlashAsWritten` | lib/legacy.ts:203 | as written, `https://mihanshop.com//example.org/` becomes `//example.org/`, a link to another host |
| `Links.DoubleSlashRouted` | lib/legacy.ts:203 | corrected: the same link becomes `/example.org/`, a route of the site |
| `Links.DoubleSlashRoutes` | lib/legacy.ts:203 | for any pathname of two slashes and a text, the route as written keeps both slashes and the corrected one keeps one |
| `Assets.EnsureLocalAsset` | lib/legacy.ts:224-229 | a `/legacy/` URL is kept when its public file exists, and otherwise replaced by the fallback or `/Logo.png`; other URLs are kept |
| `Assets.EnsureRemoteAsset` | lib/legacy.ts:231-242 | the remote mirror's URL exactly when its file exists (or it equals the fallback), the fallback otherwise |
| `Assets.BaseDomain` | lib/legacy.ts:312 | a page's asset archive is one of the canonical domains |
| `Assets.ToLocalAsset` | lib/legacy.ts:245-256 | `toLocalAsset`: the empty URL is kept; data, blob, fragment, `mailto:` and `tel:` URLs are kept trimmed |
| `Assets.ProtocolRelativeUpgraded` | lib/legacy.ts:258-260 | a protocol-relative URL is handled as its `https:` URL |
| `Assets.ToLocalAssetRooted` | lib/legacy.ts:311-314 | a root-relative URL is looked up in the page's archive |
| `Assets.ToLocalAssetRelative` | lib/legacy.ts:316-333 | any other relative URL is a path of the archive taken against the page's folder as a link is |
| `Assets.LocalAssetResolves` | lib/legacy.ts:224-229 | without a fallback, a `/legacy/` URL is kept only when its file exists, and becomes the logo otherwise |
| `Assets.LocalBranchesResolve` | lib/legacy.ts:311-333 | every root- or page-relative asset becomes a `/legacy/` URL whose file exists, or the logo |
| `Assets.ApiAndPanelLocalOnly` | lib/legacy.ts:267-278 | the API and panel hosts: the local mirror when its file exists, else the encoded original; the remote mirror is never tried |
| `Assets.PrimaryLocalThenRemote` | lib/legacy.ts:279-290 | the primary host: local mirror, then remote mirror, then the encoded original |
| `Assets.OtherSiteHostsRemoteOnly` | lib/legacy.ts:291-304 | the CDN and other sub-domains of the site: remote mirror, then the encoded original |
| `Assets.ForeignAssetEncoded` | lib/legacy.ts:305-308 | any other host, and a URL that does not parse, gives the encoded original |
| `Assets.AliasedHostsAlike` | lib/legacy.ts:265 | an old-brand host is handled exactly as the canonical host it stands for |
| `Brand.ReplaceSiteNameAsWritten` | lib/legacy.ts:336-355 | as written: the empty text is returned as it is; otherwise the Persian, compound, Latin and domain replacements run in the source's order |
| `Brand.ReplaceSiteName` | lib/legacy.ts:336-355 | corrected: the empty text is returned as it is; the domain replacements run before the Latin names |
| `Brand.AsciiUntouched` | lib/legacy.ts:339-342 | the Persian replacements leave a text in ASCII as it is |
| `Brand.PersianCleared` | lib/legacy.ts:339-342 | after the Persian replacements no Persian old name, with any white space inside, is left |
| `Brand.LatinCleared` | lib/legacy.ts:346-349 | after the Latin replacements no `mihan\s*shop` is left, in any ASCII case |
| `Brand.NoPersianName` | lib/legacy.ts:336-355 | corrected: the rewritten text holds no Persian old name |
| `Brand.NoLatinName` | lib/legacy.ts:336-355 | corrected: the rewritten text holds no `mihan\s*shop`, in any ASCII case |
| `Brand.NoLatinNameBeforeDomains` | lib/legacy.ts:339-349 | as written too, no `mihan\s*shop` is left once the Latin replacements have run |
| `Brand.PersianClearedNames` | lib/legacy.ts:339-345 | the compound replacements after the Persian ones bring back no Persian old name |
| `Brand.PersianClearedBeforeDomains` | lib/legacy.ts:339-349 | nor do the Latin replacements after them |
| `Brand.NoPersianNameAsWritten` | lib/legacy.ts:336-355 | as written: the rewritten text holds no Persian old name, with any white space inside |
| `Brand.NoLatinNameAsWritten` | lib/legacy.ts:336-355 | as written: the rewritten text holds no `mihan\s*shop`, in any ASCII case |
| `Brand.NoOldNames` | lib/legacy.ts:336-355 | the brand rewrite a page runs, as written or corrected, leaves neither old name |
| `Brand.DomainRulesIdle` | lib/legacy.ts:350-353 | in a text without `mihan\s*shop` the domain replacements change nothing |
| `Brand.DomainRulesDeadAsWritten` | lib/legacy.ts:346-353 | as written, the result is the same as without the four domain replacements |
| `Brand.BareDomainAsWritten` | lib/legacy.ts:346-353 | as written, `mihanshop.com` becomes `Website Bama.com` |
| `Brand.BareDomain` | lib/legacy.ts:353 | corrected: `mihanshop.com` becomes the new primary domain |
| `Brand.PanelDomain` | lib/legacy.ts:350 | corrected: `panel.mihanshop.com` becomes the new panel domain |
| `Logo.LooksLikeLogoTextLower` | lib/legacy.ts:381-386 | the logo-text test ignores ASCII case |
| `Logo.EmptyIsNoLogo` | lib/legacy.ts:381-420 | a missing or empty text is not a logo, for the text, URL and asset tests |
| `Logo.LogoTextWithin` | lib/legacy.ts:381-386 | a text that looks like a logo still does with more text around it |
| `Logo.ClassTestIsKeywordTest` | lib/legacy.ts:399-402 | the two extra class tests add nothing to the keyword test |
| `Logo.LogoAssetBySource` | lib/legacy.ts:388-420 | with only a source, `isLogoAsset` is `isLogoUrl` |
| `Logo.LogoUrlIsLogoAsset` | lib/legacy.ts:388-420 | a source that is a logo URL makes the image a logo, whatever its other attributes |
| `Logo.Attr` | lib/legacy.ts:426-427 | definition: `attr(name)` is present exactly when the element has the attribute, and is then its value |
| `Logo.HasLogoAncestor` | lib/legacy.ts:422-433 | true exactly when some ancestor's class or id looks like a logo |
| `Theme.Recolourings` | lib/legacy.ts:437-458 | definition: one case-insensitive replacement per row of the colour table, in the table's order |
| `Theme.ThemeRulesDistinct` | lib/legacy.ts:437-458 | no old colour is listed twice |
| `Theme.ThemeRulesClear` | lib/legacy.ts:437-458 | no new colour holds or starts a match of a later row's old colour |
| `Theme.ApplyThemeColors` | lib/legacy.ts:435-459 | recolouring keeps the length and leaves none of the 21 old colours, in any case |
| `Theme.ThemeColorsIdempotent` | lib/legacy.ts:435-459 | recolouring twice is recolouring once |
| `Theme.ThemeColorsKeep` | lib/legacy.ts:435-459 | a value without any old colour is kept |
| `Theme.ThemeColorsMap` | lib/legacy.ts:437-458 | each old colour on its own becomes its row's new colour |
| `Theme.ThemeColorsKeepPalette` | lib/legacy.ts:437-458 | the three colours of the new palette are kept |
| `Background.FirstAltSpec` | lib/legacy.ts:463 | the alternation takes the first alternative, in the order written, that matches |
| `Background.LazyScanSpec` | lib/legacy.ts:463 | the lazy `[^;]*?` stops at the first place where an alternative matches, and fails only when none does before the next `;` |
| `Background.SemiFrom` | lib/legacy.ts:463 | the greedy `[^;]*` stops at the next `;` or the end |
| `Background.HeadOfSound` | lib/legacy.ts:463 | the first group is the property name, white space, the colon and the longest run of white space |
| `Background.HeadOfComplete` | lib/legacy.ts:463 | backtracking finds no other first group: it is fixed by the text |
| `Background.DeclOfSound` | lib/legacy.ts:463 | a match is the first group, the text before the colour, the first matching colour, the rest up to `;`, and that `;` when there is one |
| `Background.DeclOfNone` | lib/legacy.ts:463 | after a first group, there is no match only when no colour comes before the next `;` |
| `Background.ApplyBackgroundTokensAsWritten` | lib/legacy.ts:461-466 | as written: the empty text is kept; each declaration is rebuilt with `var(--surface)` for its colour and a closing `;` |
| `Background.ApplyBackgroundTokens` | lib/legacy.ts:461-466 | corrected: the same with `#ffffff` tried before `#fff` |
| `Background.ReplaceDecls` | lib/legacy.ts:461-466 | every match of the background expression is replaced, and a text without `background`, in any case, is kept whole |
| `Background.NoBackgroundTail` | lib/legacy.ts:461-466 | a text without `background` does not start with it, and neither does any of its tails |
| `Background.ReplaceOneDecl` | lib/legacy.ts:464-465 | a text that is one whole declaration is rebuilt once |
| `Background.SixDigitWhiteAsWritten` | lib/legacy.ts:463 | as written, a six-digit white matches `#fff`, leaving three digits behind |
| `Background.SixDigitWhite` | lib/legacy.ts:463 | corrected: a six-digit white is matched whole, and a three-digit white still matches |
| `Background.WhiteDeclAsWritten` | lib/legacy.ts:461-466 | as written, `background: #ffffff` becomes `background: var(--surface)fff;` |
| `Background.WhiteDeclReplaced` | lib/legacy.ts:461-466 | corrected, it becomes `background: var(--surface);` |
| `StyleUrls.UrlAtSpec` | lib/legacy.ts:469 | a match at a place is exactly `url(`, a non-empty run without `)` and the first `)` |
| `StyleUrls.UnquoteIdempotent` | lib/legacy.ts:470 | removing quotes twice is removing them once |
| `StyleUrls.UnquoteAppend` | lib/legacy.ts:470 | quotes are removed wherever they are |
| `StyleUrls.CleanUrl` | lib/legacy.ts:470 | the cleaned target holds no quote |
| `StyleUrls.FixUrl` | lib/legacy.ts:469-475 | a target that looks like a logo gives `url(/Logo.png)`; any other becomes `url(` with its local asset and `)` |
| `StyleUrls.FixStyleUrls` | lib/legacy.ts:468-476 | the empty style is kept |
| `StyleUrls.NoUrlKeeps` | lib/legacy.ts:468-476 | a style without a complete `url(...)`, including `url()` and an unclosed `url(`, is kept |
| `StyleUrls.FixToken` | lib/legacy.ts:468-476 | a `url(...)` at the start is replaced, and the rest of the style is fixed in turn |
| `StyleUrls.LogoToken` | lib/legacy.ts:471-473 | a `url(...)` whose target looks like a logo becomes the new logo |
| `StyleUrls.QuotedLogo` | lib/legacy.ts:469-473 | `url('logo.png')` becomes the new logo |
| `Srcset.FirstTwoWords` | lib/legacy.ts:543 | the first word has no white space in it |
| `Srcset.WordsAt` | lib/legacy.ts:543 | the two words are the text before the first white-space run and the text after it |
| `Srcset.TwoWords` | lib/legacy.ts:543 | a word, white space and a second word split back into the two words |
| `Srcset.FixEntries` | lib/legacy.ts:540-548 | definition: one fixed candidate per candidate, in order |
| `Srcset.EntryKeepsDescriptor` | lib/legacy.ts:542-546 | a candidate keeps its descriptor behind one space, after its localised URL |
| `Srcset.EntryWithoutDescriptor` | lib/legacy.ts:542-546 | a candidate without a descriptor becomes its localised URL |
| `Srcset.FixSrcset` | lib/legacy.ts:538-550 | `srcset` rewritten candidate by candidate; a list without a comma is one candidate |
| `Srcset.FirstEntry` | lib/legacy.ts:538-550 | the first candidate is fixed on its own and joined with `, ` to the rest |
| `Images.AdoptLazySource` | lib/legacy.ts:516-527 | only `src` can change |
| `Images.DropLazy` | lib/legacy.ts:529-536 | the six lazy-loading attributes are removed and nothing else changes |
| `Images.SrcsetFixed` | lib/legacy.ts:538-550 | only `srcset` and `data-srcset` change, and `data-srcset` is gone |
| `Images.SourceFixed` | lib/legacy.ts:552-560 | only `src` changes |
| `Images.LogoForced` | lib/legacy.ts:562-567 | only `src` changes |
| `Images.LoadingHints` | lib/legacy.ts:569-576 | only `loading`, `decoding` and `onerror` change |
| `Images.ClassIdNotTouched` | lib/legacy.ts:514-577 | the image pass never touches `class` or `id` |
| `Images.NextSourceSpec` | lib/legacy.ts:516-527 | the next source is the first filled lazy attribute when `src` is missing, empty or names an HTML page, and the image's own source otherwise |
| `Images.FixImageKeepsOthers` | lib/legacy.ts:514-577 | every attribute the pass is not about stays as it was |
| `Images.FixImage` | lib/legacy.ts:514-577 | the image pass on one image keeps its class and id and always sets `decoding` to `async` |
| `Images.StagesKeepClassId` | lib/legacy.ts:514-577 | the stages of the image pass, one after another, keep the class and id and set `decoding` |
| `Images.FixImageHints` | lib/legacy.ts:569-576 | `decoding` becomes `async`; `loading` and `onerror` keep a non-empty value and are filled in otherwise |
| `Images.FixImageDropsLazy` | lib/legacy.ts:529-549 | no lazy-loading attribute and no `data-srcset` is left |
| `Images.FixImageSrcset` | lib/legacy.ts:538-550 | the first non-empty of `srcset` and `data-srcset` ends up rewritten in `srcset`; without one `srcset` is unchanged |
| `Images.LocalisedSource` | lib/legacy.ts:516-560 | the next source is localised, or becomes the logo when it names an HTML page; the labels stay |
| `Images.FinalSource` | lib/legacy.ts:562-576 | the source becomes the logo when the image is marked or looks like a logo, and stays otherwise |
| `Images.FixImageLogo` | lib/legacy.ts:558-567 | an image below a logo, or whose next source names an HTML page, shows the logo |
| `Images.FixImageSource` | lib/legacy.ts:552-564 | otherwise the source is the localised next source, or the logo when the image looks like one |
| `Dom.Up` | lib/legacy.ts:423 | each element reached going up is an element at or before the start |
| `Dom.Ancestors` | lib/legacy.ts:423 | each ancestor is an element before the node |
| `Dom.AncestorAttrs` | lib/legacy.ts:423-427 | definition: the attributes of the ancestors, one per ancestor, nearest first |
| `Dom.AncestorsClose` | lib/legacy.ts:423 | the ancestors of an ancestor are ancestors too |
| `Dom.FirstTag` | lib/legacy.ts:500 | the first element with the tag in document order, or none when there is none |
| `Dom.AncestorsFrame` | lib/legacy.ts:423 | ancestors depend only on the tree's shape, not on attributes or text |
| `Dom.Filled` | lib/legacy.ts:526 | definition: a condition on `attr(name)` holds exactly when the attribute is present and not empty |
| `Dom.FirstFilled` | lib/legacy.ts:516-522 | the `\|\|` chain gives the first present non-empty attribute in order, and nothing only when every one is missing or empty |
| `Passes.Retouch` | lib/legacy.ts:370-378 | the keys stay; only the listed attributes can change |
| `Passes.RetouchAt` | lib/legacy.ts:370-378 | each listed attribute is rewritten from its own value when filled and accepted, and kept otherwise |
| `Passes.Rewrite` | lib/legacy.ts:641-656 | a filled attribute is rewritten; every other attribute stays |
| `Passes.AttrsFor` | lib/legacy.ts:514-659 | no pass changes an element's `class` or `id` |
| `Passes.Rewritten` | lib/legacy.ts:514-659 | definition: a pass rewrites every node as the document stood before it |
| `Passes.RewrittenFrame` | lib/legacy.ts:514-659 | a pass keeps the tree's shape |
| `Passes.NodeRewriteFrame` | lib/legacy.ts:514-659 | a node is rewritten the same way in any document of the same shape |
| `Passes.ImageToolKeepsFrame` | lib/legacy.ts:514-577 | the image rewrite keeps the class and id of every image |
| `Passes.StyleRewrite` | lib/legacy.ts:615-639 | a style is recoloured, given the surface colour (as written or corrected), and URL-rewritten; the `url(` test before `fixStyleUrls` makes no difference |
| `Passes.AnchorHref` | lib/legacy.ts:641-648 | an anchor's target is its brand-renamed link, trimmed or not, or a route starting with `/` |
| `Passes.ToolsFor` | lib/legacy.ts:494-663 | the rewrites of a page, as written or corrected, keep the class and id of every image |
| `Passes.OutsideBodyKept` | lib/legacy.ts:512-656 | the passes over the body leave every node outside it alone |
| `Passes.OutsideDefsKept` | lib/legacy.ts:505-506 | the colour pass over the definitions leaves every other node alone |
| `Passes.TextPassClean` | lib/legacy.ts:358-368 | with the brand rewrite as written or corrected, no text node names an old brand after the brand pass |
| `Passes.LabelsAt` | lib/legacy.ts:370-378 | each label is rewritten from its own value when it is filled |
| `Passes.LabelsClean` | lib/legacy.ts:370-378 | with the brand rewrite as written or corrected, no label names an old brand |
| `Passes.PaintAt` | lib/legacy.ts:478-486 | a paint attribute is recoloured only when it is filled and holds a `#` |
| `Passes.PaintClean` | lib/legacy.ts:478-486 | a recoloured paint attribute holds none of the old colours |
| `Passes.AnchorPassHref` | lib/legacy.ts:641-648 | a link in the body points where `toLocalRoute` (as written or corrected) sends its renamed target, and nothing else changes |
| `Passes.ImageBelowLogo` | lib/legacy.ts:565-567 | an image in the body below a logo-marked element shows the new logo |
| `Passes.TextPassLabel` | lib/legacy.ts:370-378 | with the brand rewrite as written or corrected, no label of any element names an old brand after the brand pass |
| `Passes.ColourPassKeepsLabel` | lib/legacy.ts:478-491 | the colour pass leaves every label as it is |
| `LogoSvgs.Partial` | lib/legacy.ts:579-597 | definition: the page with the `svg`s before `i` handled, node by node |
| `LogoSvgs.StepSame` | lib/legacy.ts:579-597 | an `svg` that is not replaced, or was already removed, changes nothing |
| `LogoSvgs.StepHit` | lib/legacy.ts:592-596 | a replaced `svg` becomes the logo image and every node below it is gone |
| `LogoSvgs.Judge` | lib/legacy.ts:579-592 | the test on the page as it stands is the test on the original page, for an `svg` that is still there |
| `LogoSvgs.SvgOutsideBodyKept` | lib/legacy.ts:579 | nothing outside the body changes |
| `LogoSvgs.DescendantsGone` | lib/legacy.ts:592-596 | nothing below a replaced `svg` is left |
| `LogoSvgs.NoLogoSvgLeft` | lib/legacy.ts:579-597 | afterwards no `svg` in the body looks like a logo or sits below one |
| `LogoSvgs.SvgReplacedIdempotent` | lib/legacy.ts:579-597 | running the loop again changes nothing |
| `Document.LegacyDocument.constructor` | lib/legacy.ts:499 | the document holds the parsed nodes |
| `Document.LegacyDocument.Visit` | lib/legacy.ts:514-656 | one `.each` callback rewrites node `i` and nothing else |
| `Document.LegacyDocument.Run` | lib/legacy.ts:514-656 | one pass in document order leaves the document as the pass's specification says |
| `Document.LegacyDocument.ReplaceLogoSvgs` | lib/legacy.ts:579-597 | the `svg` loop leaves the document as its specification says |
| `Document.LegacyDocument.HandleSvg` | lib/legacy.ts:580-596 | handling one more `svg` gives the page with that one handled |
| `Document.LegacyDocument.IsLogoSvg` | lib/legacy.ts:580-591 | the test is the specification's test on the document as it stands |
| `Document.LegacyDocument.RemoveBelow` | lib/legacy.ts:592-596 | every node below the element, and only those, is removed |
| `Transform.FirstDescription` | lib/legacy.ts:501-503 | the index found is a `meta` named `description` with none before it, and nothing is found only when the page has none |
| `Transform.FirstDescriptionFirst` | lib/legacy.ts:501-503 | a description `meta` with none before it is the one `$('meta[name="description"]')` reads first |
| `Transform.TransformWith` | lib/legacy.ts:494-663 | the step-by-step rewrite of one document with the rewrites `fx` gives the rewrite's specification with `fx` |
| `Transform.TransformLegacyHtml` | lib/legacy.ts:494-663 | `transformLegacyHtml` gives the rewrite's specification with the page's rewrites as written |
| `Transform.SiteNameClean` | lib/site.ts:1 | the site's name names no old brand |
| `Transform.PageTitle` | lib/legacy.ts:500 | the title is never empty |
| `Transform.PageDescription` | lib/legacy.ts:501-503 | a page without a description `meta` gets the brand rewrite of the empty text; otherwise the content of the first one, or the empty text when that one has no `content`, is rewritten |
| `Transform.TransformSpec` | lib/legacy.ts:494-663 | the rewritten page always has a title |
| `Transform.TitleClean` | lib/legacy.ts:500 | with the brand rewrite as written or corrected, the title names no old brand |
| `Transform.DescriptionClean` | lib/legacy.ts:501-503 | with the brand rewrite as written or corrected, the description names no old brand, and it is empty when the page has none |
| `Transform.FinishedTextClean` | lib/legacy.ts:658-659 | with the brand rewrite as written or corrected, no text of the finished page names an old brand |
| `Transform.FinishedLabelsClean` | lib/legacy.ts:658-659 | with the brand rewrite as written or corrected, no label of the finished page names an old brand |
| `Transform.RenderedClean` | lib/legacy.ts:494-663 | with the brand rewrite as written or corrected, the title and description handed back name no old brand |
| `Pages.PageFor` | lib/legacy.ts:666-690 | a request that resolves to nothing gets the not-found page; otherwise the page, rewritten as written, keeps the file's route key |
| `Pages.PageClean` | lib/legacy.ts:666-690 | every page served has a title, and neither title nor description names an old brand |
| `Pages.GetLegacyPage` | lib/legacy.ts:666-690 | `getLegacyPage` gives the page its specification says |
| `Pages.PageCache.constructor` | lib/legacy.ts:666 | the cache starts empty around its page function |
| `Pages.PageCache.Get` | lib/legacy.ts:666 | a cached page is the one the page function gives |
| `Pages.CachedPage` | lib/legacy.ts:666-690 | a page served from the cache is the page worked out afresh |
| `Contact.ToTrimmedString` | app/api/contact/route.ts:5-6 | a non-string gives the empty text; the result has no white space at either end |
| `Contact.TrimmedInside` | app/api/contact/route.ts:5-6 | only white space at the two ends of a string is cut off |
| `Contact.ToOptionalTrimmedString` | app/api/contact/route.ts:8-11 | `null` exactly when the trimmed text is empty, and that text otherwise |
| `Contact.Read` | app/api/contact/route.ts:23-27 | the fields read are trimmed, and the optional ones are absent rather than empty |
| `Contact.Judge` | app/api/contact/route.ts:29-62 | accepted exactly when an entry is logged, with status 200 and that entry; refused with 400 and one of the two messages |
| `Contact.Post` | app/api/contact/route.ts:13-63 | accepted exactly when an entry is logged, and every logged entry is valid |
| `Contact.FalsyRefused` | app/api/contact/route.ts:14-21 | a body that does not parse, or is falsy, is refused as missing fields |
| `Contact.MissingBeforeTooLong` | app/api/contact/route.ts:29-41 | a missing field is reported before any length |
| `Contact.TooLongExactly` | app/api/contact/route.ts:36-41 | with the fields present, a request is too long exactly when a field is over 120, 60 or 5000 UTF-16 units |
| `Contact.AcceptedEntry` | app/api/contact/route.ts:43-50 | an accepted request logs exactly the trimmed fields of its body |
| `Contact.JudgeValid` | app/api/contact/route.ts:29-62 | a valid entry passes every check |
| `Contact.ResubmitEntry` | app/api/contact/route.ts:13-63 | a logged line sent again is accepted and logs the same entry |
| `Contact.ContactLog.constructor` | app/api/contact/route.ts:52-57 | the log starts empty |
| `Contact.ContactLog.Handle` | app/api/contact/route.ts:13-63 | the reply is the handler's, the entry is appended only when accepted, and every logged entry stays valid |

## Left out

- `toLowerCase` is modelled for ASCII letters only. Other characters are left as they are, which is exact for every text the comparisons use. The special cases of full Unicode case mapping are not modelled.
- cheerio's parser and serialisers (`cheerio.load`, `$.html(el)`, `body.html()`) are the functions of `Dom.Markup`. How HTML is tokenised, how entities are kept and how markup is printed are not modelled.
- The page's nodes form a flat list in document order. A removed node stays as a `Gone` placeholder, so indices never shift. A node inserted by `replaceWith` takes the replaced node's place.
- Selectors are modelled as the passes use them: the first `body` element, the first `title`, the first `meta` named `description`, the `svg` children of `html`, and the descendants of the body. Pages with several `body` elements are not modelled beyond the first.
- The text of a `<style>` element is its one text node. `$el.html()` and `$el.html(css)` read and write that text, not markup.
- Every pass is proved to rewrite each node from the document as it stood before the pass. This holds because no pass moves a node or changes a tag, class or id. The `svg` loop is the exception, and `LogoSvgs` models it step by step.
- The rewrites a page runs are the fields of a `Passes.Tools` record. `Passes.ToolsFor` builds them from the page's folder and site: as written when `corrected` is false, and with the corrected brand, background and route rewrites when it is true. `Transform.TransformLegacyHtml`, `Pages.PageFor` and `Pages.GetLegacyPage` use the rewrites as written. The corrected instance is `Transform.TransformSpec` with `ToolsFor(w, pageDir, key, true)`, which `Transform.TransformWith` also computes.
- File-system calls (`existsSync`, `statSync().isFile()`) are the sets of files and other entries in `Env.Disk`. Reading the archive file is the `read` parameter; a read that fails is not modelled.
- `new URL(...)` and `encodeURI` are the functions of `Env.World`. A `None` from either stands for the thrown error.
- `Brand.ReplaceSiteNameAsWritten`: its own contract states only that the empty text is kept. What it does to other texts is stated by `Brand.NoLatinNameBeforeDomains`, `Brand.DomainRulesDeadAsWritten` and `Brand.BareDomainAsWritten`.
- `Brand.ReplaceSiteName`: its own contract states only that the empty text is kept. What it does to other texts is stated by `Brand.NoPersianName`, `Brand.NoLatinName`, `Brand.BareDomain` and `Brand.PanelDomain`.
- `Background.ApplyBackgroundTokensAsWritten`: its own contract states only that the empty text is kept. The match it rewrites is described by `Background.DeclOfSound`, `Background.HeadOfComplete` and `Background.ReplaceOneDecl`.
- `Background.ApplyBackgroundTokens`: the same as its as-written twin. `Background.WhiteDeclReplaced` and `Background.SixDigitWhite` state the difference.
- `StyleUrls.FixStyleUrls`: its own contract states only that the empty style is kept. The rewrite of each `url(...)` is stated by `StyleUrls.FixToken`, `StyleUrls.NoUrlKeeps` and `StyleUrls.LogoToken`.
- `Srcset.FirstTwoWords`: its own contract states only that the first word has no white space. The split is stated by `Srcset.WordsAt` and `Srcset.TwoWords`.
- `Images.AdoptLazySource`: its own contract states only that nothing but `src` changes. The value adopted is stated by `Images.NextSourceSpec`.
- `Images.SourceFixed`, `Images.LogoForced`, `Images.SrcsetFixed` and `Images.LoadingHints` state only which attributes each stage may change. Their values are stated, for the whole image pass, by `Images.LocalisedSource`, `Images.FinalSource`, `Images.FixImageSrcset` and `Images.FixImageHints`.
- `Passes.Retouch` and `Passes.AttrsFor` state only what stays unchanged. The values written are stated by `Passes.RetouchAt`, `Passes.LabelsAt`, `Passes.PaintAt` and `Passes.AnchorPassHref`.
- `Dom.Up` and `Dom.Ancestors` state only that every index found is an earlier element. That the list follows the parent links is their definition.
- `Routes.CollapseSpace`: does not state that each run of white space becomes one `-`; it states only that no white space is left and that the text gets no longer.
- `Routes.SanitizeRouteKey` states only that no white space is left. `Routes.SanitizeRouteKeySpec` gives the exact result for keys without white space.
- `Text.Utf16Length` states only the bounds of one to two code units per character.
- `Pages.PageFor` states the not-found page and the route key. The page's markup, title and description are stated by `Transform.TransformLegacyHtml` and `Pages.PageClean`.
- `Links.ToLocalRoute` states only that each link is kept, trimmed, or becomes a route starting with `/`. The branches are stated by `Links.ToLocalRouteKeeps`, `Links.ToLocalRouteOwnHost` and `Links.ToLocalRouteRelative`.
- `Passes.AnchorHref` states only that the target is the renamed link, trimmed or not, or a route starting with `/`. Which one is stated by the lemmas about `Links.ToLocalRoute` and `Links.RewriteExternalBrandUrl`.
- `Assets.ToLocalAsset` states only the URLs it keeps. The other branches are stated by `Assets.ProtocolRelativeUpgraded`, `Assets.ToLocalAssetRooted`, `Assets.ToLocalAssetRelative`, `Assets.LocalBranchesResolve` and the lemmas about `Assets.ExternalAsset`.
- `Images.FixImage` states only that the class and id are kept and that `decoding` is set. The other attributes are stated by `Images.FixImageKeepsOthers`, `Images.FixImageHints`, `Images.FixImageDropsLazy`, `Images.FixImageSrcset`, `Images.FixImageLogo` and `Images.FixImageSource`.
- `Srcset.FixSrcset` states only the list with one candidate. Longer lists are stated by `Srcset.FirstEntry`, and each candidate by `Srcset.EntryKeepsDescriptor` and `Srcset.EntryWithoutDescriptor`.
- `Background.ReplaceDecls` states only that a text without `background` is kept. A matched declaration is stated by `Background.ReplaceOneDecl` and `Background.DeclOfSound`.
- `Transform.PageTitle` and `Transform.TransformSpec` state only that the title is never empty, and `Transform.PageDescription` only which text it hands to the brand rewrite. That title and description name no old brand is stated by `Transform.TitleClean`, `Transform.DescriptionClean` and `Transform.RenderedClean`.
- `Passes.ToolsFor` states only that the image rewrite keeps the class and id. What each rewrite does is stated by the lemmas about the function it wraps.
- A Dafny `string` holds Unicode scalar values, so a text with a lone UTF-16 surrogate (a JSON body holding `"\ud800"`, which `request.json()` accepts) cannot be represented. `Text.Utf16Length` and the contact handler's length limits are modelled for well-formed text only.
- `Env.NormalizeUrl`: its contract states only the error path (the text is kept). The encoded text comes from the `encodeURI` function of `Env.World`.
- `Pages.PageCache` is keyed by the value of the segments. React's `cache` is keyed by identity and scoped to one request, so the model does not capture its lifetime, its sharing across requests or concurrent first requests.
- `Contact.ContactLog.Handle`: the timestamp (`createdAt`) and the JSONL text of each line are not part of the logged `Entry`. `Contact.EntryJson` models a line as a JSON object, and `JSON.stringify` is not modelled.
- JSON numbers are reals. A request body whose JSON is not an object yields no fields, as in JavaScript.
- Creating the `data` directory and appending to the file are the append to `Contact.ContactLog.entries`. Failures of that I/O are not modelled.
- The React components, layout, route pages and scripts of the repository are not part of this model.
- `Routes.ResolveLegacyFile` takes `process.cwd()` as `World.cwd`. The archive roots are derived from it as in the source.

## Findings

| source | as written | input that shows it | evidently intended | confidence | as-written member | corrected member |
|---|---|---|---|---|---|---|
| lib/legacy.ts:346-353 | `/mihan\s*shop/gi` runs before the four domain rules, so they never apply | `mihanshop.com` becomes `Website Bama.com`, not `websithebama.com` | old domains become the new domains | not executed | `Brand.BareDomainAsWritten`, `Brand.DomainRulesDeadAsWritten` | `Brand.ReplaceSiteName`, `Brand.BareDomain`, `Brand.PanelDomain` |
| lib/legacy.ts:463 | the alternation `#fff\|#ffffff` takes `#fff` first | `background: #ffffff` becomes `background: var(--surface)fff;` | the whole six-digit white becomes the surface token | not executed | `Background.SixDigitWhiteAsWritten`, `Background.WhiteDeclAsWritten` | `Background.SixDigitWhite`, `Background.WhiteDeclReplaced` |
| lib/legacy.ts:213-214 | a root-relative link is joined onto the page's folder | `/about` on a page in `blog/` becomes `/blog/about` | a root-relative link names the same route on every page | not executed | `Links.RootRelativeJoinedAsWritten` | `Links.RootRelativeIgnoresPageDir`, `Links.RootRelativeAbout` |
| lib/legacy.ts:203 | only one leading `/` of the pathname is dropped before `/` is put in front | `https://mihanshop.com//example.org/` becomes `//example.org/`, a link to another host | a link to the site stays a route of the site | not executed | `Links.DoubleSlashAsWritten` | `Links.DoubleSlashRouted` |

=== FILE: assets.dfy ===
/** The asset localizer: an asset URL of an archived page becomes a path of
    the local mirror under `/legacy/`, a path of the remote mirror under
    `/remote/`, or the encoded original, in an order that depends on the
    class of its host. */
module Assets {
  import opened Text
  import opened Site
  import opened Hosts
  import opened Posix
  import opened Env
  import opened Routes
  import opened Links

  /** What a missing local asset is replaced by when no fallback is given. */
  const DefaultAsset: string := "/Logo.png"

  /** The file behind a site path: `path.join(cwd, 'public', rel)`. */
  function PublicFile(w: World, rel: string): string {
    JoinPaths([w.cwd, "public", rel])
  }

  /** `ensureLocalAsset`: a `/legacy/` URL is kept when its file is in the
      public directory, and replaced by the fallback (the logo when there is
      none) otherwise; any other URL is kept. */
  function EnsureLocalAsset(w: World, url: string, fallback: Option<string>): (r: string)
    ensures !StartsWith(url, "/legacy/") ==> r == url
    ensures StartsWith(url, "/legacy/") ==>
      (if Exists(w.disk, PublicFile(w, url[1..])) then r == url
       else r == (if fallback.Some? then fallback.value else DefaultAsset))
  {
    if !StartsWith(url, "/legacy/") then url
    else if Exists(w.disk, PublicFile(w, DropPrefix(url, "/"))) then url
    else if fallback.Some? then fallback.value
    else DefaultAsset
  }

  /** The path of the remote mirror for `host` and `pathname`. */
  function RemoteUrl(host: string, pathname: string): string {
    "/remote/" + host + pathname
  }

  /** The file of the remote mirror: the pathname, without its leading
      slashes, below `public/remote/<host>`. */
  function RemoteFile(w: World, host: string, pathname: string): string {
    JoinPaths([w.cwd, "public", "remote", host, DropSlashes(pathname)])
  }

  /** `ensureRemoteAsset`: the remote mirror's path when its file is there,
      the fallback otherwise. */
  function EnsureRemoteAsset(w: World, host: string, pathname: string, fallback: string): (r: string)
    ensures r == RemoteUrl(host, pathname) || r == fallback
    ensures r == RemoteUrl(host, pathname) <==> Exists(w.disk, RemoteFile(w, host, pathname)) || fallback == RemoteUrl(host, pathname)
  {
    if Exists(w.disk, RemoteFile(w, host, pathname)) then RemoteUrl(host, pathname) else fallback
  }

  /** The archive a root-relative asset of a page is looked up in. */
  function BaseDomain(key: SiteKey): (d: string)
    ensures d in Domains
  {
    if key == PanelSite then Panel else Primary
  }

  /** Links that are kept as they are, once trimmed. */
  predicate KeptAsIs(t: string) {
    StartsWith(t, "data:") || StartsWith(t, "blob:") || StartsWith(t, "#") || StartsWith(t, "mailto:") || StartsWith(t, "tel:")
  }

  /** A protocol-relative URL gets the `https:` scheme. */
  function WithScheme(t: string): string {
    if StartsWith(t, "//") then "https:" + t else t
  }

  /** `toLocalAsset`: the empty URL is kept, and so are data, blob,
      fragment, `mailto:` and `tel:` URLs, trimmed. */
  function ToLocalAsset(w: World, raw: string, pageDir: string, key: SiteKey): (r: string)
    ensures |raw| == 0 ==> r == raw
    ensures |raw| > 0 && KeptAsIs(Trim(raw)) ==> r == Trim(raw)
  {
    if |raw| == 0 then raw else TrimmedAsset(w, Trim(raw), pageDir, key)
  }

  /** The trimmed URL: kept, or given its scheme and localised. */
  function TrimmedAsset(w: World, trimmed: string, pageDir: string, key: SiteKey): string {
    if KeptAsIs(trimmed) then trimmed else SchemedAsset(w, WithScheme(trimmed), pageDir, key)
  }

  /** An absolute URL, a root-relative one, or a path of the archive. */
  function SchemedAsset(w: World, t: string, pageDir: string, key: SiteKey): string {
    if IsExternal(t) then ExternalAsset(w, t)
    else if StartsWith(t, "/") then RootedAsset(w, t, key)
    else RelativeAsset(w, Localize(pageDir, t), key)
  }

  /** A root-relative URL, looked up in the page's archive. */
  function RootedAsset(w: World, t: string, key: SiteKey): string {
    EnsureLocalAsset(w, "/legacy/" + BaseDomain(key) + t, None)
  }

  /** An absolute asset URL, by the class of its (normalised) host: the API
      and the panel try the local mirror, the primary domain the local and
      then the remote mirror, the CDN and the site's other sub-domains the
      remote mirror; each falls back to the encoded original, and so does
      every other host and a URL that does not parse. */
  function ExternalAsset(w: World, t: string): string {
    var original := NormalizeUrl(w, t);
    match w.parse(t)
    case None => original
    case Some(u) =>
      var host := NormalizeLegacyHost(u.hostname);
      if host == Api then EnsureLocalAsset(w, "/legacy/" + Api + u.pathname, Some(original))
      else if host == Panel then EnsureLocalAsset(w, "/legacy/" + Panel + u.pathname, Some(original))
      else if host == Primary then
        var local := EnsureLocalAsset(w, "/legacy/" + Primary + u.pathname, Some(""));
        if |local| > 0 then local else EnsureRemoteAsset(w, host, u.pathname, original)
      else if host == Cdn || IsLegacyHost(host) then EnsureRemoteAsset(w, host, u.pathname, original)
      else original
  }

  /** A path of the archive: under its own domain's archive when it starts
      with a domain's directory, under the page's archive otherwise. */
  function RelativeAsset(w: World, normalized: string, key: SiteKey): string {
    if StartsWith(normalized, Api + "/") || StartsWith(normalized, Panel + "/") || StartsWith(normalized, Primary + "/") then
      EnsureLocalAsset(w, "/legacy/" + normalized, None)
    else EnsureLocalAsset(w, "/legacy/" + BaseDomain(key) + "/" + normalized, None)
  }

  /** A protocol-relative URL is handled as the `https:` URL it stands for. */
  lemma ProtocolRelativeUpgraded(w: World, raw: string, pageDir: string, key: SiteKey)
    requires |raw| > 0 && StartsWith(Trim(raw), "//")
    ensures ToLocalAsset(w, raw, pageDir, key) == ExternalAsset(w, "https:" + Trim(raw))
  {
    SchemeUpgrade(w, Trim(raw), pageDir, key);
  }

  lemma SchemeUpgrade(w: World, t: string, pageDir: string, key: SiteKey)
    requires StartsWith(t, "//")
    ensures TrimmedAsset(w, t, pageDir, key) == ExternalAsset(w, "https:" + t)
  {
    SlashNotKept(t);
    HttpsIsExternal(t);
    assert WithScheme(t) == "https:" + t;
  }

  /** A URL that starts with `/` is not one of the kept kinds. */
  lemma SlashNotKept(t: string)
    requires |t| > 0 && t[0] == '/'
    ensures !KeptAsIs(t)
  {
    if |t| >= 3 {
      assert t[..3][0] == '/';
    }
  }

  lemma HttpsIsExternal(t: string)
    requires StartsWith(t, "//")
    ensures IsExternal("https:" + t)
  {
    var u := "https:" + t;
    assert u[..8] == "https://";
    assert EqualsLower(u[..8], "https://");
  }

  /** An `http:` or `https:` URL is not one of the kept kinds. */
  lemma ExternalNotKept(t: string)
    requires IsExternal(t)
    ensures !KeptAsIs(t)
  {
    assert LowerChar(t[..4][0]) == 'h';
  }

  /** A URL that is neither kept, nor absolute, nor protocol-relative, nor
      root-relative is a path of the archive, taken against the page's
      directory exactly as a link is. */
  lemma ToLocalAssetRelative(w: World, raw: string, pageDir: string, key: SiteKey)
    requires |raw| > 0 && !KeptAsIs(Trim(raw)) && !IsExternal(Trim(raw)) && !StartsWith(Trim(raw), "/")
    ensures ToLocalAsset(w, raw, pageDir, key) == RelativeAsset(w, Localize(pageDir, Trim(raw)), key)
  {
    var t := Trim(raw);
    assert WithScheme(t) == t;
  }

  /** A root-relative URL is looked up in the page's archive. */
  lemma ToLocalAssetRooted(w: World, raw: string, pageDir: string, key: SiteKey)
    requires |raw| > 0 && !KeptAsIs(Trim(raw)) && !IsExternal(Trim(raw))
    requires StartsWith(Trim(raw), "/") && !StartsWith(Trim(raw), "//")
    ensures ToLocalAsset(w, raw, pageDir, key) == RootedAsset(w, Trim(raw), key)
  {
    assert WithScheme(Trim(raw)) == Trim(raw);
  }

  /** A `/legacy/` URL that `ensureLocalAsset` hands out without a fallback
      is one whose file is there; otherwise it hands out the logo. */
  lemma LocalAssetResolves(w: World, url: string)
    requires StartsWith(url, "/legacy/")
    ensures var r := EnsureLocalAsset(w, url, None);
      (r == url && Exists(w.disk, PublicFile(w, url[1..]))) || (r == DefaultAsset && !Exists(w.disk, PublicFile(w, url[1..])))
  {
  }

  /** Every root-relative or page-relative asset becomes a `/legacy/` URL
      whose file is in the public directory, or the logo. */
  lemma LocalBranchesResolve(w: World, raw: string, pageDir: string, key: SiteKey)
    requires |raw| > 0 && !KeptAsIs(Trim(raw)) && !IsExternal(WithScheme(Trim(raw)))
    ensures var r := ToLocalAsset(w, raw, pageDir, key);
      r == DefaultAsset || (StartsWith(r, "/legacy/") && Exists(w.disk, PublicFile(w, r[1..])))
  {
    var t := WithScheme(Trim(raw));
    assert ToLocalAsset(w, raw, pageDir, key) == SchemedAsset(w, t, pageDir, key);
    if StartsWith(t, "/") {
      RootedAssetResolves(w, t, key);
    } else {
      RelativeAssetResolves(w, Localize(pageDir, t), key);
    }
  }

  /** A root-relative URL becomes a `/legacy/` URL whose file is there, or
      the logo. */
  lemma RootedAssetResolves(w: World, t: string, key: SiteKey)
    ensures var r := RootedAsset(w, t, key);
      r == DefaultAsset || (StartsWith(r, "/legacy/") && Exists(w.disk, PublicFile(w, r[1..])))
  {
    var x := BaseDomain(key) + t;
    assert "/legacy/" + BaseDomain(key) + t == "/legacy/" + x;
    LegacyLed(x);
    LocalAssetResolves(w, "/legacy/" + x);
  }

  /** A path of the archive becomes a `/legacy/` URL whose file is there, or
      the logo. */
  lemma RelativeAssetResolves(w: World, n: string, key: SiteKey)
    ensures var r := RelativeAsset(w, n, key);
      r == DefaultAsset || (StartsWith(r, "/legacy/") && Exists(w.disk, PublicFile(w, r[1..])))
  {
    var x := if StartsWith(n, Api + "/") || StartsWith(n, Panel + "/") || StartsWith(n, Primary + "/") then n
      else BaseDomain(key) + "/" + n;
    assert "/legacy/" + BaseDomain(key) + "/" + n == "/legacy/" + (BaseDomain(key) + "/" + n);
    assert RelativeAsset(w, n, key) == EnsureLocalAsset(w, "/legacy/" + x, None);
    LegacyLed(x);
    LocalAssetResolves(w, "/legacy/" + x);
  }

  lemma LegacyLed(x: string)
    ensures StartsWith("/legacy/" + x, "/legacy/")
  {
    assert ("/legacy/" + x)[..8] == "/legacy/";
  }

  /** The API and the panel: the local mirror when the file is there, the
      encoded original otherwise; the remote mirror is never tried. */
  lemma ApiAndPanelLocalOnly(w: World, t: string)
    requires w.parse(t).Some? && NormalizeLegacyHost(w.parse(t).value.hostname) in {Api, Panel}
    ensures var u := w.parse(t).value;
      var local := "/legacy/" + NormalizeLegacyHost(u.hostname) + u.pathname;
      ExternalAsset(w, t) == (if Exists(w.disk, PublicFile(w, local[1..])) then local else NormalizeUrl(w, t))
  {
    var u := w.parse(t).value;
    LegacyLed(NormalizeLegacyHost(u.hostname) + u.pathname);
    assert "/legacy/" + NormalizeLegacyHost(u.hostname) + u.pathname == "/legacy/" + (NormalizeLegacyHost(u.hostname) + u.pathname);
  }

  /** The primary domain: the local mirror, then the remote mirror, then the
      encoded original. */
  lemma PrimaryLocalThenRemote(w: World, t: string)
    requires w.parse(t).Some? && NormalizeLegacyHost(w.parse(t).value.hostname) == Primary
    ensures var u := w.parse(t).value;
      var local := "/legacy/" + Primary + u.pathname;
      ExternalAsset(w, t) ==
        if Exists(w.disk, PublicFile(w, local[1..])) then local
        else if Exists(w.disk, RemoteFile(w, Primary, u.pathname)) then RemoteUrl(Primary, u.pathname)
        else NormalizeUrl(w, t)
  {
    var u := w.parse(t).value;
    LegacyLed(Primary + u.pathname);
    assert "/legacy/" + Primary + u.pathname == "/legacy/" + (Primary + u.pathname);
  }

  /** The CDN and the site's other sub-domains: the remote mirror, then the
      encoded original. */
  lemma OtherSiteHostsRemoteOnly(w: World, t: string)
    requires w.parse(t).Some?
    requires var h := NormalizeLegacyHost(w.parse(t).value.hostname); h !in {Api, Panel, Primary} && IsLegacyHost(h)
    ensures var u := w.parse(t).value;
      var h := NormalizeLegacyHost(u.hostname);
      ExternalAsset(w, t) ==
        if Exists(w.disk, RemoteFile(w, h, u.pathname)) then RemoteUrl(h, u.pathname) else NormalizeUrl(w, t)
  {
  }

  /** Every other host, and a URL that does not parse, gives the encoded
      original. */
  lemma ForeignAssetEncoded(w: World, t: string)
    requires w.parse(t).None? || !IsLegacyHost(NormalizeLegacyHost(w.parse(t).value.hostname))
    ensures ExternalAsset(w, t) == NormalizeUrl(w, t)
  {
    if w.parse(t).Some? {
      var h := NormalizeLegacyHost(w.parse(t).value.hostname);
      NormalizeIdempotent(w.parse(t).value.hostname);
      if h in Domains {
        IsLegacyHostSpec(h);
      }
    }
  }

  /** The host of an absolute asset URL only counts once normalised: a host
      of the old brand is handled as the canonical host it stands for. */
  lemma AliasedHostsAlike(w: World, t: string, t2: string)
    requires w.parse(t).Some? && w.parse(t2).Some?
    requires w.parse(t).value.pathname == w.parse(t2).value.pathname
    requires NormalizeLegacyHost(w.parse(t).value.hostname) == NormalizeLegacyHost(w.parse(t2).value.hostname)
    requires NormalizeUrl(w, t) == NormalizeUrl(w, t2)
    ensures ExternalAsset(w, t2) == ExternalAsset(w, t)
  {
  }

}

=== FILE: background.dfy ===
/** The white-background rewrite of inline styles: in every `background` or
    `background-color` declaration, the first white colour becomes the theme's
    surface variable. This is the regular expression
    `(background(?:-color)?\s*:\s*)([^;]*?)(#fff|#ffffff|white)([^;]*);?`
    with the `g` and `i` flags, read as the engine runs it. The functions
    compute the match and promise only the bounds they need; the lemmas
    after each state what the match is. */
module Background {
  import opened Text
  import opened Patterns
  import opened Env

  /** The colour alternatives in the order the expression lists them. */
  const WhitesAsWritten: seq<string> := ["#fff", "#ffffff", "white"]

  /** The same alternatives, the longer hex colour tried first. */
  const Whites: seq<string> := ["#ffffff", "#fff", "white"]

  const Surface: string := "var(--surface)"

  /** Alternatives are never empty. */
  predicate Alternatives(alts: seq<string>) {
    forall a :: 0 <= a < |alts| ==> |alts[a]| > 0
  }

  /** The first alternative, from index `a` on, that `t` starts with,
      ignoring case: the engine tries them in order. */
  function FirstAlt(alts: seq<string>, t: string, a: nat): (r: Option<nat>)
    decreases |alts| - a
    ensures r.Some? ==> a <= r.value < |alts| && |alts[r.value]| <= |t|
  {
    if a >= |alts| then None
    else if StartsLower(t, alts[a]) then Some(a)
    else FirstAlt(alts, t, a + 1)
  }

  /** `FirstAlt` finds a matching alternative with none before it, or
      reports that none matches. */
  lemma {:induction false} FirstAltSpec(alts: seq<string>, t: string, a: nat)
    decreases |alts| - a
    ensures FirstAlt(alts, t, a).Some? ==> StartsLower(t, alts[FirstAlt(alts, t, a).value])
    ensures FirstAlt(alts, t, a).Some? ==> forall b :: a <= b < FirstAlt(alts, t, a).value ==> !StartsLower(t, alts[b])
    ensures FirstAlt(alts, t, a).None? ==> forall b :: a <= b < |alts| ==> !StartsLower(t, alts[b])
  {
    if a < |alts| && !StartsLower(t, alts[a]) {
      FirstAltSpec(alts, t, a + 1);
    }
  }

  /** Some alternative matches at index `q` of `s`. */
  predicate AltAt(alts: seq<string>, s: string, q: nat)
    requires q <= |s|
  {
    FirstAlt(alts, s[q..], 0).Some?
  }

  /** No `;` in `s` from `k` up to `q`. */
  predicate NoSemi(s: string, k: nat, q: nat)
    requires k <= q <= |s|
  {
    forall r :: k <= r < q ==> s[r] != ';'
  }

  /** The lazy `[^;]*?` followed by the alternatives: the first index from
      `k` on, before any `;`, where an alternative matches, and which one. */
  function LazyScan(alts: seq<string>, s: string, k: nat): (r: Option<(nat, nat)>)
    requires k <= |s|
    decreases |s| - k
    ensures r.Some? ==> k <= r.value.0 && r.value.1 < |alts| && r.value.0 + |alts[r.value.1]| <= |s|
  {
    match FirstAlt(alts, s[k..], 0)
    case Some(a) => Some((k, a))
    case None =>
      if k == |s| || s[k] == ';' then None
      else LazyScan(alts, s, k + 1)
  }

  /** The scan stops at the first index where an alternative matches, with
      no `;` on the way, and finds none only if there is none before the
      next `;`. */
  lemma {:induction false} LazyScanSpec(alts: seq<string>, s: string, k: nat)
    requires k <= |s|
    decreases |s| - k
    ensures LazyScan(alts, s, k).Some? ==>
      var p := LazyScan(alts, s, k).value.0;
      && NoSemi(s, k, p)
      && FirstAlt(alts, s[p..], 0) == Some(LazyScan(alts, s, k).value.1)
      && forall q :: k <= q < p ==> !AltAt(alts, s, q)
    ensures LazyScan(alts, s, k).None? ==>
      forall q :: k <= q <= |s| && NoSemi(s, k, q) ==> !AltAt(alts, s, q)
  {
    if FirstAlt(alts, s[k..], 0).None? && k < |s| && s[k] != ';' {
      LazyScanSpec(alts, s, k + 1);
    }
  }

  /** The greedy `[^;]*`: the index of the first `;` from `k` on, or the end. */
  function SemiFrom(s: string, k: nat): (e: nat)
    requires k <= |s|
    decreases |s| - k
    ensures k <= e <= |s| && NoSemi(s, k, e)
    ensures e < |s| ==> s[e] == ';'
  {
    if k == |s| || s[k] == ';' then k else SemiFrom(s, k + 1)
  }

  /** `s` starts with `background`, or with `background-color` when `n` is
      16, then white space up to a colon at index `c`. */
  predicate NameAt(s: string, n: nat, c: nat) {
    && StartsLower(s, "background")
    && (n == 10 || (n == 16 && 16 <= |s| && StartsLower(s[10..], "-color")))
    && n <= c < |s| && s[c] == ':' && AllSpace(s[n..c])
  }

  /** Where the first group ends in `s`: the property name, white space,
      the colon and white space. */
  datatype Head = Head(name: nat, colon: nat, end: nat)

  /** The property name as the engine matches it: `-color` is taken when
      it is there. */
  function NameLen(s: string): (n: nat)
    requires StartsLower(s, "background")
    ensures n == 10 || n == 16
    ensures n <= |s|
  {
    if StartsLower(s[10..], "-color") then 16 else 10
  }

  /** The first group as the engine matches it. Backtracking never finds
      another (see `HeadOfComplete`): the optional `-color` can only be
      dropped where its `-` would have to be a space or the colon, and fewer
      spaces after the colon only make the lazy group start on a space,
      where no colour alternative matches. */
  function HeadOf(s: string): (r: Option<Head>)
    ensures r.Some? ==> r.value.end <= |s|
  {
    if !StartsLower(s, "background") then None
    else
      var n := NameLen(s);
      var c := n + SpaceRun(s[n..]);
      if c < |s| && s[c] == ':' then Some(Head(n, c, c + 1 + SpaceRun(s[c + 1..])))
      else None
  }

  /** What `HeadOf` finds is a name, white space and a colon, followed by
      the longest run of white space. */
  lemma HeadOfSound(s: string)
    requires HeadOf(s).Some?
    ensures NameAt(s, HeadOf(s).value.name, HeadOf(s).value.colon)
    ensures HeadOf(s).value.end == HeadOf(s).value.colon + 1 + SpaceRun(s[HeadOf(s).value.colon + 1..])
  {
    var n := NameLen(s);
    var c := n + SpaceRun(s[n..]);
    SpaceRunSpaces(s[n..]);
    assert s[n..c] == s[n..][..c - n];
  }

  /** After `background-`, neither white space nor a colon can follow the
      word `background`. */
  lemma DashBlocksColon(s: string)
    requires 16 <= |s| && StartsLower(s[10..], "-color")
    ensures forall c :: 10 <= c < |s| && AllSpace(s[10..c]) ==> s[c] != ':'
  {
    assert s[10..][0] == s[10];
  }

  /** Any way of reading a name, white space and a colon at the start of
      `s` is the one `HeadOf` finds: the first group is fixed by the text. */
  lemma HeadOfComplete(s: string, m: nat, c: nat)
    requires NameAt(s, m, c)
    ensures HeadOf(s).Some? && HeadOf(s).value.name == m && HeadOf(s).value.colon == c
  {
    var n := NameLen(s);
    if n == 16 {
      DashBlocksColon(s);
    }
    assert m == n;
    var t := s[n..];
    assert t[..c - n] == s[n..c];
    assert t[c - n] == s[c];
    RunUnique(t, c - n);
  }

  /** One declaration matched at the start of the text: the first group
      ends at `head`, the colour alternative `alt` starts at `colour`, the
      rest of the value ends at `rest`, and a `;` there is taken too. */
  datatype Decl = Decl(head: nat, colour: nat, alt: nat, rest: nat, semi: bool)

  /** The whole match of the expression at the start of `s`. */
  function DeclOf(alts: seq<string>, s: string): (r: Option<Decl>)
    ensures r.Some? ==> r.value.alt < |alts| && r.value.colour + |alts[r.value.alt]| <= r.value.rest <= |s|
    ensures r.Some? ==> (r.value.semi <==> r.value.rest < |s|)
  {
    match HeadOf(s)
    case None => None
    case Some(h) =>
      match LazyScan(alts, s, h.end)
      case None => None
      case Some((p, a)) =>
        var e := SemiFrom(s, p + |alts[a]|);
        Some(Decl(h.end, p, a, e, e < |s|))
  }

  /** A match is the first group, a run without `;` in which no alternative
      matches, the first alternative that matches after it, the longest run
      without `;`, and the `;` that ends it if there is one. */
  lemma DeclOfSound(alts: seq<string>, s: string)
    requires DeclOf(alts, s).Some?
    ensures HeadOf(s).Some? && DeclOf(alts, s).value.head == HeadOf(s).value.end
    ensures DeclOf(alts, s).value.head <= DeclOf(alts, s).value.colour
    ensures NoSemi(s, DeclOf(alts, s).value.head, DeclOf(alts, s).value.colour)
    ensures forall q :: DeclOf(alts, s).value.head <= q < DeclOf(alts, s).value.colour ==> !AltAt(alts, s, q)
    ensures FirstAlt(alts, s[DeclOf(alts, s).value.colour..], 0) == Some(DeclOf(alts, s).value.alt)
    ensures NoSemi(s, DeclOf(alts, s).value.colour + |alts[DeclOf(alts, s).value.alt]|, DeclOf(alts, s).value.rest)
    ensures DeclOf(alts, s).value.rest < |s| ==> s[DeclOf(alts, s).value.rest] == ';'
  {
    LazyScanSpec(alts, s, HeadOf(s).value.end);
  }

  /** There is no match after a first group only when no alternative
      matches before the next `;`. */
  lemma DeclOfNone(alts: seq<string>, s: string)
    requires DeclOf(alts, s).None? && HeadOf(s).Some?
    ensures forall q :: HeadOf(s).value.end <= q <= |s| && NoSemi(s, HeadOf(s).value.end, q) ==> !AltAt(alts, s, q)
  {
    LazyScanSpec(alts, s, HeadOf(s).value.end);
  }

  /** How much of the text a declaration match covers. */
  function DeclEnd(d: Decl): nat {
    if d.semi then d.rest + 1 else d.rest
  }

  /** The replacement of a match: the first group and the text before the
      colour, the surface variable, the text after it, and one `;`. */
  function Render(alts: seq<string>, s: string, d: Decl): string
    requires d.alt < |alts| && d.colour + |alts[d.alt]| <= d.rest <= |s|
  {
    s[..d.colour] + Surface + s[d.colour + |alts[d.alt]|..d.rest] + ";"
  }

  /** `s` holds the word `background` nowhere, in any case. */
  predicate NoBackground(s: string) {
    forall i :: 0 <= i <= |s| ==> !StartsLower(s[i..], "background")
  }

  lemma NoBackgroundTail(s: string)
    requires |s| > 0
    ensures NoBackground(s) ==> !StartsLower(s, "background") && NoBackground(s[1..])
  {
    if NoBackground(s) {
      assert s[0..] == s;
      forall i | 0 <= i <= |s[1..]| ensures !StartsLower(s[1..][i..], "background") {
        assert s[1..][i..] == s[i + 1..];
      }
    }
  }

  /** Every match, leftmost first and without overlap, replaced: a text
      without the word `background`, in any case, is left alone. */
  function ReplaceDecls(alts: seq<string>, s: string): (r: string)
    ensures NoBackground(s) ==> r == s
    decreases |s|
  {
    if |s| == 0 then ""
    else
      NoBackgroundTail(s);
      match DeclOf(alts, s)
      case Some(d) =>
        if DeclEnd(d) == 0 then [s[0]] + ReplaceDecls(alts, s[1..])
        else Render(alts, s, d) + ReplaceDecls(alts, s[DeclEnd(d)..])
      case None => [s[0]] + ReplaceDecls(alts, s[1..])
  }

  lemma WhitesNonEmpty()
    ensures Alternatives(WhitesAsWritten) && Alternatives(Whites)
  {
  }

  /** `applyBackgroundTokens` as written: `#fff` is tried before `#ffffff`. */
  function ApplyBackgroundTokensAsWritten(v: string): (r: string)
    ensures |v| == 0 ==> r == v
  {
    ReplaceDecls(WhitesAsWritten, v)
  }

  /** `applyBackgroundTokens` with the six-digit white tried first. */
  function ApplyBackgroundTokens(v: string): (r: string)
    ensures |v| == 0 ==> r == v
  {
    ReplaceDecls(Whites, v)
  }

  /** As written, a six-digit white matches its first alternative, `#fff`,
      and leaves its last three digits behind. */
  lemma SixDigitWhiteAsWritten(t: string)
    requires StartsLower(t, "#ffffff")
    ensures FirstAlt(WhitesAsWritten, t, 0) == Some(0) && |WhitesAsWritten[0]| == 4
  {
  }

  /** With the longer alternative first, a six-digit white is taken whole,
      and a three-digit white still matches. */
  lemma SixDigitWhite(t: string)
    ensures StartsLower(t, "#ffffff") ==> FirstAlt(Whites, t, 0) == Some(0) && |Whites[0]| == 7
    ensures !StartsLower(t, "#ffffff") && StartsLower(t, "#fff") ==> FirstAlt(Whites, t, 0) == Some(1)
  {
  }

  /** The declaration the two readings disagree on: `background: #ffffff`. */
  const WhiteName: string := "background: "
  const WhiteHex: string := "#ffffff"
  const WhiteDecl: string := WhiteName + WhiteHex

  /** `background:` and one space before a value: the first group ends
      after that space. */
  lemma HeadAfterSpace(s: string)
    requires 12 < |s| && StartsLower(s, "background")
    requires s[10] == ':' && s[11] == ' ' && !IsSpace(s[12])
    ensures HeadOf(s).Some? && HeadOf(s).value.end == 12
  {
    assert s[10..][0] == ':';
    assert !StartsLower(s[10..], "-color");
    assert NameLen(s) == 10;
    assert SpaceRun(s[10..]) == 0;
    var u := s[11..];
    assert u[0] == ' ' && u[1..][0] == s[12];
    assert SpaceRun(u[1..]) == 0;
    assert SpaceRun(u) == 1;
  }

  /** The first group of `WhiteDecl` ends after the space behind the colon. */
  lemma WhiteDeclHead()
    ensures HeadOf(WhiteDecl).Some? && HeadOf(WhiteDecl).value.end == 12
  {
    var s := WhiteDecl;
    assert s[..10] == "background" && s[10] == ':' && s[11] == ' ' && s[12] == '#';
    HeadAfterSpace(s);
  }

  /** The colour of `WhiteDecl` starts at 12, and the rest of the value runs
      to its end. */
  lemma WhiteDeclScan(alts: seq<string>, a: nat)
    requires FirstAlt(alts, WhiteHex, 0) == Some(a)
    ensures DeclOf(alts, WhiteDecl).Some?
    ensures DeclOf(alts, WhiteDecl).value.colour == 12
    ensures DeclOf(alts, WhiteDecl).value.alt == a
    ensures DeclOf(alts, WhiteDecl).value.rest == 19
  {
    WhiteDeclHead();
    var s := WhiteDecl;
    assert s[12..] == WhiteHex;
    assert LazyScan(alts, s, 12) == Some((12, a));
    assert SemiFrom(s, 12 + |alts[a]|) == 19;
  }

  /** A text that is one declaration and nothing more is replaced once. */
  lemma ReplaceOneDecl(alts: seq<string>, s: string)
    requires |s| > 0 && DeclOf(alts, s).Some? && DeclEnd(DeclOf(alts, s).value) == |s|
    ensures ReplaceDecls(alts, s) == Render(alts, s, DeclOf(alts, s).value)
  {
    assert s[|s|..] == [];
  }

  /** `#ffffff` starts, in lower case, with itself. */
  lemma WhiteHexLower()
    ensures StartsLower(WhiteHex, "#ffffff")
  {
    forall k | 0 <= k < 7
      ensures LowerChar(WhiteHex[k]) == WhiteHex[k]
    {
      assert WhiteHex[k] == '#' || WhiteHex[k] == 'f';
    }
  }

  /** A match over the whole of `WhiteDecl` keeps what follows the
      alternative it found. */
  lemma WhiteRendered(alts: seq<string>, d: Decl)
    requires d.alt < |alts| && d.colour == 12 && d.rest == 19 && 12 + |alts[d.alt]| <= 19
    ensures Render(alts, WhiteDecl, d) == WhiteName + Surface + WhiteHex[|alts[d.alt]|..] + ";"
  {
    var s := WhiteDecl;
    assert s[..12] == WhiteName;
    assert s[12 + |alts[d.alt]|..19] == WhiteHex[|alts[d.alt]|..];
  }

  /** As written, `background: #ffffff` keeps `fff` after the surface. */
  lemma WhiteDeclAsWritten()
    ensures ApplyBackgroundTokensAsWritten(WhiteDecl) == WhiteName + Surface + "fff" + ";"
  {
    WhiteHexLower();
    SixDigitWhiteAsWritten(WhiteHex);
    WhiteDeclScan(WhitesAsWritten, 0);
    ReplaceOneDecl(WhitesAsWritten, WhiteDecl);
    WhiteRendered(WhitesAsWritten, DeclOf(WhitesAsWritten, WhiteDecl).value);
    assert WhiteHex[4..] == "fff";
  }

  /** With the six-digit white first, the whole colour becomes the surface. */
  lemma WhiteDeclReplaced()
    ensures ApplyBackgroundTokens(WhiteDecl) == WhiteName + Surface + ";"
  {
    WhiteHexLower();
    SixDigitWhite(WhiteHex);
    WhiteDeclScan(Whites, 0);
    ReplaceOneDecl(Whites, WhiteDecl);
    WhiteRendered(Whites, DeclOf(Whites, WhiteDecl).value);
    assert WhiteHex[7..] == "";
  }
}

=== FILE: brand.dfy ===
/** Brand rewriting of archived text: the old site's name, in Persian and in
    Latin script, and its domains become the new ones, through an ordered
    table of global replacements. */
module Brand {
  import opened Text
  import opened Site
  import opened Patterns

  /** The three spellings of the old Persian name replaced as whole strings:
      with a space, with a zero-width non-joiner, and written together. */
  const PersianSpaced: string := "\U{0645}\U{06cc}\U{0647}\U{0646} \U{0634}\U{0627}\U{067e}"
  const PersianZwnj: string := "\U{0645}\U{06cc}\U{0647}\U{0646}\U{200c}\U{0634}\U{0627}\U{067e}"
  const PersianJoined: string := "\U{0645}\U{06cc}\U{0647}\U{0646}\U{0634}\U{0627}\U{067e}"

  /** The old Persian name with any white space between its two words. */
  const PersianName: Pattern := Spaced("\U{0645}\U{06cc}\U{0647}\U{0646}", "\U{0634}\U{0627}\U{067e}", true)

  /** The old Latin name with any white space between its two words, in any
      ASCII case. */
  const LatinName: Pattern := Spaced("mihan", "shop", true)

  /** The Persian spellings. `text.split(v).join(n)` with a non-empty `v`
      replaces every occurrence of `v`, left to right and case-sensitively,
      which is a literal rule. */
  const PersianSpellingRules: seq<Rule> := [
    Rule(Literal(PersianSpaced, false), SiteNameFa),
    Rule(Literal(PersianZwnj, false), SiteNameFa),
    Rule(Literal(PersianJoined, false), SiteNameFa)
  ]

  const PersianRules: seq<Rule> := PersianSpellingRules + [Rule(PersianName, SiteNameFa)]

  /** The compound Latin names, which the name rules would otherwise split. */
  const CompoundRules: seq<Rule> := [
    Rule(Literal("mihanshopcom", true), "websithebama"),
    Rule(Literal("MihanShopCom", true), "WebsiteBama"),
    Rule(Literal("TheMihanShop", true), "TheWebsiteBama")
  ]

  /** The Latin name rules, each replacing by the new name. */
  const LatinRules: seq<Rule> := [
    Rule(LatinName, SiteName),
    Rule(Literal("mihan-shop", true), SiteName),
    Rule(Literal(JoinedName, true), SiteName),
    Rule(Literal("MihanShop", true), SiteName)
  ]

  /** The old name as it appears in the old domains. */
  const JoinedName: string := "mihan" + "shop"

  /** The domain rules: each old domain becomes the new one with the same
      subdomain. */
  const DomainRules: seq<Rule> := [
    Rule(Literal(OldPanel, true), Panel),
    Rule(Literal(OldApi, true), Api),
    Rule(Literal(OldCdn, true), Cdn),
    Rule(Literal(OldBare, true), Primary)
  ]

  /** The old domains. */
  const OldBare: string := JoinedName + ".com"
  const OldPanel: string := "panel." + JoinedName + ".com"
  const OldApi: string := "api." + JoinedName + ".com"
  const OldCdn: string := "cdn." + JoinedName + ".com"

  /** The table in the order the source applies it: the domain rules last. */
  const SiteNameRulesAsWritten: seq<Rule> := PersianRules + CompoundRules + LatinRules + DomainRules

  /** The table with the domain rules ahead of the Latin rules, so that an old
      domain is still whole when its rule runs. */
  const SiteNameRules: seq<Rule> := PersianRules + DomainRules + CompoundRules + LatinRules

  /** `replaceSiteName` as written. */
  function ReplaceSiteNameAsWritten(v: string): (r: string)
    ensures |v| == 0 ==> r == v
  {
    if |v| == 0 then v else ApplyRules(v, SiteNameRulesAsWritten)
  }

  /** `replaceSiteName` with its domain rules running before the Latin
      rules. */
  function ReplaceSiteName(v: string): (r: string)
    ensures |v| == 0 ==> r == v
  {
    if |v| == 0 then v else ApplyRules(v, SiteNameRules)
  }

  // Replacement texts that cannot start or complete an old name.

  /** `r` holds only ASCII characters. */
  predicate Ascii(r: string) {
    forall k :: 0 <= k < |r| ==> r[k] < '\U{80}'
  }

  /** An ASCII text never starts a match of a pattern whose head starts with
      a non-ASCII character. */
  lemma {:induction false} AsciiNoStart(ci: bool, r: string, i: nat, h: string)
    requires |h| > 0 && h[0] >= '\U{80}' && Ascii(r)
    ensures NoStartFrom(ci, h, r, i)
    decreases |r| - i
  {
    if i < |r| {
      assert LowerChar(r[i]) < '\U{80}';
      AsciiNoStart(ci, r, i + 1, h);
    }
  }

  /** Nor does it hold a match of such a pattern. */
  lemma AsciiNoMatch(p: Pattern, s: string)
    requires |p.Head()| > 0 && p.Head()[0] >= '\U{80}' && Ascii(s)
    ensures NoMatch(p, s)
  {
    AsciiNoStart(p.ci, s, 0, p.Head());
    forall i | 0 <= i < |s| ensures MatchLen(p, s[i..]) == 0 {
      NoStartInSpec(p, s, "", 0, i);
      assert s + "" == s;
    }
  }

  /** The Persian rules leave an ASCII text as it is. */
  lemma AsciiUntouched(s: string)
    requires Ascii(s)
    ensures ApplyRules(s, PersianRules) == s
  {
    forall i | 0 <= i < |PersianRules| ensures NoMatch(PersianRules[i].pat, s) {
      assert PersianRules[i].pat.Head()[0] == '\U{0645}';
      AsciiNoMatch(PersianRules[i].pat, s);
    }
    ApplyRulesIdentity(s, PersianRules);
  }

  /** A Latin replacement cannot produce the Persian name. */
  lemma AsciiInert(r: string)
    requires |r| > 0 && !IsSpace(r[0]) && Ascii(r)
    ensures Inert(PersianName, r)
  {
    AsciiNoStart(true, r, 0, PersianName.head);
    assert LowerChar(r[0]) < '\U{80}';
  }

  lemma SiteNamePair()
    ensures NoPair(SiteName, 'm', 'i')
  {
    assert NoPair("Website", 'm', 'i');
    assert NoPair(" Bama", 'm', 'i');
    NoPairConcat("Website", " Bama", 'm', 'i');
    assert "Website" + " Bama" == SiteName;
  }

  lemma LatinInert()
    ensures Inert(LatinName, SiteName)
  {
    SiteNamePair();
    assert Foreign(LatinName, 'W');
    InertByPair(LatinName, SiteName);
  }

  lemma PersianInertFa()
    ensures Inert(PersianName, SiteNameFa)
  {
    assert NoPair(SiteNameFa, '\U{0645}', '\U{06cc}');
    InertByPair(PersianName, SiteNameFa);
  }

  lemma PanelInert() ensures Inert(PersianName, Panel) { AsciiInert(Panel); }
  lemma ApiInert() ensures Inert(PersianName, Api) { AsciiInert(Api); }
  lemma CdnInert() ensures Inert(PersianName, Cdn) { AsciiInert(Cdn); }
  lemma PrimaryInert() ensures Inert(PersianName, Primary) { AsciiInert(Primary); }

  lemma DomainsInert()
    ensures forall i :: 0 <= i < |DomainRules| ==> Inert(PersianName, DomainRules[i].repl)
  {
    forall i | 0 <= i < |DomainRules| ensures Inert(PersianName, DomainRules[i].repl) {
      if i == 0 {
        PanelInert();
      } else if i == 1 {
        ApiInert();
      } else if i == 2 {
        CdnInert();
      } else {
        PrimaryInert();
      }
    }
  }

  lemma WebsithebamaInert() ensures Inert(PersianName, "websithebama") { AsciiInert("websithebama"); }
  lemma WebsiteBamaInert() ensures Inert(PersianName, "WebsiteBama") { AsciiInert("WebsiteBama"); }
  lemma TheWebsiteBamaInert() ensures Inert(PersianName, "TheWebsiteBama") { AsciiInert("TheWebsiteBama"); }

  lemma CompoundInert()
    ensures forall i :: 0 <= i < |CompoundRules| ==> Inert(PersianName, CompoundRules[i].repl)
  {
    forall i | 0 <= i < |CompoundRules| ensures Inert(PersianName, CompoundRules[i].repl) {
      if i == 0 {
        WebsithebamaInert();
      } else if i == 1 {
        WebsiteBamaInert();
      } else {
        TheWebsiteBamaInert();
      }
    }
  }

  lemma SiteNameInert() ensures Inert(PersianName, SiteName) { AsciiInert(SiteName); }

  lemma LatinNameInert()
    ensures forall i :: 0 <= i < |LatinRules| ==> Inert(PersianName, LatinRules[i].repl)
    ensures forall i :: 0 <= i < |LatinRules| ==> Inert(LatinName, LatinRules[i].repl)
  {
    forall i | 0 <= i < |LatinRules|
      ensures LatinRules[i].repl == SiteName
    {
    }
    SiteNameInert();
    LatinInert();
  }

  /** After the Persian rules, the Persian name is gone. */
  lemma PersianCleared(v: string)
    ensures NoMatch(PersianName, ApplyRules(v, PersianRules))
  {
    ApplyRulesSplit(v, PersianSpellingRules, [Rule(PersianName, SiteNameFa)]);
    PersianInertFa();
    ApplyRulesClear(ApplyRules(v, PersianSpellingRules), [Rule(PersianName, SiteNameFa)], PersianName);
  }

  lemma PersianClearedDomains(v: string)
    ensures NoMatch(PersianName, ApplyRules(v, PersianRules + DomainRules))
  {
    PersianCleared(v);
    DomainsInert();
    ApplyRulesKeep(ApplyRules(v, PersianRules), DomainRules, PersianName);
    ApplyRulesSplit(v, PersianRules, DomainRules);
  }

  lemma PersianClearedCompound(v: string)
    ensures NoMatch(PersianName, ApplyRules(v, PersianRules + DomainRules + CompoundRules))
  {
    PersianClearedDomains(v);
    CompoundInert();
    ApplyRulesKeep(ApplyRules(v, PersianRules + DomainRules), CompoundRules, PersianName);
    ApplyRulesSplit(v, PersianRules + DomainRules, CompoundRules);
  }

  lemma PersianKeptLatin(x: string)
    requires NoMatch(PersianName, x)
    ensures NoMatch(PersianName, ApplyRules(x, LatinRules))
  {
    LatinNameInert();
    ApplyRulesKeep(x, LatinRules, PersianName);
  }

  /** The Latin rules leave no `mihan\s*shop`, whatever they are given. */
  lemma LatinCleared(x: string)
    ensures NoMatch(LatinName, ApplyRules(x, LatinRules))
  {
    LatinNameInert();
    ApplyRulesClear(x, LatinRules, LatinName);
  }

  /** After the corrected rewriting, the old Persian name is gone, with any
      white space between its words. */
  lemma NoPersianName(v: string)
    ensures NoMatch(PersianName, ReplaceSiteName(v))
  {
    if |v| > 0 {
      var head := PersianRules + DomainRules + CompoundRules;
      PersianClearedCompound(v);
      PersianKeptLatin(ApplyRules(v, head));
      ApplyRulesSplit(v, head, LatinRules);
    }
  }

  /** After the corrected rewriting, no `mihan\s*shop` remains, in any ASCII
      case. */
  lemma NoLatinName(v: string)
    ensures NoMatch(LatinName, ReplaceSiteName(v))
  {
    if |v| > 0 {
      var head := PersianRules + DomainRules + CompoundRules;
      ApplyRulesSplit(v, head, LatinRules);
      LatinCleared(ApplyRules(v, head));
    }
  }

  /** The table as written leaves no `mihan\s*shop` once its Latin rules have
      run. */
  lemma NoLatinNameBeforeDomains(v: string)
    ensures NoMatch(LatinName, ApplyRules(v, PersianRules + CompoundRules + LatinRules))
  {
    var head := PersianRules + CompoundRules;
    ApplyRulesSplit(v, head, LatinRules);
    LatinCleared(ApplyRules(v, head));
  }

  /** A text without `mihan\s*shop` has no `mihanshop` either. */
  lemma JoinedLatinName(s: string)
    requires NoMatch(LatinName, s)
    ensures NoMatch(Literal(JoinedName, true), s)
  {
    forall i | 0 <= i < |s| ensures MatchLen(Literal(JoinedName, true), s[i..]) == 0 {
      if PrefixMatch(true, JoinedName, s[i..]) {
        JoinedIsSpaced(s[i..]);
        assert false;
      }
    }
  }

  /** `mihanshop` is `mihan\s*shop` with an empty run of white space. */
  lemma JoinedIsSpaced(u: string)
    requires PrefixMatch(true, JoinedName, u)
    ensures MatchLen(LatinName, u) > 0
  {
    PrefixMatchAt(true, JoinedName, u);
    forall k | 0 <= k < 5 ensures CharEq(true, u[k], "mihan"[k]) {
      assert JoinedName[k] == "mihan"[k];
    }
    forall k | 0 <= k < 4 ensures CharEq(true, u[5 + k], "shop"[k]) {
      assert JoinedName[5 + k] == "shop"[k];
    }
    assert JoinedName[5] == 's';
    assert LowerChar(u[5]) == 's';
    SpacedIntro(LatinName, u, 0);
  }

  /** Every old domain contains `mihanshop`: where that is gone, no domain
      rule applies. */
  lemma DomainsNeedJoinedName(y: string)
    requires NoMatch(Literal(JoinedName, true), y)
    ensures forall i :: 0 <= i < |DomainRules| ==> NoMatch(DomainRules[i].pat, y)
  {
    forall i | 0 <= i < |DomainRules| ensures NoMatch(DomainRules[i].pat, y) {
      if i == 0 {
        NoMatchAround(true, "panel.", JoinedName, ".com", y);
      } else if i == 1 {
        NoMatchAround(true, "api.", JoinedName, ".com", y);
      } else if i == 2 {
        NoMatchAround(true, "cdn.", JoinedName, ".com", y);
      } else {
        NoMatchBefore(true, JoinedName, ".com", y);
        assert DomainRules[3].pat == Literal(JoinedName + ".com", true);
      }
    }
  }

  /** Where `mihan\s*shop` is gone, the domain rules change nothing. */
  lemma DomainRulesIdle(y: string)
    requires NoMatch(LatinName, y)
    ensures ApplyRules(y, DomainRules) == y
  {
    JoinedLatinName(y);
    DomainsNeedJoinedName(y);
    ApplyRulesIdentity(y, DomainRules);
  }

  /** Finding: in the table as written the domain rules never change
      anything, because every old domain contains `mihanshop`, which the name
      rules have already replaced. */
  lemma DomainRulesDeadAsWritten(v: string)
    ensures ReplaceSiteNameAsWritten(v) == if |v| == 0 then v else ApplyRules(v, PersianRules + CompoundRules + LatinRules)
  {
    if |v| > 0 {
      var head := PersianRules + CompoundRules + LatinRules;
      NoLatinNameBeforeDomains(v);
      DomainRulesIdle(ApplyRules(v, head));
      ApplyRulesSplit(v, head, DomainRules);
    }
  }

  /** The compound rules after the Persian rules bring no Persian name back. */
  lemma PersianClearedNames(v: string)
    ensures NoMatch(PersianName, ApplyRules(v, PersianRules + CompoundRules))
  {
    PersianCleared(v);
    CompoundInert();
    ApplyRulesKeep(ApplyRules(v, PersianRules), CompoundRules, PersianName);
    ApplyRulesSplit(v, PersianRules, CompoundRules);
  }

  /** Nor do the Latin rules after them. */
  lemma PersianClearedBeforeDomains(v: string)
    ensures NoMatch(PersianName, ApplyRules(v, PersianRules + CompoundRules + LatinRules))
  {
    var head := PersianRules + CompoundRules;
    PersianClearedNames(v);
    PersianKeptLatin(ApplyRules(v, head));
    ApplyRulesSplit(v, head, LatinRules);
  }

  /** After the rewriting as written, the old Persian name is gone, with any
      white space between its words. */
  lemma NoPersianNameAsWritten(v: string)
    ensures NoMatch(PersianName, ReplaceSiteNameAsWritten(v))
  {
    if |v| > 0 {
      DomainRulesDeadAsWritten(v);
      PersianClearedBeforeDomains(v);
    }
  }

  /** After the rewriting as written, no `mihan\s*shop` remains, in any ASCII
      case: the Latin rules clear it and the domain rules after them change
      nothing. */
  lemma NoLatinNameAsWritten(v: string)
    ensures NoMatch(LatinName, ReplaceSiteNameAsWritten(v))
  {
    if |v| > 0 {
      DomainRulesDeadAsWritten(v);
      NoLatinNameBeforeDomains(v);
    }
  }

  /** The brand rewrite of the page: `replaceSiteName` as written, or, when
      `corrected`, with its domain rules moved ahead. */
  function SiteNameRewrite(corrected: bool): string -> string {
    if corrected then ReplaceSiteName else ReplaceSiteNameAsWritten
  }

  /** Either brand rewrite leaves neither old name, in Latin or in Persian
      letters. */
  lemma NoOldNames(corrected: bool, v: string)
    ensures NoMatch(LatinName, SiteNameRewrite(corrected)(v))
    ensures NoMatch(PersianName, SiteNameRewrite(corrected)(v))
  {
    if corrected {
      NoLatinName(v);
      NoPersianName(v);
    } else {
      NoLatinNameAsWritten(v);
      NoPersianNameAsWritten(v);
    }
  }

  // The old bare domain, through both tables.

  lemma OldBareAscii() ensures Ascii(OldBare) { }

  lemma OldBareShape()
    ensures NoPair(OldBare, 'p', 'c') && NoPair(OldBare, 't', 'h')
  {
    OldBarePC();
    OldBareTH();
  }

  lemma OldBarePC() ensures NoPair(OldBare, 'p', 'c') { OldBarePair('p', 'c'); }
  lemma OldBareTH() ensures NoPair(OldBare, 't', 'h') { OldBarePair('t', 'h'); }

  /** The pairs of `mihanshop.com`, piece by piece. */
  lemma OldBarePair(a: char, b: char)
    requires NoPair("mihan", a, b) && NoPair("shop", a, b) && NoPair(".com", a, b)
    requires (a, b) != ('n', 's') && (a, b) != ('p', '.')
    ensures NoPair(OldBare, a, b)
  {
    NoPairConcat("mihan", "shop", a, b);
    NoPairConcat("mihan" + "shop", ".com", a, b);
  }

  /** Every old domain holds the pair `mi`. */
  lemma OldDomainNeedsPair(pre: string, s: string)
    requires NoPair(s, 'm', 'i')
    ensures NoMatch(Literal(pre + JoinedName + ".com", true), s)
  {
    var t := pre + JoinedName + ".com";
    assert t[|pre|] == 'm' && t[|pre| + 1] == 'i';
    NoPairNoMatch(Literal(t, true), s, |pre|);
  }

  lemma NamedShape()
    ensures NoPair(SiteName + ".com", 'm', 'i')
  {
    SiteNamePair();
    assert NoPair(".com", 'm', 'i');
    NoPairConcat(SiteName, ".com", 'm', 'i');
  }

  lemma CompoundIdleOnBare()
    ensures ApplyRules(OldBare, CompoundRules) == OldBare
  {
    OldBareShape();
    forall i | 0 <= i < |CompoundRules| ensures NoMatch(CompoundRules[i].pat, OldBare) {
      if i < 2 {
        NoPairNoMatch(CompoundRules[i].pat, OldBare, 8);
      } else {
        NoPairNoMatch(CompoundRules[i].pat, OldBare, 0);
      }
    }
    ApplyRulesIdentity(OldBare, CompoundRules);
  }

  /** `mihanshop` in `mihanshop.com` is a match of `mihan\s*shop`. */
  lemma LatinNameInBare()
    ensures ReplaceAll(OldBare, LatinName, SiteName) == SiteName + ".com"
  {
    PrefixMatchSelf(true, JoinedName, ".com");
    JoinedIsSpaced(OldBare);
    var w := SpacedParts(LatinName, OldBare);
    assert OldBare[5] == 's';
    assert w == 0;
    assert OldBare[9..] == ".com";
    NoMatchShort(LatinName, ".com");
    ReplaceAllIdentity(".com", LatinName, SiteName);
  }

  lemma LatinIdleAfterBare()
    ensures ApplyRules(SiteName + ".com", LatinRules[1..]) == SiteName + ".com"
  {
    NamedShape();
    forall i | 0 <= i < |LatinRules[1..]| ensures NoMatch(LatinRules[1..][i].pat, SiteName + ".com") {
      NoPairNoMatch(LatinRules[1..][i].pat, SiteName + ".com", 0);
    }
    ApplyRulesIdentity(SiteName + ".com", LatinRules[1..]);
  }

  /** Finding: as written, `mihanshop.com` becomes `Website Bama.com` and
      never reaches its domain rule. */
  lemma BareDomainAsWritten()
    ensures ReplaceSiteNameAsWritten(OldBare) == SiteName + ".com"
  {
    DomainRulesDeadAsWritten(OldBare);
    ApplyRulesSplit(OldBare, PersianRules + CompoundRules, LatinRules);
    ApplyRulesSplit(OldBare, PersianRules, CompoundRules);
    OldBareAscii();
    AsciiUntouched(OldBare);
    CompoundIdleOnBare();
    LatinNameInBare();
    LatinIdleAfterBare();
  }

  /** Texts without a `mi` pair are left alone by the compound and Latin
      rules. */
  lemma LatinIdle(s: string)
    requires NoPair(s, 'm', 'i')
    ensures ApplyRules(s, CompoundRules) == s && ApplyRules(s, LatinRules) == s
  {
    CompoundIdle(s);
    LatinRulesIdle(s);
  }

  lemma CompoundIdle(s: string)
    requires NoPair(s, 'm', 'i')
    ensures ApplyRules(s, CompoundRules) == s
  {
    forall i | 0 <= i < |CompoundRules| ensures NoMatch(CompoundRules[i].pat, s) {
      if i < 2 {
        NoPairNoMatch(CompoundRules[i].pat, s, 0);
      } else {
        NoPairNoMatch(CompoundRules[i].pat, s, 3);
      }
    }
    ApplyRulesIdentity(s, CompoundRules);
  }

  lemma LatinRulesIdle(s: string)
    requires NoPair(s, 'm', 'i')
    ensures ApplyRules(s, LatinRules) == s
  {
    forall i | 0 <= i < |LatinRules| ensures NoMatch(LatinRules[i].pat, s) {
      NoPairNoMatch(LatinRules[i].pat, s, 0);
    }
    ApplyRulesIdentity(s, LatinRules);
  }

  lemma PrimaryShape()
    ensures NoPair(Primary, 'm', 'i')
  {
    assert NoPair("websit", 'm', 'i');
    assert NoPair("hebama.com", 'm', 'i');
    NoPairConcat("websit", "hebama.com", 'm', 'i');
    assert "websit" + "hebama.com" == Primary;
  }
  lemma PanelShape()
    ensures NoPair(Panel, 'm', 'i')
  {
    PrimaryShape();
    assert NoPair("panel.", 'm', 'i');
    NoPairConcat("panel.", Primary, 'm', 'i');
    assert "panel." + Primary == Panel;
  }

  /** The old bare domain meets its own rule, the last domain rule. */
  lemma DomainsOnBare()
    ensures ApplyRules(OldBare, DomainRules) == Primary
  {
    var front := DomainRules[..3];
    assert DomainRules == front + [DomainRules[3]];
    forall i | 0 <= i < |front| ensures NoMatch(front[i].pat, OldBare) {
      NoMatchShort(front[i].pat, OldBare);
    }
    ApplyRulesIdentity(OldBare, front);
    ApplyRulesSplit(OldBare, front, [DomainRules[3]]);
    ReplaceAllWhole(OldBare, true, Primary);
  }

  /** With the domain rules first, `mihanshop.com` becomes the new domain. */
  lemma BareDomain()
    ensures ReplaceSiteName(OldBare) == Primary
  {
    var v := OldBare;
    ApplyRulesSplit(v, PersianRules + DomainRules + CompoundRules, LatinRules);
    ApplyRulesSplit(v, PersianRules + DomainRules, CompoundRules);
    ApplyRulesSplit(v, PersianRules, DomainRules);
    OldBareAscii();
    AsciiUntouched(v);
    DomainsOnBare();
    PrimaryShape();
    LatinIdle(Primary);
  }


  lemma OldPanelAscii() ensures Ascii(OldPanel) { }

  /** The old panel domain meets its own rule, the first domain rule. */
  lemma DomainsOnPanel()
    ensures ApplyRules(OldPanel, DomainRules) == Panel
  {
    var back := DomainRules[1..];
    assert DomainRules == [DomainRules[0]] + back;
    ReplaceAllWhole(OldPanel, true, Panel);
    PanelPassesBack();
    ApplyRulesSplit(OldPanel, [DomainRules[0]], back);
  }

  lemma PanelPassesBack()
    ensures ApplyRules(Panel, DomainRules[1..]) == Panel
  {
    var back := DomainRules[1..];
    PanelShape();
    forall i | 0 <= i < |back| ensures NoMatch(back[i].pat, Panel) {
      if i == 0 {
        OldDomainNeedsPair("api.", Panel);
      } else if i == 1 {
        OldDomainNeedsPair("cdn.", Panel);
      } else {
        OldDomainNeedsPair("", Panel);
        assert "" + JoinedName == JoinedName;
      }
    }
    ApplyRulesIdentity(Panel, back);
  }

  /** With the domain rules first, `panel.mihanshop.com` becomes the new
      panel domain. */
  lemma PanelDomain()
    ensures ReplaceSiteName(OldPanel) == Panel
  {
    var v := OldPanel;
    ApplyRulesSplit(v, PersianRules + DomainRules + CompoundRules, LatinRules);
    ApplyRulesSplit(v, PersianRules + DomainRules, CompoundRules);
    ApplyRulesSplit(v, PersianRules, DomainRules);
    OldPanelAscii();
    AsciiUntouched(v);
    DomainsOnPanel();
    PanelShape();
    LatinIdle(Panel);
  }
}

=== FILE: contact.dfy ===
/** The contact form's `POST` handler: the JSON body is checked for a
    name, a phone number and a message, their lengths are bounded, and an
    accepted request is appended to the log of contact requests. */
module Contact {
  import opened Text
  import opened Env

  /** A parsed JSON value. Numbers are JavaScript numbers, which JSON can
      only write as finite values. */
  datatype Json =
    | JNull
    | JBool(b: bool)
    | JNumber(n: real)
    | JString(s: string)
    | JArray(items: seq<Json>)
    | JObject(fields: map<string, Json>)

  /** Whether JavaScript takes the value for true: every value but `null`,
      `false`, zero and the empty string. */
  predicate Truthy(j: Json) {
    match j
    case JNull => false
    case JBool(b) => b
    case JNumber(n) => n != 0.0
    case JString(s) => s != ""
    case _ => true
  }

  /** `payload[key]`: an own field of an object, and `undefined` (`None`)
      otherwise; arrays, strings, numbers and booleans have none of the
      fields read here. */
  function Field(payload: Json, key: string): Option<Json> {
    if payload.JObject? && key in payload.fields then Some(payload.fields[key]) else None
  }

  /** `toTrimmedString`: a string with its surrounding white space cut off,
      and the empty text for anything else. */
  function ToTrimmedString(v: Option<Json>): (r: string)
    ensures !(v.Some? && v.value.JString?) ==> r == ""
    ensures Trimmed(r)
  {
    if v.Some? && v.value.JString? then TrimSpec(v.value.s); Trim(v.value.s) else ""
  }

  /** Of a string, only white space at its two ends is cut off. */
  lemma TrimmedInside(s: string)
    ensures exists a, b :: AllSpace(a) && AllSpace(b) && s == a + ToTrimmedString(Some(JString(s))) + b
  {
    TrimSpec(s);
  }

  /** `toOptionalTrimmedString`: the trimmed string, or `null` when that is
      empty. */
  function ToOptionalTrimmedString(v: Option<Json>): (r: Option<string>)
    ensures r.None? <==> ToTrimmedString(v) == ""
    ensures r.Some? ==> r.value == ToTrimmedString(v)
  {
    var next := ToTrimmedString(v);
    if |next| > 0 then Some(next) else None
  }

  const MissingFields: string := "Please provide your name, phone, and message."
  const TooLong: string := "One or more fields are too long."
  const Received: string := "Thanks! Your request has been received."

  const NameLimit: nat := 120
  const PhoneLimit: nat := 60
  const MessageLimit: nat := 5000

  /** One line of the log of contact requests, without its time stamp. */
  datatype Entry = Entry(name: string, phone: string, email: Option<string>, topic: Option<string>, message: string)

  /** The JSON response: its HTTP status, `ok` and `message`. */
  datatype Reply = Reply(status: nat, ok: bool, message: string)

  /** The reply to a request, with the entry to log when there is one. */
  datatype Outcome = Outcome(reply: Reply, entry: Option<Entry>)

  /** A text with no white space at either end. */
  predicate Trimmed(s: string) {
    s == [] || (!IsSpace(s[0]) && !IsSpace(s[|s| - 1]))
  }

  /** What an accepted request can hold: the three required fields
      trimmed, not empty and within their limits, the optional ones trimmed
      and absent rather than empty. */
  predicate ValidEntry(e: Entry) {
    && e.name != "" && e.phone != "" && e.message != ""
    && Trimmed(e.name) && Trimmed(e.phone) && Trimmed(e.message)
    && Utf16Length(e.name) <= NameLimit && Utf16Length(e.phone) <= PhoneLimit && Utf16Length(e.message) <= MessageLimit
    && (e.email.Some? ==> e.email.value != "" && Trimmed(e.email.value))
    && (e.topic.Some? ==> e.topic.value != "" && Trimmed(e.topic.value))
  }

  /** The fields `POST` reads from a truthy body, trimmed. */
  function Read(p: Json): (e: Entry)
    ensures Trimmed(e.name) && Trimmed(e.phone) && Trimmed(e.message)
    ensures e.email.Some? ==> e.email.value != "" && Trimmed(e.email.value)
    ensures e.topic.Some? ==> e.topic.value != "" && Trimmed(e.topic.value)
  {
    Entry(ToTrimmedString(Field(p, "name")), ToTrimmedString(Field(p, "phone")),
          ToOptionalTrimmedString(Field(p, "email")), ToOptionalTrimmedString(Field(p, "topic")),
          ToTrimmedString(Field(p, "message")))
  }

  /** The checks on the trimmed fields: the required ones first, then the
      lengths. */
  function Judge(e: Entry): (o: Outcome)
    ensures o.reply.ok <==> o.entry.Some?
    ensures o.reply.ok ==> o.reply == Reply(200, true, Received) && o.entry == Some(e)
    ensures !o.reply.ok ==> o.reply.status == 400 && (o.reply.message == MissingFields || o.reply.message == TooLong)
  {
    if e.name == "" || e.phone == "" || e.message == "" then Outcome(Reply(400, false, MissingFields), None)
    else if Utf16Length(e.name) > NameLimit || Utf16Length(e.phone) > PhoneLimit || Utf16Length(e.message) > MessageLimit then
      Outcome(Reply(400, false, TooLong), None)
    else Outcome(Reply(200, true, Received), Some(e))
  }

  /** `POST` on a request whose body parsed to `payload`, or failed to
      parse (`None`). */
  function Post(payload: Option<Json>): (o: Outcome)
    ensures o.reply.ok <==> o.entry.Some?
    ensures o.reply.ok ==> o.reply == Reply(200, true, Received)
    ensures !o.reply.ok ==> o.reply.status == 400 && (o.reply.message == MissingFields || o.reply.message == TooLong)
    ensures o.entry.Some? ==> ValidEntry(o.entry.value)
  {
    if payload.None? || !Truthy(payload.value) then Outcome(Reply(400, false, MissingFields), None)
    else Judge(Read(payload.value))
  }

  /** A body that does not parse, or is `null`, `false`, zero or empty, is
      refused as missing its fields. */
  lemma FalsyRefused(payload: Option<Json>)
    requires payload.None? || !Truthy(payload.value)
    ensures Post(payload) == Outcome(Reply(400, false, MissingFields), None)
  {
  }

  /** A missing field is reported before any length, however long the
      others are. */
  lemma MissingBeforeTooLong(e: Entry)
    requires e.name == "" || e.phone == "" || e.message == ""
    ensures Judge(e).reply == Reply(400, false, MissingFields)
  {
  }

  /** The limits are inclusive, counted in UTF-16 code units of the trimmed
      text; with the required fields present, a request is refused as too
      long exactly when one of them is over its limit. */
  lemma TooLongExactly(e: Entry)
    requires e.name != "" && e.phone != "" && e.message != ""
    ensures Judge(e).reply.message == TooLong <==>
      (Utf16Length(e.name) > 120 || Utf16Length(e.phone) > 60 || Utf16Length(e.message) > 5000)
  {
  }

  /** An accepted request logs exactly the trimmed fields of its body. */
  lemma AcceptedEntry(p: Json)
    requires Post(Some(p)).reply.ok
    ensures Post(Some(p)).entry == Some(Read(p))
  {
  }

  /** The stored line of an entry, as `JSON.stringify` writes it, with its
      time stamp `createdAt`. */
  function EntryJson(e: Entry, createdAt: string): Json {
    JObject(map[
      "name" := JString(e.name),
      "phone" := JString(e.phone),
      "email" := if e.email.Some? then JString(e.email.value) else JNull,
      "topic" := if e.topic.Some? then JString(e.topic.value) else JNull,
      "message" := JString(e.message),
      "createdAt" := JString(createdAt)])
  }

  /** The fields `POST` reads from a stored line. */
  lemma EntryFields(e: Entry, createdAt: string)
    ensures var p := EntryJson(e, createdAt);
      && Field(p, "name") == Some(JString(e.name))
      && Field(p, "phone") == Some(JString(e.phone))
      && Field(p, "message") == Some(JString(e.message))
      && Field(p, "email") == Some(if e.email.Some? then JString(e.email.value) else JNull)
      && Field(p, "topic") == Some(if e.topic.Some? then JString(e.topic.value) else JNull)
  {
    assert "email" != "phone" && "email" != "topic" && "email" != "message" && "email" != "createdAt";
    assert "topic" != "phone" && "topic" != "message" && "topic" != "createdAt";
    assert "phone" != "message" && "phone" != "createdAt";
  }

  /** A trimmed text is its own trim. */
  lemma TrimmedString(s: string)
    requires Trimmed(s)
    ensures ToTrimmedString(Some(JString(s))) == s
  {
    TrimKeeps(s);
  }

  /** An optional field written back as `JSON.stringify` writes it reads
      the same. */
  lemma OptionalString(v: Option<string>)
    requires v.Some? ==> v.value != "" && Trimmed(v.value)
    ensures ToOptionalTrimmedString(Some(if v.Some? then JString(v.value) else JNull)) == v
  {
    if v.Some? {
      TrimmedString(v.value);
    }
  }

  /** A valid entry passes every check. */
  lemma JudgeValid(e: Entry)
    requires ValidEntry(e)
    ensures Judge(e) == Outcome(Reply(200, true, Received), Some(e))
  {
  }

  /** Sent again, a logged entry is accepted and logged unchanged. */
  lemma ResubmitEntry(e: Entry, createdAt: string)
    requires ValidEntry(e)
    ensures Post(Some(EntryJson(e, createdAt))) == Outcome(Reply(200, true, Received), Some(e))
  {
    EntryFields(e, createdAt);
    TrimmedString(e.name);
    TrimmedString(e.phone);
    TrimmedString(e.message);
    OptionalString(e.email);
    OptionalString(e.topic);
    assert Read(EntryJson(e, createdAt)) == e;
    JudgeValid(e);
  }

  /** The log of contact requests, one entry per accepted request. */
  class ContactLog {
    var entries: seq<Entry>

    constructor ()
      ensures entries == []
    {
      entries := [];
    }

    /** Every entry logged is one `POST` can accept. */
    ghost predicate Valid()
      reads this
    {
      forall e :: e in entries ==> ValidEntry(e)
    }

    /** `POST`: the reply, and the entry appended when the request is
        accepted. */
    method Handle(payload: Option<Json>) returns (reply: Reply)
      requires Valid()
      modifies this
      ensures Valid()
      ensures var o := Post(payload);
        reply == o.reply && entries == old(entries) + (if o.entry.Some? then [o.entry.value] else [])
    {
      var o := Post(payload);
      if o.entry.Some? {
        entries := entries + [o.entry.value];
      }
      reply := o.reply;
    }
  }
}

=== FILE: document.dfy ===
/** The parsed page as `transformLegacyHtml` changes it: one document whose
    nodes each pass rewrites in place, in document order. */
module Document {
  import opened Env
  import opened Logo
  import opened Dom
  import opened Passes
  import opened LogoSvgs

  class LegacyDocument {
    var nodes: seq<Node>

    constructor (ns: seq<Node>)
      ensures nodes == ns
    {
      nodes := ns;
    }

    /** The `.each` callback of a pass on node `i`. An image asks
        `hasLogoAncestor` of the document as it stands. */
    method Visit(pass: Pass, pg: Page, i: nat)
      requires i < |nodes|
      modifies this
      ensures nodes == old(nodes)[i := NodeRewrite(pass, pg, old(nodes), i)]
    {
      var n := nodes[i];
      if n.Element? {
        var place := PlaceOf(nodes, pg.body, i);
        var attrs;
        if pass.ImagePass? && n.tag == "img" && place.inBody {
          var marked := HasLogoAncestor(AncestorAttrs(nodes, i));
          attrs := pg.fx.image(n.attrs, marked);
        } else {
          attrs := AttrsFor(pass, pg, n.tag, n.attrs, place);
        }
        nodes := nodes[i := Element(n.tag, attrs, n.parent)];
      } else if n.Text? {
        nodes := nodes[i := Text(TextFor(pass, pg, n.data, PlaceOf(nodes, pg.body, i)), n.parent)];
      }
    }

    /** One pass over the document. Each node is visited in document order;
        since no pass moves a node or changes a tag, class or id, each sees
        the document as the pass found it. */
    method Run(pass: Pass, pg: Page)
      requires KeepsFrame(pg.fx)
      modifies this
      ensures nodes == Rewritten(pass, pg, old(nodes))
    {
      ghost var start := nodes;
      var i := 0;
      while i < |nodes|
        invariant |nodes| == |start| && 0 <= i <= |start|
        invariant SameFrame(start, nodes)
        invariant forall k :: 0 <= k < i ==> nodes[k] == NodeRewrite(pass, pg, start, k)
        invariant forall k :: i <= k < |start| ==> nodes[k] == start[k]
      {
        NodeRewriteFrame(pass, pg, start, nodes, i);
        NodeRewriteShape(pass, pg, start, i);
        SameFrameUpdate(start, nodes, i, NodeRewrite(pass, pg, start, i));
        Visit(pass, pg, i);
        i := i + 1;
      }
      assert nodes == Rewritten(pass, pg, start);
    }

    /** The `svg` loop of `transformLegacyHtml`: each `svg` in the body, in
        document order, is judged on the document as it stands; one that
        is replaced takes the logo image's place, and the nodes below it
        are removed, the deepest first. */
    method ReplaceLogoSvgs(body: Option<nat>)
      modifies this
      ensures nodes == SvgReplaced(old(nodes), body)
    {
      ghost var snap := nodes;
      PartialStart(snap, body);
      var i := 0;
      while i < |nodes|
        invariant |nodes| == |snap| && 0 <= i <= |snap|
        invariant nodes == Partial(snap, body, i)
      {
        HandleSvg(body, i, snap);
        i := i + 1;
      }
    }

    /** The `svg` loop on node `i`: the page with the nodes before `i`
        handled becomes the page with `i` handled too. */
    method HandleSvg(body: Option<nat>, i: nat, ghost snap: seq<Node>)
      requires i < |snap| && nodes == Partial(snap, body, i)
      modifies this
      ensures nodes == Partial(snap, body, i + 1)
    {
      var hit := IsLogoSvg(body, i);
      Judge(snap, body, i);
      if hit {
        nodes := nodes[i := LogoImg(nodes[i].parent)];
        ghost var mid := nodes;
        RemoveBelow(i);
        StepHitAll(snap, body, i, mid, nodes);
      } else {
        StepSame(snap, body, i);
      }
    }

    /** The test of the `svg` loop on node `i`: an `svg` in the body whose
        class, id, `aria-label` or title looks like a logo, or for which
        `hasLogoAncestor` holds. */
    method IsLogoSvg(body: Option<nat>, i: nat) returns (hit: bool)
      requires i < |nodes|
      ensures hit == Hit(nodes, body, i)
    {
      var n := nodes[i];
      hit := false;
      if n.Element? && n.tag == "svg" && InBody(nodes, body, i) {
        var above := HasLogoAncestor(AncestorAttrs(nodes, i));
        hit := SvgLooksLikeLogo(n.attrs) || above;
      }
    }

    /** Every node below the element at `i` removed, the deepest first so
        that each is still found below it. */
    method RemoveBelow(i: nat)
      requires i < |nodes|
      modifies this
      ensures |nodes| == |old(nodes)|
      ensures forall j :: 0 <= j <= i ==> nodes[j] == old(nodes)[j]
      ensures forall j :: i < j < |nodes| ==> nodes[j] == if i in Ancestors(old(nodes), j) then Gone else old(nodes)[j]
    {
      ghost var mid := nodes;
      var k := |nodes|;
      while k > i + 1
        invariant i + 1 <= k <= |mid| && |nodes| == |mid|
        invariant forall j :: 0 <= j < k ==> nodes[j] == mid[j]
        invariant forall j :: k <= j < |mid| ==> nodes[j] == if i in Ancestors(mid, j) then Gone else mid[j]
      {
        k := k - 1;
        AncestorsLinks(mid, nodes, k);
        if i in Ancestors(nodes, k) {
          nodes := nodes[k := Gone];
        }
      }
    }
  }
}

=== FILE: dom.dfy ===
/** The parsed page: a list of nodes in document order, each naming the
    index of its parent element (a negative index for a node at the top).
    A node removed from the tree stays in the list as `Gone`, so that
    positions do not move. The HTML parser and serialiser are functions
    given from outside. */
module Dom {
  import opened Text
  import opened Env
  import opened Logo

  datatype Node =
    | Element(tag: string, attrs: map<string, string>, parent: int)
    | Text(data: string, parent: int)
    | Gone

  /** What the HTML library does: `parse` is `cheerio.load`, `outer` is
      `$.html(el)` of the element at an index and `inner` is `el.html()`. */
  datatype Markup = Markup(
    parse: string -> seq<Node>,
    outer: (seq<Node>, nat) -> string,
    inner: (seq<Node>, nat) -> string)

  function ParentOf(n: Node): int {
    if n.Gone? then -1 else n.parent
  }

  /** The element at `p` and the elements above it, nearest first. A parent
      always comes before its child; a link that does not is not followed. */
  function Up(ns: seq<Node>, p: int): (r: seq<nat>)
    decreases p
    ensures forall k :: 0 <= k < |r| ==> r[k] <= p && r[k] < |ns| && ns[r[k]].Element?
  {
    if p < 0 || p >= |ns| || !ns[p].Element? then []
    else
      var q := ParentOf(ns[p]);
      [p as nat] + (if q < p then Up(ns, q) else [])
  }

  /** The ancestors of node `i`, nearest first: `$el.parents()`. */
  function Ancestors(ns: seq<Node>, i: nat): (r: seq<nat>)
    requires i < |ns|
    ensures forall k :: 0 <= k < |r| ==> r[k] < i && ns[r[k]].Element?
  {
    var q := ParentOf(ns[i]);
    if q < i then Up(ns, q) else []
  }

  /** The attributes of the ancestors of node `i`, nearest first. */
  function AncestorAttrs(ns: seq<Node>, i: nat): (r: seq<map<string, string>>)
    requires i < |ns|
    ensures |r| == |Ancestors(ns, i)|
    ensures forall k :: 0 <= k < |r| ==> r[k] == ns[Ancestors(ns, i)[k]].attrs
  {
    var a := Ancestors(ns, i);
    seq(|a|, k requires 0 <= k < |a| => ns[a[k]].attrs)
  }

  /** Whether an ancestor of node `i` has a class or id that looks like a
      logo. */
  predicate LogoAbove(ns: seq<Node>, i: nat)
    requires i < |ns|
  {
    exists k :: 0 <= k < |Ancestors(ns, i)| && LogoMarked(ns[Ancestors(ns, i)[k]].attrs)
  }

  /** The ancestors of an ancestor are ancestors too. */
  lemma {:induction false} UpCloses(ns: seq<Node>, p: int, i: nat)
    requires i < |ns| && i in Up(ns, p)
    ensures forall j :: j in Ancestors(ns, i) ==> j in Up(ns, p)
    decreases p
  {
    var q := ParentOf(ns[p]);
    if i != p && q < p {
      UpCloses(ns, q, i);
    }
  }

  lemma AncestorsClose(ns: seq<Node>, i: nat, k: nat)
    requires k < |ns| && i in Ancestors(ns, k)
    ensures forall j :: j in Ancestors(ns, i) ==> j in Ancestors(ns, k)
  {
    UpCloses(ns, ParentOf(ns[k]), i);
  }

  /** The first element with tag `tag`, in document order: `$(tag).first()`. */
  function FirstTag(ns: seq<Node>, tag: string, from: nat): (r: Option<nat>)
    decreases |ns| - from
    ensures r.Some? ==> from <= r.value < |ns| && ns[r.value].Element? && ns[r.value].tag == tag
    ensures r.Some? ==> forall j :: from <= j < r.value ==> !(ns[j].Element? && ns[j].tag == tag)
    ensures r.None? ==> forall j :: from <= j < |ns| ==> !(ns[j].Element? && ns[j].tag == tag)
  {
    if from >= |ns| then None
    else if ns[from].Element? && ns[from].tag == tag then Some(from)
    else FirstTag(ns, tag, from + 1)
  }

  /** Node `i` lies inside the body `body` (`body.find(...)` selects it);
      there is no body when the page has none. */
  predicate InBody(ns: seq<Node>, body: Option<nat>, i: nat)
    requires i < |ns|
  {
    body.Some? && body.value in Ancestors(ns, i)
  }

  /** An element with tag `tag` inside the body. */
  predicate BodyTag(ns: seq<Node>, body: Option<nat>, i: nat, tag: string)
    requires i < |ns|
  {
    ns[i].Element? && ns[i].tag == tag && InBody(ns, body, i)
  }

  /** Two nodes in the same place of the tree: the same kind, the same
      parent and, for elements, the same tag, class and id. */
  predicate SameShape(x: Node, y: Node) {
    && x.Element? == y.Element?
    && x.Text? == y.Text?
    && ParentOf(x) == ParentOf(y)
    && (x.Element? ==> x.tag == y.tag && Attr(x.attrs, "class") == Attr(y.attrs, "class") && Attr(x.attrs, "id") == Attr(y.attrs, "id"))
  }

  /** `b` is `a` with only attributes other than class and id, and text,
      changed. */
  ghost predicate SameFrame(a: seq<Node>, b: seq<Node>) {
    |a| == |b| && forall k :: 0 <= k < |a| ==> SameShape(a[k], b[k])
  }

  lemma SameFrameTrans(a: seq<Node>, b: seq<Node>, c: seq<Node>)
    requires SameFrame(a, b) && SameFrame(b, c)
    ensures SameFrame(a, c)
  {
  }

  /** Changing one node for one of the same shape keeps the frame. */
  lemma SameFrameUpdate(a: seq<Node>, b: seq<Node>, i: nat, n: Node)
    requires SameFrame(a, b) && i < |b| && SameShape(b[i], n)
    ensures SameFrame(a, b[i := n])
  {
  }

  lemma {:induction false} UpFrame(a: seq<Node>, b: seq<Node>, p: int)
    requires SameFrame(a, b)
    ensures Up(a, p) == Up(b, p)
    decreases p
  {
    if 0 <= p < |a| {
      assert SameShape(a[p], b[p]);
      if a[p].Element? && ParentOf(a[p]) < p {
        UpFrame(a, b, ParentOf(a[p]));
      }
    }
  }

  /** The ancestors of a node depend only on the frame. */
  lemma AncestorsFrame(a: seq<Node>, b: seq<Node>, i: nat)
    requires SameFrame(a, b) && i < |a|
    ensures Ancestors(a, i) == Ancestors(b, i)
  {
    assert SameShape(a[i], b[i]);
    UpFrame(a, b, ParentOf(a[i]));
  }

  /** So does whether a node lies in the body or below a logo. */
  lemma PlaceFrame(a: seq<Node>, b: seq<Node>, body: Option<nat>, i: nat)
    requires SameFrame(a, b) && i < |a|
    ensures InBody(a, body, i) == InBody(b, body, i)
    ensures LogoAbove(a, i) == LogoAbove(b, i)
  {
    AncestorsFrame(a, b, i);
    var anc := Ancestors(a, i);
    forall k | 0 <= k < |anc|
      ensures LogoMarked(a[anc[k]].attrs) == LogoMarked(b[anc[k]].attrs)
    {
      assert SameShape(a[anc[k]], b[anc[k]]);
    }
  }

  /** Two nodes that link the same way: both elements or neither, with the
      same parent. */
  predicate SameLink(x: Node, y: Node) {
    x.Element? == y.Element? && ParentOf(x) == ParentOf(y)
  }

  /** The elements above `p` depend only on the links up to `p`. */
  lemma {:induction false} UpLinks(a: seq<Node>, b: seq<Node>, p: int)
    requires |a| == |b|
    requires forall j :: 0 <= j < |a| && j <= p ==> SameLink(a[j], b[j])
    ensures Up(a, p) == Up(b, p)
    decreases p
  {
    if 0 <= p < |a| && a[p].Element? && ParentOf(a[p]) < p {
      UpLinks(a, b, ParentOf(a[p]));
    }
  }

  lemma AncestorsLinks(a: seq<Node>, b: seq<Node>, k: nat)
    requires |a| == |b| && k < |a|
    requires forall j :: 0 <= j <= k ==> SameLink(a[j], b[j])
    ensures Ancestors(a, k) == Ancestors(b, k)
  {
    var q := ParentOf(a[k]);
    if q < k {
      UpLinks(a, b, q);
    }
  }

  /** The elements above `p` depend only on the links along the way, when
      `b` has no element where `a` has none. */
  lemma {:induction false} UpAlong(a: seq<Node>, b: seq<Node>, p: int)
    requires |a| == |b|
    requires forall j :: 0 <= j < |b| && b[j].Element? ==> a[j].Element?
    requires forall j :: j in Up(a, p) ==> SameLink(a[j], b[j])
    ensures Up(a, p) == Up(b, p)
    decreases p
  {
    if 0 <= p < |a| && a[p].Element? {
      assert p in Up(a, p);
      var q := ParentOf(a[p]);
      if q < p {
        assert Up(a, p) == [p] + Up(a, q);
        UpAlong(a, b, q);
      }
    }
  }

  lemma AncestorsAlong(a: seq<Node>, b: seq<Node>, k: nat)
    requires |a| == |b| && k < |a| && ParentOf(a[k]) == ParentOf(b[k])
    requires forall j :: 0 <= j < |b| && b[j].Element? ==> a[j].Element?
    requires forall j :: j in Ancestors(a, k) ==> SameLink(a[j], b[j])
    ensures Ancestors(a, k) == Ancestors(b, k)
  {
    var q := ParentOf(a[k]);
    if q < k {
      UpAlong(a, b, q);
    }
  }

  /** The first element with a tag depends only on the frame. */
  lemma {:induction false} FirstTagFrame(a: seq<Node>, b: seq<Node>, tag: string, from: nat)
    requires SameFrame(a, b)
    ensures FirstTag(a, tag, from) == FirstTag(b, tag, from)
    decreases |a| - from
  {
    if from < |a| {
      assert SameShape(a[from], b[from]);
      FirstTagFrame(a, b, tag, from + 1);
    }
  }

  /** `$el.attr(name)` read as a condition: present and not empty. */
  function Filled(m: map<string, string>, name: string): (r: Option<string>)
    ensures r.Some? <==> name in m && m[name] != ""
    ensures r.Some? ==> r.value == m[name]
  {
    if name in m && m[name] != "" then Some(m[name]) else None
  }

  /** `$el.attr(a) || $el.attr(b) || ...`: the first of `names` that is
      present and not empty. */
  function FirstFilled(m: map<string, string>, names: seq<string>): (r: Option<string>)
    ensures r.Some? ==> exists k :: (0 <= k < |names| && Filled(m, names[k]) == Some(r.value)
                                    && forall j :: 0 <= j < k ==> Filled(m, names[j]).None?)
    ensures r.None? <==> forall k :: 0 <= k < |names| ==> Filled(m, names[k]).None?
  {
    if |names| == 0 then None
    else if Filled(m, names[0]).Some? then Filled(m, names[0])
    else
      var r := FirstFilled(m, names[1..]);
      assert r.Some? ==> exists k :: (0 <= k < |names| && Filled(m, names[k]) == Some(r.value)
                                     && forall j :: 0 <= j < k ==> Filled(m, names[j]).None?) by {
        if r.Some? {
          var k :| 0 <= k < |names| - 1 && Filled(m, names[1..][k]) == Some(r.value)
            && forall j :: 0 <= j < k ==> Filled(m, names[1..][j]).None?;
          forall j | 0 <= j < k + 1 ensures Filled(m, names[j]).None? {
            if j > 0 {
              assert names[j] == names[1..][j - 1];
            }
          }
          assert Filled(m, names[k + 1]) == Some(r.value);
        }
      }
      r
  }

  /** The text inside element `e`: the data of the text nodes below it, in
      document order, from index `from` on: `$el.text()`. */
  function TextFrom(ns: seq<Node>, e: nat, from: nat): string
    decreases |ns| - from
  {
    if from >= |ns| then ""
    else if ns[from].Text? && e in Ancestors(ns, from) then ns[from].data + TextFrom(ns, e, from + 1)
    else TextFrom(ns, e, from + 1)
  }
}

=== FILE: env.dfy ===
/** What the engine asks of its surroundings, as values: the file system as
    sets of existing paths, the URL parser and `encodeURI` as functions that
    may fail, and the working directory. */
module Env {
  datatype Option<T> = None | Some(value: T)

  /** What `new URL(s)` exposes: `origin` stands for everything in front of
      the path (scheme, credentials, host and port, as serialised). */
  datatype Url = Url(origin: string, hostname: string, pathname: string, search: string, hash: string)

  /** The search of a parsed URL is empty or starts with `?`, and its hash is
      empty or starts with `#`. */
  predicate WellFormed(u: Url) {
    && (u.search == "" || u.search[0] == '?')
    && (u.hash == "" || u.hash[0] == '#')
  }

  /** `url.toString()`. */
  function Href(u: Url): string {
    u.origin + u.pathname + u.search + u.hash
  }

  /** The existing paths, as the absolute normalised strings the engine
      builds: regular files, and everything else that exists. */
  datatype Disk = Disk(files: set<string>, others: set<string>)

  /** `fs.existsSync`. */
  predicate Exists(d: Disk, p: string) {
    p in d.files || p in d.others
  }

  /** `fs.statSync(p).isFile()`, for an existing `p`. */
  predicate IsFile(d: Disk, p: string) {
    p in d.files
  }

  /** The surroundings of one run: `parse` is `new URL` (`None` when it
      throws) and `encodeUri` is `encodeURI` (`None` when it throws). */
  datatype World = World(cwd: string, disk: Disk, parse: string -> Option<Url>, encodeUri: string -> Option<string>)

  /** `normalizeUrl`: the encoded text, or the text itself when encoding fails. */
  function NormalizeUrl(w: World, v: string): (r: string)
    ensures w.encodeUri(v).None? ==> r == v
  {
    match w.encodeUri(v)
    case Some(e) => e
    case None => v
  }
}

=== FILE: hosts.dfy ===
/** The host classifier: the alias table, then a suffix rule. */
module Hosts {
  import opened Text
  import opened Site

  /** A known host of the old or the new brand becomes its canonical host;
      every other host is kept as it is. */
  function NormalizeLegacyHost(host: string): (r: string)
    ensures host in LegacyHostAliases ==> r in Domains
    ensures host !in LegacyHostAliases ==> r == host
  {
    AliasValuesAreDomains();
    if host in LegacyHostAliases then LegacyHostAliases[host] else host
  }

  /** A host belongs to the site when, once normalised, it is the primary
      domain or one of its sub-domains. */
  predicate IsLegacyHost(host: string) {
    var n := NormalizeLegacyHost(host);
    n == Primary || EndsWith(n, "." + Primary)
  }

  /** Normalising twice gives what normalising once gives. */
  lemma NormalizeIdempotent(host: string)
    ensures NormalizeLegacyHost(NormalizeLegacyHost(host)) == NormalizeLegacyHost(host)
  {
    AliasesFixDomains();
  }

  /** The classification, stated on the raw host: a host of the table is
      always the site's own, and any other host is the site's own exactly
      when it is a sub-domain of the primary domain. */
  lemma IsLegacyHostSpec(host: string)
    ensures host in LegacyHostAliases ==> IsLegacyHost(host)
    ensures host !in LegacyHostAliases ==> (IsLegacyHost(host) <==> EndsWith(host, "." + Primary))
  {
    if host in LegacyHostAliases {
      var n := NormalizeLegacyHost(host);
      if n != Primary {
        SubdomainsOfPrimary(n);
      }
    } else {
      assert host != Primary;
    }
  }

  /** The other canonical domains are sub-domains of the primary one. */
  lemma SubdomainsOfPrimary(n: string)
    requires n in {Panel, Api, Cdn}
    ensures EndsWith(n, "." + Primary)
  {
    if n == Panel {
      PanelIsSubdomain();
    } else if n == Api {
      ApiIsSubdomain();
    } else {
      CdnIsSubdomain();
    }
  }

  lemma PanelIsSubdomain() ensures EndsWith(Panel, "." + Primary) { assert Panel == "panel" + ("." + Primary); }
  lemma ApiIsSubdomain() ensures EndsWith(Api, "." + Primary) { assert Api == "api" + ("." + Primary); }
  lemma CdnIsSubdomain() ensures EndsWith(Cdn, "." + Primary) { assert Cdn == "cdn" + ("." + Primary); }

  /** The old brand's hosts count as the site's own. */
  lemma OldHostsAreLegacy()
    ensures IsLegacyHost("mihanshop.com") && IsLegacyHost("panel.mihanshop.com")
    ensures IsLegacyHost("api.mihanshop.com") && IsLegacyHost("cdn.mihanshop.com")
  {
    IsLegacyHostSpec("mihanshop.com");
    IsLegacyHostSpec("panel.mihanshop.com");
    IsLegacyHostSpec("api.mihanshop.com");
    IsLegacyHostSpec("cdn.mihanshop.com");
  }
}

=== FILE: images.dfy ===
/** What the image pass does to the attributes of one `<img>` inside the
    body, stage by stage in the order of the source: adopt a lazy-loading
    source, drop the lazy-loading attributes, rewrite the `srcset`, localise
    the source, force the logo, and add the loading hints. */
module Images {
  import opened Text
  import opened Env
  import opened Routes
  import opened Logo
  import opened Assets
  import opened Srcset
  import opened Dom

  /** The attributes lazy-loading scripts keep the real source in. */
  const LazyKeys: seq<string> := ["data-src", "data-original", "data-lazy", "data-image", "data-bg", "data-background"]

  /** The attributes the `srcset` is read from. */
  const SrcsetKeys: seq<string> := ["srcset", "data-srcset"]

  const LogoPath: string := "/Logo.png"
  const FallbackHandler: string := "this.onerror=null;this.src='/Logo.png';"

  /** `LazyKeys` as a set. */
  const LazySet: set<string> := {"data-src", "data-original", "data-lazy", "data-image", "data-bg", "data-background"}

  /** The attributes the stages before the loading hints may write or
      remove. */
  const LocalKeys: set<string> := {"src", "srcset", "data-srcset",
    "data-src", "data-original", "data-lazy", "data-image", "data-bg", "data-background"}

  /** The attributes the image pass may write or remove. */
  const Touched: set<string> := {"src", "srcset", "data-srcset", "loading", "decoding", "onerror",
    "data-src", "data-original", "data-lazy", "data-image", "data-bg", "data-background"}

  /** `b` agrees with `a` on every attribute outside `ks`. */
  ghost predicate Keeps(a: map<string, string>, b: map<string, string>, ks: set<string>) {
    forall k :: k !in ks ==> (k in a <==> k in b) && (k in a ==> a[k] == b[k])
  }

  /** A lazy source is adopted when the image has no source, an empty
      one, or one that names an HTML page. */
  function AdoptLazySource(m: map<string, string>): (r: map<string, string>)
    ensures Keeps(m, r, {"src"})
  {
    var dataSrc := FirstFilled(m, LazyKeys);
    var src := Attr(m, "src");
    if dataSrc.Some? && (src.None? || src.value == "" || EndsWith(src.value, ".html")) then m["src" := dataSrc.value]
    else m
  }

  function DropLazy(m: map<string, string>): (r: map<string, string>)
    ensures Keeps(m, r, LazySet)
    ensures forall k :: k in LazySet ==> k !in r
  {
    m - LazySet
  }

  /** The `srcset`, or else the `data-srcset`, rewritten into `srcset`;
      `data-srcset` is removed. */
  function SrcsetFixed(w: World, m: map<string, string>, pageDir: string, key: SiteKey): (r: map<string, string>)
    ensures Keeps(m, r, {"srcset", "data-srcset"})
    ensures "data-srcset" !in r
  {
    var srcset := FirstFilled(m, SrcsetKeys);
    var m1 := if srcset.Some? then m["srcset" := FixSrcset(w, srcset.value, pageDir, key)] else m;
    m1 - {"data-srcset"}
  }

  /** A source is localised; one that names an HTML page becomes the logo. */
  function SourceFixed(w: World, m: map<string, string>, pageDir: string, key: SiteKey): (r: map<string, string>)
    ensures Keeps(m, r, {"src"})
  {
    var next := Filled(m, "src");
    var m1 := if next.Some? then m["src" := ToLocalAsset(w, next.value, pageDir, key)] else m;
    if next.Some? && EndsWith(next.value, ".html") then m1["src" := LogoPath] else m1
  }

  /** The logo replaces the source when the image looks like a logo or sits
      inside an element marked as one. */
  function LogoForced(m: map<string, string>, marked: bool): (r: map<string, string>)
    ensures Keeps(m, r, {"src"})
  {
    var m1 := if IsLogoAsset(Attr(m, "src"), Attr(m, "alt"), Attr(m, "title"), Attr(m, "class")) then m["src" := LogoPath] else m;
    if marked then m1["src" := LogoPath] else m1
  }

  /** `loading` and `onerror` are added when missing or empty; `decoding`
      is always set. */
  function LoadingHints(m: map<string, string>): (r: map<string, string>)
    ensures Keeps(m, r, {"loading", "decoding", "onerror"})
  {
    var m1 := if Filled(m, "loading").None? then m["loading" := "lazy"] else m;
    var m2 := m1["decoding" := "async"];
    if Filled(m2, "onerror").None? then m2["onerror" := FallbackHandler] else m2
  }

  /** The attributes of the image before the logo test. */
  function Localised(w: World, m: map<string, string>, pageDir: string, key: SiteKey): map<string, string> {
    SourceFixed(w, SrcsetFixed(w, DropLazy(AdoptLazySource(m)), pageDir, key), pageDir, key)
  }

  /** The image pass on one image; `marked` says whether an ancestor looks
      like a logo. */
  function FixImage(w: World, m: map<string, string>, marked: bool, pageDir: string, key: SiteKey): (r: map<string, string>)
    ensures Attr(r, "class") == Attr(m, "class") && Attr(r, "id") == Attr(m, "id")
    ensures Attr(r, "decoding") == Some("async")
  {
    StagesKeepClassId(w, m, marked, pageDir, key);
    LoadingHints(LogoForced(Localised(w, m, pageDir, key), marked))
  }

  /** The stages of the image pass leave the class and id alone and set
      `decoding`. */
  lemma StagesKeepClassId(w: World, m: map<string, string>, marked: bool, pageDir: string, key: SiteKey)
    ensures var r := LoadingHints(LogoForced(Localised(w, m, pageDir, key), marked));
      Attr(r, "class") == Attr(m, "class") && Attr(r, "id") == Attr(m, "id") && Attr(r, "decoding") == Some("async")
  {
    var d := DropLazy(AdoptLazySource(m));
    var r := LoadingHints(LogoForced(SourceFixed(w, SrcsetFixed(w, d, pageDir, key), pageDir, key), marked));
    EarlyKeeps(m);
    LaterKeeps(w, d, marked, pageDir, key);
    KeySets();
    KeepsChain(m, d, r, EarlyKeys, LaterKeys, Touched);
    ClassIdNotTouched();
    KeptAttr(m, r, Touched, "class");
    KeptAttr(m, r, Touched, "id");
  }

  /** Agreement outside a set of keys composes. */
  lemma KeepsChain(a: map<string, string>, b: map<string, string>, c: map<string, string>, ks1: set<string>, ks2: set<string>, ks: set<string>)
    requires Keeps(a, b, ks1) && Keeps(b, c, ks2) && ks1 + ks2 <= ks
    ensures Keeps(a, c, ks)
  {
  }

  /** The attributes the lazy-loading stages may write or remove. */
  const EarlyKeys: set<string> := {"src", "data-src", "data-original", "data-lazy", "data-image", "data-bg", "data-background"}

  /** The attributes the stages from the source rewrite on may write. */
  const SourceKeys: set<string> := {"src", "loading", "decoding", "onerror"}

  /** The attributes the stages after the lazy-loading ones may write or
      remove. */
  const LaterKeys: set<string> := {"src", "srcset", "data-srcset", "loading", "decoding", "onerror"}

  /** Which attribute sets hold which names. */
  lemma KeySets()
    ensures "srcset" !in EarlyKeys && "data-srcset" !in EarlyKeys
    ensures "srcset" !in SourceKeys && "src" !in {"loading", "decoding", "onerror"}
    ensures "src" !in LazySet && "src" !in {"srcset", "data-srcset"}
    ensures "loading" !in LocalKeys && "onerror" !in LocalKeys
    ensures "alt" !in LocalKeys && "title" !in LocalKeys && "class" !in LocalKeys
    ensures EarlyKeys + LaterKeys == Touched
  {
  }

  /** The image pass leaves the class and id of an image alone. */
  lemma ClassIdNotTouched()
    ensures "class" !in Touched && "id" !in Touched
  {
  }

  lemma LazyNotLater(k: string)
    requires k in LazySet
    ensures k !in LaterKeys
  {
  }

  /** The lazy-loading stages change only the source and the lazy keys. */
  lemma EarlyKeeps(m: map<string, string>)
    ensures Keeps(m, DropLazy(AdoptLazySource(m)), EarlyKeys)
  {
    var a := AdoptLazySource(m);
    KeepsChain(m, a, DropLazy(a), {"src"}, LazySet, EarlyKeys);
  }

  /** The stages from the source rewrite on change only the source and the
      loading hints. */
  lemma SourceOnwardKeeps(w: World, s: map<string, string>, marked: bool, pageDir: string, key: SiteKey)
    ensures Keeps(s, LoadingHints(LogoForced(SourceFixed(w, s, pageDir, key), marked)), SourceKeys)
  {
    var l := SourceFixed(w, s, pageDir, key);
    var f := LogoForced(l, marked);
    KeepsChain(s, l, f, {"src"}, {"src"}, {"src"});
    KeepsChain(s, f, LoadingHints(f), {"src"}, {"loading", "decoding", "onerror"}, SourceKeys);
  }

  /** The stages after the lazy-loading ones touch only `LaterKeys`, and
      leave no `data-srcset`. */
  lemma LaterKeeps(w: World, d: map<string, string>, marked: bool, pageDir: string, key: SiteKey)
    ensures var h := LoadingHints(LogoForced(SourceFixed(w, SrcsetFixed(w, d, pageDir, key), pageDir, key), marked));
      Keeps(d, h, LaterKeys) && "data-srcset" !in h
  {
    var s := SrcsetFixed(w, d, pageDir, key);
    SourceOnwardKeeps(w, s, marked, pageDir, key);
    KeepsChain(d, s, LoadingHints(LogoForced(SourceFixed(w, s, pageDir, key), marked)), {"srcset", "data-srcset"}, SourceKeys, LaterKeys);
  }

  /** The stages before the loading hints change only the source, the
      `srcset` keys and the lazy-loading keys. */
  lemma LocalisedKeeps(w: World, m: map<string, string>, pageDir: string, key: SiteKey)
    ensures Keeps(m, Localised(w, m, pageDir, key), LocalKeys)
  {
    var d := DropLazy(AdoptLazySource(m));
    var s := SrcsetFixed(w, d, pageDir, key);
    EarlyKeeps(m);
    KeepsChain(m, d, s, EarlyKeys, {"srcset", "data-srcset"}, LocalKeys);
    KeepsChain(m, s, SourceFixed(w, s, pageDir, key), LocalKeys, {"src"}, LocalKeys);
  }

  /** Nothing but the attributes the pass is about changes. */
  lemma FixImageKeepsOthers(w: World, m: map<string, string>, marked: bool, pageDir: string, key: SiteKey)
    ensures Keeps(m, FixImage(w, m, marked, pageDir, key), Touched)
  {
    var d := DropLazy(AdoptLazySource(m));
    EarlyKeeps(m);
    LaterKeeps(w, d, marked, pageDir, key);
    KeySets();
    KeepsChain(m, d, FixImage(w, m, marked, pageDir, key), EarlyKeys, LaterKeys, Touched);
  }

  /** An attribute outside the keys a stage touches reads the same after it. */
  lemma KeptAttr(a: map<string, string>, b: map<string, string>, ks: set<string>, k: string)
    requires Keeps(a, b, ks) && k !in ks
    ensures Attr(b, k) == Attr(a, k) && Filled(b, k) == Filled(a, k)
  {
  }

  /** The loading hints are not among the keys the earlier stages touch. */
  lemma HintsUntouched(w: World, m: map<string, string>, marked: bool, pageDir: string, key: SiteKey)
    ensures Filled(LogoForced(Localised(w, m, pageDir, key), marked), "loading") == Filled(m, "loading")
    ensures Filled(LogoForced(Localised(w, m, pageDir, key), marked), "onerror") == Filled(m, "onerror")
  {
    var l := Localised(w, m, pageDir, key);
    var f := LogoForced(l, marked);
    LocalisedKeeps(w, m, pageDir, key);
    KeepsChain(m, l, f, LocalKeys, {"src"}, LocalKeys);
    KeySets();
    KeptAttr(m, f, LocalKeys, "loading");
    KeptAttr(m, f, LocalKeys, "onerror");
  }

  /** What the hints stage writes, from what it is given. */
  lemma HintsOf(f: map<string, string>)
    ensures Attr(LoadingHints(f), "decoding") == Some("async")
    ensures Attr(LoadingHints(f), "loading") == (if Filled(f, "loading").Some? then Some(f["loading"]) else Some("lazy"))
    ensures Attr(LoadingHints(f), "onerror") == (if Filled(f, "onerror").Some? then Some(f["onerror"]) else Some(FallbackHandler))
  {
  }

  /** Every image is decoded asynchronously; `loading` and `onerror` keep
      what the page gave them, and are filled in only when missing or
      empty. */
  lemma FixImageHints(w: World, m: map<string, string>, marked: bool, pageDir: string, key: SiteKey)
    ensures Attr(FixImage(w, m, marked, pageDir, key), "decoding") == Some("async")
    ensures Attr(FixImage(w, m, marked, pageDir, key), "loading") ==
      (if Filled(m, "loading").Some? then Some(m["loading"]) else Some("lazy"))
    ensures Attr(FixImage(w, m, marked, pageDir, key), "onerror") ==
      (if Filled(m, "onerror").Some? then Some(m["onerror"]) else Some(FallbackHandler))
  {
    HintsUntouched(w, m, marked, pageDir, key);
    HintsOf(LogoForced(Localised(w, m, pageDir, key), marked));
  }

  /** No lazy-loading attribute and no `data-srcset` is left. */
  lemma FixImageDropsLazy(w: World, m: map<string, string>, marked: bool, pageDir: string, key: SiteKey)
    ensures forall k :: k in LazySet ==> k !in FixImage(w, m, marked, pageDir, key)
    ensures "data-srcset" !in FixImage(w, m, marked, pageDir, key)
  {
    var d := DropLazy(AdoptLazySource(m));
    LaterKeeps(w, d, marked, pageDir, key);
    forall k | k in LazySet ensures k !in FixImage(w, m, marked, pageDir, key) {
      assert k !in d;
      LazyNotLater(k);
    }
  }

  /** The `srcset` keys are not among the keys the lazy-source stages touch. */
  lemma SrcsetKeysUntouched(m: map<string, string>)
    ensures FirstFilled(DropLazy(AdoptLazySource(m)), SrcsetKeys) == FirstFilled(m, SrcsetKeys)
    ensures Attr(DropLazy(AdoptLazySource(m)), "srcset") == Attr(m, "srcset")
  {
    var d := DropLazy(AdoptLazySource(m));
    EarlyKeeps(m);
    KeySets();
    assert SrcsetKeys[0] == "srcset" && SrcsetKeys[1] == "data-srcset";
    assert Filled(d, SrcsetKeys[0]) == Filled(m, SrcsetKeys[0]);
    assert Filled(d, SrcsetKeys[1]) == Filled(m, SrcsetKeys[1]);
  }

  /** The `srcset`, or else the `data-srcset`, ends up rewritten in
      `srcset`, each candidate keeping its descriptor. */
  lemma FixImageSrcset(w: World, m: map<string, string>, marked: bool, pageDir: string, key: SiteKey)
    ensures FirstFilled(m, SrcsetKeys).Some? ==>
      Attr(FixImage(w, m, marked, pageDir, key), "srcset") == Some(FixSrcset(w, FirstFilled(m, SrcsetKeys).value, pageDir, key))
    ensures FirstFilled(m, SrcsetKeys).None? ==>
      Attr(FixImage(w, m, marked, pageDir, key), "srcset") == Attr(m, "srcset")
  {
    var s := SrcsetFixed(w, DropLazy(AdoptLazySource(m)), pageDir, key);
    SrcsetKeysUntouched(m);
    SourceOnwardKeeps(w, s, marked, pageDir, key);
    KeySets();
  }

  /** The source the image pass localises: the page's own, or the lazy one
      when that is missing, empty or names an HTML page. */
  function NextSource(m: map<string, string>): Option<string> {
    Filled(AdoptLazySource(m), "src")
  }

  /** The next source is the first filled lazy attribute when the image has
      no source, an empty one, or one naming an HTML page; otherwise it is
      the image's own source. */
  lemma NextSourceSpec(m: map<string, string>)
    ensures FirstFilled(m, LazyKeys).Some? && (Filled(m, "src").None? || EndsWith(m["src"], ".html")) ==>
      NextSource(m) == FirstFilled(m, LazyKeys)
    ensures FirstFilled(m, LazyKeys).None? || (Filled(m, "src").Some? && !EndsWith(m["src"], ".html")) ==>
      NextSource(m) == Filled(m, "src")
  {
  }

  /** The source reaches the source rewrite as the lazy stage left it. */
  lemma SourceUntouched(w: World, m: map<string, string>, pageDir: string, key: SiteKey)
    ensures Filled(SrcsetFixed(w, DropLazy(AdoptLazySource(m)), pageDir, key), "src") == NextSource(m)
  {
    var a := AdoptLazySource(m);
    var d := DropLazy(a);
    KeepsChain(a, d, SrcsetFixed(w, d, pageDir, key), LazySet, {"srcset", "data-srcset"}, LazySet + {"srcset", "data-srcset"});
    KeySets();
  }

  /** The source after the logo test and the loading hints. */
  lemma FinalSource(l: map<string, string>, marked: bool)
    ensures Attr(LoadingHints(LogoForced(l, marked)), "src") ==
      (if marked || IsLogoAsset(Attr(l, "src"), Attr(l, "alt"), Attr(l, "title"), Attr(l, "class")) then Some(LogoPath) else Attr(l, "src"))
  {
    var f := LogoForced(l, marked);
    KeySets();
    assert Attr(LoadingHints(f), "src") == Attr(f, "src");
  }

  /** What the source rewrite makes of the next source; the labels the
      logo test reads are those of the page. */
  lemma LocalisedSource(w: World, m: map<string, string>, pageDir: string, key: SiteKey)
    ensures var l := Localised(w, m, pageDir, key);
      Attr(l, "alt") == Attr(m, "alt") && Attr(l, "title") == Attr(m, "title") && Attr(l, "class") == Attr(m, "class")
    ensures NextSource(m).Some? && EndsWith(NextSource(m).value, ".html") ==>
      Attr(Localised(w, m, pageDir, key), "src") == Some(LogoPath)
    ensures NextSource(m).Some? && !EndsWith(NextSource(m).value, ".html") ==>
      Attr(Localised(w, m, pageDir, key), "src") == Some(ToLocalAsset(w, NextSource(m).value, pageDir, key))
  {
    SourceUntouched(w, m, pageDir, key);
    LocalisedKeeps(w, m, pageDir, key);
    KeySets();
  }

  /** An image inside an element marked as a logo, and one whose next
      source names an HTML page, shows the logo. */
  lemma FixImageLogo(w: World, m: map<string, string>, marked: bool, pageDir: string, key: SiteKey)
    requires marked || (NextSource(m).Some? && EndsWith(NextSource(m).value, ".html"))
    ensures Attr(FixImage(w, m, marked, pageDir, key), "src") == Some(LogoPath)
  {
    LocalisedSource(w, m, pageDir, key);
    FinalSource(Localised(w, m, pageDir, key), marked);
  }

  /** Otherwise the source is the localised next source, unless the image
      itself looks like a logo, when it is the logo. */
  lemma FixImageSource(w: World, m: map<string, string>, marked: bool, pageDir: string, key: SiteKey)
    requires !marked && NextSource(m).Some? && !EndsWith(NextSource(m).value, ".html")
    ensures var src := ToLocalAsset(w, NextSource(m).value, pageDir, key);
      var f := FixImage(w, m, marked, pageDir, key);
      Attr(f, "src") == (if IsLogoAsset(Some(src), Attr(m, "alt"), Attr(m, "title"), Attr(m, "class")) then Some(LogoPath) else Some(src))
  {
    LocalisedSource(w, m, pageDir, key);
    FinalSource(Localised(w, m, pageDir, key), marked);
  }
}

=== FILE: links.dfy ===
/** Link rewriting: the old brand's social profiles, and links of the archive
    turned into routes of the new site. */
module Links {
  import opened Text
  import opened Site
  import opened Hosts
  import opened Posix
  import opened Env
  import opened Routes
  import opened PathExamples

  /** `s` starts with the lower-case `t`, ignoring ASCII case. */
  predicate StartsWithCI(s: string, t: string) {
    |t| <= |s| && EqualsLower(s[..|t|], t)
  }

  /** `isExternal`: an `http://` or `https://` URL, in any case. */
  predicate IsExternal(v: string) {
    StartsWithCI(v, "http://") || StartsWithCI(v, "https://")
  }

  /** `v.split(c)` destructured into its first two pieces: the text before the
      first `c`, and the second piece with `c` back in front, or nothing when
      that piece is missing or empty. */
  function SplitAt(v: string, c: char): (string, string) {
    var parts := Split(v, c);
    (parts[0], if |parts| > 1 && |parts[1]| > 0 then [c] + parts[1] else "")
  }

  /** `splitHash`. */
  function SplitHash(v: string): (string, string) {
    SplitAt(v, '#')
  }

  /** `splitQuery`. */
  function SplitQuery(v: string): (string, string) {
    SplitAt(v, '?')
  }

  /** The first part is the text before the first `c`; the second is empty
      or `c` and the non-empty text up to the next `c`, found right after
      the first part. */
  lemma SplitAtSpec(v: string, c: char)
    ensures var r := SplitAt(v, c);
      && r.0 <= v && c !in r.0
      && (|r.0| < |v| ==> v[|r.0|] == c)
      && (c !in v ==> r == (v, ""))
      && (r.1 == "" || (|r.1| >= 2 && r.1[0] == c && c !in r.1[1..] && StartsWith(v[|r.0|..], r.1)))
  {
    SplitHead(v, c);
    var h := Split(v, c)[0];
    if c in v {
      var rest := v[|h| + 1..];
      SplitHead(rest, c);
      var p := Split(rest, c)[0];
      assert Split(v, c)[1] == p;
      if |p| > 0 {
        assert v[|h|..][..1 + |p|] == [c] + p;
      }
    } else {
      SplitNoSeparator(v, c);
    }
  }

  /** Splitting a text built from a part free of `c` and an optional second
      part gives the two parts back. */
  lemma SplitAtConcat(x: string, y: string, c: char)
    requires c !in x
    requires y == "" || (|y| >= 2 && y[0] == c && c !in y[1..])
    ensures SplitAt(x + y, c) == (x, y)
  {
    if y == "" {
      assert x + y == x;
      SplitNoSeparator(x, c);
    } else {
      var v := x + y;
      SplitHead(v, c);
      var h := Split(v, c)[0];
      assert v[|x|] == c;
      assert h == x;
      assert v[|h| + 1..] == y[1..];
      SplitNoSeparator(y[1..], c);
      assert [c] + y[1..] == y;
    }
  }

  // The old brand's social profiles and the new brand's.

  /** `p` is `/t` with or without a trailing `/`, ignoring ASCII case. */
  predicate PathIs(p: string, t: string) {
    EqualsLower(p, t) || EqualsLower(p, t + "/")
  }

  /** The pathname of a parsed external URL after the profile renames: each
      rule looks at the original pathname and a later rule that also applies
      wins. */
  function RenamedPath(host: string, p: string): string {
    var p1 := if Contains(host, "instagram.com") && PathIs(p, "/mihanshopcom") then "/websithebama" else p;
    var p2 := if Contains(host, "youtube.com") && PathIs(p, "/@mihanshop") then "/@WebsiteBama" else p1;
    var p3 := if Contains(host, "linkedin.com") && PathIs(p, "/company/mihanshop") then "/company/websithebama" else p2;
    if Contains(host, "aparat.com") && PathIs(p, "/mihanshopcom") then "/WebsiteBama" else p3
  }

  /** `rewriteExternalBrandUrl`: an external URL is parsed and serialised
      again, its pathname renamed when it is one of the old brand's profiles;
      anything else, and anything that does not parse, is kept. */
  function RewriteExternalBrandUrl(w: World, raw: string): (r: string)
    ensures |raw| == 0 || !IsExternal(raw) || w.parse(raw).None? ==> r == raw
    ensures w.parse(raw).Some? && |raw| > 0 && IsExternal(raw) ==>
      var u := w.parse(raw).value;
      r == Href(u.(pathname := RenamedPath(Lower(u.hostname), u.pathname)))
  {
    if |raw| == 0 || !IsExternal(raw) then raw
    else
      match w.parse(raw)
      case None => raw
      case Some(u) => Href(u.(pathname := RenamedPath(Lower(u.hostname), u.pathname)))
  }

  /** The renames only touch the four profile paths, in any case and with or
      without a trailing slash, on hosts of the four networks; every other
      pathname is kept. */
  lemma RenamedPathSpec(host: string, p: string)
    ensures var r := RenamedPath(host, p);
      && (r != p ==> PathIs(p, "/mihanshopcom") || PathIs(p, "/@mihanshop") || PathIs(p, "/company/mihanshop"))
      && (r in {"/websithebama", "/@WebsiteBama", "/company/websithebama", "/WebsiteBama"} || r == p)
      && (Contains(host, "instagram.com") && !Contains(host, "aparat.com") && PathIs(p, "/mihanshopcom") ==> r == "/websithebama")
      && (Contains(host, "aparat.com") && PathIs(p, "/mihanshopcom") ==> r == "/WebsiteBama")
      && (Contains(host, "youtube.com") && PathIs(p, "/@mihanshop") ==> r == "/@WebsiteBama")
      && (Contains(host, "linkedin.com") && PathIs(p, "/company/mihanshop") ==> r == "/company/websithebama")
  {
    if PathIs(p, "/@mihanshop") {
      NotBoth(p, "/@mihanshop", "/mihanshopcom");
      NotBoth(p, "/@mihanshop", "/company/mihanshop");
    } else if PathIs(p, "/company/mihanshop") {
      NotBoth(p, "/company/mihanshop", "/mihanshopcom");
    }
  }

  /** Two lower-case profile paths that differ in their second character
      never both match. */
  lemma NotBoth(p: string, s: string, t: string)
    requires |s| >= 2 && |t| >= 2 && s[1] != t[1]
    requires PathIs(p, s)
    ensures !PathIs(p, t)
  {
    assert LowerChar(p[1]) == s[1];
  }

  /** The new profile paths are none of the old ones, so renaming a renamed
      pathname keeps it. */
  lemma RenamedPathIdempotent(host: string, p: string)
    ensures RenamedPath(host, RenamedPath(host, p)) == RenamedPath(host, p)
  {
    RenamedPathSpec(host, p);
    var r := RenamedPath(host, p);
    if r != p {
      NewPathsAreNotOld(r);
    }
  }

  lemma NewPathsAreNotOld(r: string)
    requires r in {"/websithebama", "/@WebsiteBama", "/company/websithebama", "/WebsiteBama"}
    ensures !PathIs(r, "/mihanshopcom") && !PathIs(r, "/@mihanshop") && !PathIs(r, "/company/mihanshop")
  {
    if r == "/websithebama" || r == "/WebsiteBama" {
      assert LowerChar(r[1]) == 'w';
    } else if r == "/@WebsiteBama" {
      assert LowerChar(r[2]) == 'w';
    } else {
      assert LowerChar(r[9]) == 'w';
    }
  }

  /** Rewriting an already rewritten URL that parses back into the same
      parts changes nothing more. */
  lemma RewriteIdempotent(w: World, raw: string)
    requires w.parse(raw).Some? && |raw| > 0 && IsExternal(raw)
    requires var u := w.parse(raw).value;
      var r := RewriteExternalBrandUrl(w, raw);
      |r| > 0 && IsExternal(r) && w.parse(r) == Some(u.(pathname := RenamedPath(Lower(u.hostname), u.pathname)))
    ensures RewriteExternalBrandUrl(w, RewriteExternalBrandUrl(w, raw)) == RewriteExternalBrandUrl(w, raw)
  {
    var u := w.parse(raw).value;
    RenamedPathIdempotent(Lower(u.hostname), u.pathname);
  }

  // Relative links and links to the site itself.

  /** A tail of `s` behind a leading `../` is a tail of `s`, and a slash
      is in front of it. */
  lemma UpStep(s: string, r: string)
    requires StartsWith(s, "../")
    requires |r| <= |s| - 3 && r == s[3..][|s| - 3 - |r|..]
    requires |r| < |s| - 3 ==> s[3..][|s| - 3 - |r| - 1] == '/'
    ensures r == s[|s| - |r|..]
    ensures s[|s| - |r| - 1] == '/'
  {
    assert s[3..][|s| - 3 - |r|..] == s[|s| - |r|..];
    assert s[2] == s[..3][2];
    if |r| < |s| - 3 {
      assert s[3..][|s| - 3 - |r| - 1] == s[|s| - |r| - 1];
    }
  }

  /** `s.replace(/^(\.\.\/)+/, '')`: every leading `../` removed. */
  function StripUps(s: string): (r: string)
    ensures |r| <= |s| && r == s[|s| - |r|..]
    ensures !StartsWith(r, "../")
    ensures |r| < |s| ==> s[|s| - |r| - 1] == '/'
    decreases |s|
  {
    if StartsWith(s, "../") then
      var r := StripUps(s[3..]);
      UpStep(s, r);
      r
    else s
  }

  /** A path of the archive taken against the directory `dir`: joined,
      normalised, with forward slashes, and with any leading `./` and every
      leading `../` removed. */
  function Localize(dir: string, p: string): string {
    StripUps(DropPrefix(NormalizeSlashes(Normalize(JoinPaths([dir, p]))), "./"))
  }

  /** The route of a localised path: `/` and the path without its `.html`,
      without a leading slash and without one trailing slash. */
  function CleanRoute(n: string): (r: string)
    ensures StartsWith(r, "/")
  {
    var cleanPath := DropPrefix(StripHtmlExtension(n), "/");
    var trimmedPath := DropSuffix(cleanPath, "/");
    if |trimmedPath| == 0 then "/" else "/" + trimmedPath
  }

  /** The route of the path `p` of the archive taken against `dir`. */
  function RoutePath(dir: string, p: string): (r: string)
    ensures StartsWith(r, "/")
  {
    CleanRoute(Localize(dir, p))
  }

  /** The relative branch of `toLocalRoute` with the path taken against
      `dir`: the route of the path, then the query and the fragment. */
  function RouteFrom(dir: string, trimmed: string): string {
    var (pathPart, hash) := SplitHash(trimmed);
    var (purePath, query) := SplitQuery(pathPart);
    RoutePath(dir, purePath) + query + hash
  }

  /** The relative branch as written: every path, root-relative ones
      included, is taken against the page's directory. */
  function RelativeRouteAsWritten(pageDir: string, trimmed: string): string {
    RouteFrom(pageDir, trimmed)
  }

  /** The relative branch: a root-relative path is taken against the root of
      the archive, any other against the page's directory. */
  function RelativeRoute(pageDir: string, trimmed: string): string {
    RouteFrom(if StartsWith(trimmed, "/") then "" else pageDir, trimmed)
  }

  /** The route for an absolute URL on the site itself, as written: the
      pathname without `.html` and with one leading slash dropped, behind a
      `/`, then the query and the fragment. */
  function LegacyRouteAsWritten(u: Url): (r: string)
    ensures StartsWith(r, "/") && EndsWith(r, u.search + u.hash)
  {
    var path := DropPrefix(StripHtmlExtension(u.pathname), "/");
    var tail := u.search + u.hash;
    assert ("/" + path + tail)[|"/" + path|..] == tail;
    "/" + path + tail
  }

  /** `s` without any of its leading slashes. */
  function DropSlashes(s: string): (r: string)
    ensures |r| <= |s| && r == s[|s| - |r|..] && !StartsWith(r, "/")
    decreases |s|
  {
    if |s| > 0 && s[0] == '/' then
      var r := DropSlashes(s[1..]);
      assert s[1..][|s| - 1 - |r|..] == s[|s| - |r|..];
      r
    else s
  }

  /** The route for an absolute URL on the site itself, with every leading
      slash of the pathname dropped, so that the route stays on the site. */
  function LegacyRoute(u: Url): (r: string)
    ensures StartsWith(r, "/") && EndsWith(r, u.search + u.hash)
    ensures WellFormed(u) ==> !StartsWith(r, "//")
  {
    var path := DropSlashes(StripHtmlExtension(u.pathname));
    var tail := u.search + u.hash;
    TailNotSlash(u);
    SlashPath(path, tail);
    "/" + path + tail
  }

  /** The query and fragment of a parsed URL never start with `/`. */
  lemma TailNotSlash(u: Url)
    ensures WellFormed(u) ==> !StartsWith(u.search + u.hash, "/")
  {
    var tail := u.search + u.hash;
    if |tail| > 0 {
      assert tail[0] == if |u.search| > 0 then u.search[0] else u.hash[0];
    }
  }

  lemma SlashPath(path: string, tail: string)
    requires !StartsWith(path, "/")
    ensures var r := "/" + path + tail;
      StartsWith(r, "/") && EndsWith(r, tail)
      && (!StartsWith(r, "//") <==> |path| > 0 || !StartsWith(tail, "/"))
  {
    var r := "/" + path + tail;
    assert r[|r| - |tail|..] == tail;
    if |path| > 0 {
      assert r[1] == path[0];
      assert path[0] != '/';
    } else if |tail| > 0 {
      assert r[1] == tail[0];
      assert StartsWith(tail, "/") <==> tail[0] == '/';
    }
  }

  /** `toLocalRoute`: fragments, `mailto:`, `tel:` and `javascript:` links
      are kept (trimmed); absolute URLs on the site become routes of the new
      site and all other absolute URLs are kept; everything else is a path of
      the archive and becomes a route. With `corrected` false the two route
      branches are as written; with `corrected` true they are `LegacyRoute`
      and `RelativeRoute`. */
  function ToLocalRoute(w: World, raw: string, pageDir: string, corrected: bool): (r: string)
    ensures |raw| == 0 ==> r == raw
    ensures |raw| > 0 ==> r == Trim(raw) || StartsWith(r, "/")
  {
    if |raw| == 0 then raw
    else
      var trimmed := Trim(raw);
      RouteFromShape(if corrected && StartsWith(trimmed, "/") then "" else pageDir, trimmed);
      if StartsWith(trimmed, "#") || StartsWith(trimmed, "mailto:") || StartsWith(trimmed, "tel:") || StartsWith(trimmed, "javascript:") then trimmed
      else if IsExternal(trimmed) then
        match w.parse(trimmed)
        case None => trimmed
        case Some(u) =>
          if !IsLegacyHost(u.hostname) then trimmed
          else if corrected then LegacyRoute(u)
          else LegacyRouteAsWritten(u)
      else if corrected then RelativeRoute(pageDir, trimmed)
      else RelativeRouteAsWritten(pageDir, trimmed)
  }

  /** The links `toLocalRoute` keeps, trimmed: the empty link, fragments,
      `mailto:`, `tel:` and `javascript:` links, absolute URLs that do not
      parse and absolute URLs on other hosts. */
  lemma ToLocalRouteKeeps(w: World, raw: string, pageDir: string, corrected: bool)
    ensures |raw| == 0 ==> ToLocalRoute(w, raw, pageDir, corrected) == raw
    ensures var t := Trim(raw);
      |raw| > 0 && (StartsWith(t, "#") || StartsWith(t, "mailto:") || StartsWith(t, "tel:") || StartsWith(t, "javascript:"))
      ==> ToLocalRoute(w, raw, pageDir, corrected) == t
    ensures var t := Trim(raw);
      |raw| > 0 && IsExternal(t) && (w.parse(t).None? || !IsLegacyHost(w.parse(t).value.hostname))
      ==> ToLocalRoute(w, raw, pageDir, corrected) == t
  {
    var t := Trim(raw);
    if |raw| > 0 && IsExternal(t) {
      ExternalIsNoScheme(t);
    }
  }

  /** An `http:` or `https:` URL is not a fragment, `mailto:`, `tel:` or
      `javascript:` link. */
  lemma ExternalIsNoScheme(t: string)
    requires IsExternal(t)
    ensures !StartsWith(t, "#") && !StartsWith(t, "mailto:") && !StartsWith(t, "tel:") && !StartsWith(t, "javascript:")
  {
    assert LowerChar(t[..4][0]) == 'h';
  }

  /** A link to the site itself becomes a route: it starts with `/` and
      ends with the query and fragment of the URL. Only the corrected route
      is sure not to start with `//`. */
  lemma ToLocalRouteOwnHost(w: World, raw: string, pageDir: string, corrected: bool)
    requires |raw| > 0 && IsExternal(Trim(raw))
    requires w.parse(Trim(raw)).Some? && IsLegacyHost(w.parse(Trim(raw)).value.hostname)
    ensures var r := ToLocalRoute(w, raw, pageDir, corrected);
      var u := w.parse(Trim(raw)).value;
      StartsWith(r, "/") && EndsWith(r, u.search + u.hash)
      && (corrected && WellFormed(u) ==> !StartsWith(r, "//"))
  {
    ExternalIsNoScheme(Trim(raw));
  }

  /** Every link that is neither kept nor absolute becomes the route of its
      path, taken against the page's directory, or, once corrected, against
      the root of the archive when the link starts with `/`. */
  lemma ToLocalRouteRelative(w: World, raw: string, pageDir: string, corrected: bool)
    requires |raw| > 0 && !IsExternal(Trim(raw))
    requires var t := Trim(raw); !(StartsWith(t, "#") || StartsWith(t, "mailto:") || StartsWith(t, "tel:") || StartsWith(t, "javascript:"))
    ensures var t := Trim(raw);
      ToLocalRoute(w, raw, pageDir, corrected) == RouteFrom(if corrected && StartsWith(t, "/") then "" else pageDir, t)
    ensures StartsWith(ToLocalRoute(w, raw, pageDir, corrected), "/")
  {
    RouteFromShape(if corrected && StartsWith(Trim(raw), "/") then "" else pageDir, Trim(raw));
  }

  lemma RouteFromShape(dir: string, t: string)
    ensures StartsWith(RouteFrom(dir, t), "/")
  {
    var (pathPart, hash) := SplitHash(t);
    var (purePath, query) := SplitQuery(pathPart);
    var p := RoutePath(dir, purePath);
    assert (p + query + hash)[..1] == p[..1];
  }

  /** A character the directory and the path both miss, other than `/`, `.`
      and `\\`, is missing from the route too. */
  lemma RoutePathKeepsOut(dir: string, p: string, x: char)
    requires x !in dir && x !in p && x != '/' && x != '.' && x != '\\'
    ensures x !in RoutePath(dir, p)
  {
    LocalizeKeepsOut(dir, p, x);
    CleanRouteKeepsOut(Localize(dir, p), x);
  }

  lemma LocalizeKeepsOut(dir: string, p: string, x: char)
    requires x !in dir && x !in p && x != '/' && x != '.' && x != '\\'
    ensures x !in Localize(dir, p)
  {
    JoinPathsKeepsOut([dir, p], x);
    var j := JoinPaths([dir, p]);
    NormalizeKeepsOut(j, x);
    var n := NormalizeSlashes(Normalize(j));
    assert x !in n;
    var d := DropPrefix(n, "./");
    assert x !in d;
  }

  lemma CleanRouteKeepsOut(n: string, x: char)
    requires x !in n && x != '/'
    ensures x !in CleanRoute(n)
  {
    StripHtmlExtensionSpec(n);
  }

  /** The route keeps the query and the fragment of the link: splitting it
      again gives back the same query and fragment, behind a path that starts
      with `/`. */
  lemma RouteFromSplitsBack(dir: string, t: string)
    requires '#' !in dir && '?' !in dir
    ensures var (p, h) := SplitHash(t);
      var (pp, q) := SplitQuery(p);
      var r := RouteFrom(dir, t);
      && SplitHash(r).1 == h
      && SplitQuery(SplitHash(r).0) == (RoutePath(dir, pp), q)
  {
    var (p, h) := SplitHash(t);
    var (pp, q) := SplitQuery(p);
    SplitAtSpec(t, '#');
    SplitAtSpec(p, '?');
    assert '#' !in pp;
    assert q == "" || '#' !in q by {
      if q != "" {
        assert q == p[|pp|..][..|q|];
      }
    }
    var route := RoutePath(dir, pp);
    RoutePathKeepsOut(dir, pp, '#');
    RoutePathKeepsOut(dir, pp, '?');
    SplitAtConcat(route + q, h, '#');
    SplitAtConcat(route, q, '?');
  }

  /** For a directory and a path without backslashes, the localised path
      never starts with `//`, `/../` or `../`: it cannot leave the archive. */
  lemma LocalizeShape(dir: string, p: string)
    requires '\\' !in dir && '\\' !in p
    ensures var n := Localize(dir, p);
      !StartsWith(n, "//") && !StartsWith(n, "/../") && !StartsWith(n, "../")
  {
    var j := JoinPaths([dir, p]);
    JoinPathsKeepsOut([dir, p], '\\');
    NormalizeKeepsOut(j, '\\');
    NormalizeShape(j);
    NormalizeNoDoubleSlash(j);
    UpsStripped(Normalize(j));
  }

  /** What is left of a normalised path once its leading `./` and `../`
      are removed. */
  lemma UpsStripped(m: string)
    requires '\\' !in m && NoDoubleSlash(m)
    requires !StartsWith(m, "//") && !StartsWith(m, "/../")
    requires StartsWith(m, "./") ==> m == "./"
    ensures var n := StripUps(DropPrefix(NormalizeSlashes(m), "./"));
      !StartsWith(n, "//") && !StartsWith(n, "/../") && !StartsWith(n, "../")
  {
    NormalizeSlashesNoBackslash(m);
    if |m| > 0 && m[0] == '/' {
      AbsoluteKept(m);
    } else {
      var n := StripUps(DropPrefix(m, "./"));
      RelativeNotSlashLed(m);
      NotSlashLed(n);
    }
  }

  lemma AbsoluteKept(m: string)
    requires |m| > 0 && m[0] == '/'
    ensures StripUps(DropPrefix(m, "./")) == m
  {
    assert !StartsWith(m, "./") && !StartsWith(m, "../") by {
      if |m| >= 2 { assert m[..2][0] == '/'; }
      if |m| >= 3 { assert m[..3][0] == '/'; }
    }
  }

  lemma RelativeNotSlashLed(m: string)
    requires |m| == 0 || m[0] != '/'
    requires NoDoubleSlash(m)
    requires StartsWith(m, "./") ==> m == "./"
    ensures var n := StripUps(DropPrefix(m, "./")); |n| == 0 || n[0] != '/'
  {
    var d := DropPrefix(m, "./");
    assert d == m || d == "";
    var n := StripUps(d);
    if |n| > 0 && n[0] == '/' {
      assert false;
    }
  }

  lemma NotSlashLed(n: string)
    requires |n| == 0 || n[0] != '/'
    ensures !StartsWith(n, "//") && !StartsWith(n, "/../")
  {
    if |n| >= 2 {
      assert n[..2][0] == n[0];
    }
    if |n| >= 4 {
      assert n[..4][0] == n[0];
    }
  }

  /** For a directory and a path without backslashes, the route starts with
      one `/` and never with `//` or `/../`: it stays on the site and inside
      it. */
  lemma RoutePathSafe(dir: string, p: string)
    requires '\\' !in dir && '\\' !in p
    ensures var r := RoutePath(dir, p);
      StartsWith(r, "/") && !StartsWith(r, "//") && !StartsWith(r, "/../")
  {
    LocalizeShape(dir, p);
    CleanRouteSafe(Localize(dir, p));
  }

  lemma CleanRouteSafe(n: string)
    requires !StartsWith(n, "//") && !StartsWith(n, "/../") && !StartsWith(n, "../")
    ensures var r := CleanRoute(n); !StartsWith(r, "//") && !StartsWith(r, "/../")
  {
    StrippedSafe(n);
    TidySafe(StripHtmlExtension(n));
  }

  lemma StrippedSafe(n: string)
    requires !StartsWith(n, "//") && !StartsWith(n, "/../") && !StartsWith(n, "../")
    ensures var s := StripHtmlExtension(n);
      !StartsWith(s, "//") && !StartsWith(s, "/../") && !StartsWith(s, "../")
  {
    var s := StripHtmlExtension(n);
    StripHtmlExtensionSpec(n);
    PrefixNotStarting(s, n, "//");
    PrefixNotStarting(s, n, "/../");
    PrefixNotStarting(s, n, "../");
  }

  lemma TidySafe(s: string)
    requires !StartsWith(s, "//") && !StartsWith(s, "/../") && !StartsWith(s, "../")
    ensures var t := DropSuffix(DropPrefix(s, "/"), "/");
      var r := if |t| == 0 then "/" else "/" + t;
      !StartsWith(r, "//") && !StartsWith(r, "/../")
  {
    DropSlashSafe(s);
    var c := DropPrefix(s, "/");
    TrimSlashSafe(c);
    RootedSafe(DropSuffix(c, "/"));
  }

  lemma DropSlashSafe(s: string)
    requires !StartsWith(s, "//") && !StartsWith(s, "/../") && !StartsWith(s, "../")
    ensures var c := DropPrefix(s, "/"); !StartsWith(c, "/") && !StartsWith(c, "../")
  {
    if StartsWith(s, "/") {
      AfterSlashNotStarting(s, "/");
      AfterSlashNotStarting(s, "../");
    }
  }

  lemma TrimSlashSafe(c: string)
    requires !StartsWith(c, "/") && !StartsWith(c, "../")
    ensures var t := DropSuffix(c, "/"); !StartsWith(t, "/") && !StartsWith(t, "../")
  {
    var t := DropSuffix(c, "/");
    assert t <= c;
    PrefixNotStarting(t, c, "/");
    PrefixNotStarting(t, c, "../");
  }

  lemma RootedSafe(t: string)
    requires !StartsWith(t, "/") && !StartsWith(t, "../")
    ensures var r := if |t| == 0 then "/" else "/" + t; !StartsWith(r, "//") && !StartsWith(r, "/../")
  {
    SlashInFront(t, "/");
    SlashInFront(t, "../");
  }

  /** A prefix of a text that does not start with `q` does not either. */
  lemma PrefixNotStarting(s: string, n: string, q: string)
    requires s <= n && !StartsWith(n, q)
    ensures !StartsWith(s, q)
  {
  }

  /** What follows a leading `/` starts with `q` only when the text starts
      with `/` and `q`. */
  lemma AfterSlashNotStarting(s: string, q: string)
    requires StartsWith(s, "/") && !StartsWith(s, "/" + q)
    ensures !StartsWith(s[1..], q)
  {
  }

  /** A `/` in front of a text that does not start with `q` gives a text
      that does not start with `/` and `q`. */
  lemma SlashInFront(t: string, q: string)
    requires !StartsWith(t, q)
    ensures !StartsWith("/" + t, "/" + q)
  {
    var r := "/" + t;
    assert |q| <= |t| ==> r[..1 + |q|][1..] == t[..|q|];
  }

  // A root-relative link on a page below the archive root.

  /** Joining two paths puts one `/` between them when both are there. */
  lemma JoinNonEmptyPair(a: string, b: string)
    ensures |a| > 0 && |b| > 0 ==> JoinNonEmpty([a, b]) == a + "/" + b
    ensures |a| == 0 ==> JoinNonEmpty([a, b]) == b
  {
    assert [a, b][1..] == [b];
    assert [b][1..] == [];
  }

  /** A path without backslashes that does not start with `.` is kept by
      the clean-up after normalising. */
  lemma CleanUpKeeps(n: string)
    requires |n| > 0 && n[0] != '.' && '\\' !in n
    ensures StripUps(DropPrefix(NormalizeSlashes(n), "./")) == n
  {
    NormalizeSlashesNoBackslash(n);
    assert !StartsWith(n, "./") && !StartsWith(n, "../") by {
      if |n| >= 2 { assert n[..2][0] == n[0]; }
      if |n| >= 3 { assert n[..3][0] == n[0]; }
    }
  }

  /** The path `/about` localises to `blog/about` against `blog`, and to
      `/about` against the archive root. */
  lemma LocalizeAbout(dir: string, p: string)
    requires p == "/about" && (dir == "blog" || dir == "")
    ensures Localize(dir, p) == if dir == "" then "/about" else "blog/about"
  {
    if dir == "" {
      LocalizeRootAbout();
    } else {
      LocalizeBlogAbout();
    }
  }

  lemma LocalizeRootAbout()
    ensures Localize("", "/about") == "/about"
  {
    JoinPathsRootAbout();
    NormalizeAbout();
    LocalizeTo("", "/about", "/about");
  }

  lemma LocalizeBlogAbout()
    ensures Localize("blog", "/about") == "blog/about"
  {
    JoinPathsBlogAbout();
    NormalizeBlogAbout();
    BlogAboutPlain();
    LocalizeTo("blog", "/about", "blog/about");
  }

  lemma BlogAboutPlain()
    ensures '\\' !in "blog/about"
  {
    var n := "blog/about";
    assert n == "blog" + "/" + "about";
  }

  /** A path whose normalised join does not start with `.` and has no
      backslash is localised to that join. */
  lemma LocalizeTo(dir: string, p: string, n: string)
    requires Normalize(JoinPaths([dir, p])) == n
    requires |n| > 0 && n[0] != '.' && '\\' !in n
    ensures Localize(dir, p) == n
  {
    CleanUpKeeps(n);
  }

  /** A link without query or fragment is its route path alone. */
  lemma RouteFromPlain(dir: string, t: string)
    requires '#' !in t && '?' !in t
    ensures RouteFrom(dir, t) == RoutePath(dir, t)
  {
    SplitNoSeparator(t, '#');
    assert SplitHash(t) == (t, "");
    SplitNoSeparator(t, '?');
    assert SplitQuery(t) == (t, "");
    assert RouteFrom(dir, t) == RoutePath(dir, t) + "" + "";
  }

  lemma DropLeadingSlash(n: string)
    requires n == "/about" || n == "blog/about"
    ensures DropPrefix(n, "/") == if n == "/about" then "about" else n
  {
    if n == "/about" {
      assert n[..1] == "/" && n[1..] == "about";
    } else {
      assert n[0] == 'b';
    }
  }

  /** The route of a path that ends in `t` is the path behind one `/`. */
  lemma CleanRouteOf(n: string)
    requires |n| > 0 && n[|n| - 1] == 't'
    ensures CleanRoute(n) == "/" + DropPrefix(n, "/")
  {
    NoHtml(n);
    var c := DropPrefix(n, "/");
    assert |c| > 0 && c[|c| - 1] == 't' by {
      if StartsWith(n, "/") {
        assert |n| > 1 by { assert n[0] == '/'; }
        assert c[|c| - 1] == n[|n| - 1];
      }
    }
    assert !EndsWith(c, "/") by { assert c[|c| - 1..][0] == c[|c| - 1]; }
  }

  /** As written, the root-relative link `/about` on a page in `blog/` becomes
      the route `/blog/about`, while on a page at the archive root it becomes
      `/about`: a root-relative link names a different page on every
      directory level. */
  lemma RootRelativeJoinedAsWritten(dir: string, t: string)
    requires t == "/about" && (dir == "blog" || dir == "")
    ensures RelativeRouteAsWritten(dir, t) == if dir == "" then "/about" else "/blog/about"
  {
    if dir == "" {
      RouteRootAbout();
    } else {
      RouteBlogAbout();
    }
  }

  lemma RouteRootAbout()
    ensures RouteFrom("", "/about") == "/about"
  {
    RouteFromRootAbout();
    CleanRouteRootAbout();
  }

  lemma RouteBlogAbout()
    ensures RouteFrom("blog", "/about") == "/blog/about"
  {
    RouteFromBlogAbout();
    CleanRouteBlogAbout();
  }

  lemma RouteFromRootAbout()
    ensures RouteFrom("", "/about") == CleanRoute("/about")
  {
    RouteFromPlain("", "/about");
    LocalizeRootAbout();
  }

  lemma RouteFromBlogAbout()
    ensures RouteFrom("blog", "/about") == CleanRoute("blog/about")
  {
    RouteFromPlain("blog", "/about");
    LocalizeBlogAbout();
  }

  lemma CleanRouteRootAbout()
    ensures CleanRoute("/about") == "/about"
  {
    CleanRouteOf("/about");
    DropLeadingSlash("/about");
  }

  lemma CleanRouteBlogAbout()
    ensures CleanRoute("blog/about") == "/blog/about"
  {
    CleanRouteOf("blog/about");
    DropLeadingSlash("blog/about");
  }

  /** A path that does not end in `l` or `L` has no `.html` to strip. */
  lemma NoHtml(v: string)
    requires |v| > 0 && v[|v| - 1] != 'l' && v[|v| - 1] != 'L'
    ensures StripHtmlExtension(v) == v
  {
    assert !EndsWithCI(v, "/index.html") by {
      if |v| >= 11 { assert v[|v| - 11..][10] == v[|v| - 1]; }
    }
    assert !EndsWithCI(v, ".html") by {
      if |v| >= 5 { assert v[|v| - 5..][4] == v[|v| - 1]; }
    }
  }

  /** A root-relative link is taken against the archive root whatever page
      it is on. */
  lemma RootRelativeIgnoresPageDir(pageDir: string, other: string, trimmed: string)
    requires StartsWith(trimmed, "/")
    ensures RelativeRoute(pageDir, trimmed) == RelativeRoute(other, trimmed) == RelativeRouteAsWritten("", trimmed)
  {
  }

  /** The link `/about` gives the route `/about` on every page. */
  lemma RootRelativeAbout(pageDir: string, t: string)
    requires t == "/about"
    ensures RelativeRoute(pageDir, t) == "/about"
  {
    assert StartsWith(t, "/") by { assert t[..1] == "/"; }
    RootRelativeIgnoresPageDir(pageDir, "", t);
    RouteRootAbout();
  }

  // A link to the site itself whose pathname starts with two slashes.

  /** As written, `https://mihanshop.com//example.org/` becomes
      `//example.org/`, which a browser reads as a link to another host. */
  lemma DoubleSlashAsWritten(u: Url)
    requires u.pathname == "//example.org/" && u.search == "" && u.hash == ""
    ensures LegacyRouteAsWritten(u) == "//example.org/"
  {
    DoubleSlashExample();
    DoubleSlashRoutes(u, "example.org/");
  }

  /** Dropping every leading slash turns the same link into `/example.org/`,
      a route of the site. */
  lemma DoubleSlashRouted(u: Url)
    requires u.pathname == "//example.org/" && u.search == "" && u.hash == ""
    ensures LegacyRoute(u) == "/example.org/"
  {
    DoubleSlashExample();
    DoubleSlashRoutes(u, "example.org/");
  }

  lemma DoubleSlashExample()
    ensures "//example.org/" == "//" + "example.org/"
    ensures "/example.org/" == "/" + "example.org/"
  {
  }

  /** A pathname of two slashes and a text that neither starts with `/` nor
      ends in `.html`: as written the route keeps both slashes; dropping every
      leading slash keeps one. */
  lemma DoubleSlashRoutes(u: Url, e: string)
    requires u.pathname == "//" + e && u.search == "" && u.hash == ""
    requires |e| > 0 && e[0] != '/' && e[|e| - 1] != 'l' && e[|e| - 1] != 'L'
    ensures LegacyRouteAsWritten(u) == "//" + e
    ensures LegacyRoute(u) == "/" + e
  {
    var p := u.pathname;
    NoHtml(p);
    DoubleSlashParts(p, e);
  }

  lemma DoubleSlashParts(p: string, e: string)
    requires p == "//" + e && |e| > 0 && e[0] != '/'
    ensures DropPrefix(p, "/") == "/" + e
    ensures DropSlashes(p) == e
  {
    assert p[1..] == "/" + e;
    assert p[1..][1..] == e;
    assert p[..1] == "/";
    assert DropSlashes(e) == e;
    assert DropSlashes(p[1..]) == e;
  }
}

=== FILE: logo.dfy ===
/** The logo heuristics: when an image, a style URL or an element's class
    looks like the old site's logo, the rehosted page shows the new logo. */
module Logo {
  import opened Text
  import opened Env

  /** The Persian word for "logo". */
  const LogoWordFa: string := "\U{0644}\U{0648}\U{06af}\U{0648}"

  /** The Latin words that mark a logo. */
  const LogoKeywords: seq<string> := ["logo", "brand", "favicon", "site-icon", "site_logo"]

  /** An absent value reads as the empty text. */
  function OrEmpty(v: Option<string>): (r: string)
    ensures v.Some? ==> r == v.value
    ensures v.None? ==> r == ""
  {
    if v.Some? then v.value else ""
  }

  /** `looksLikeLogoText`: the lower-cased text is not empty and holds the
      Persian word or one of the keywords. */
  predicate LooksLikeLogoText(v: Option<string>) {
    var text := Lower(OrEmpty(v));
    |text| > 0 && (Contains(text, LogoWordFa) || exists k :: 0 <= k < |LogoKeywords| && Contains(text, LogoKeywords[k]))
  }

  /** The old and new brand's SVG file names. */
  predicate BrandedSvg(text: string) {
    (Contains(text, "mihanshop-") || Contains(text, "websithebama-") || Contains(text, "websitebama-"))
    && EndsWith(text, ".svg")
  }

  /** `isLogoUrl`. */
  predicate IsLogoUrl(value: Option<string>) {
    var text := Lower(OrEmpty(value));
    LooksLikeLogoText(Some(text)) || BrandedSvg(text)
  }

  /** The class test of `isLogoAsset`. */
  predicate ClassLooksLikeLogo(classText: string) {
    || LooksLikeLogoText(Some(classText))
    || Contains(classText, "header_top-logo")
    || (Contains(classText, "footer") && Contains(classText, "logo"))
  }

  /** `isLogoAsset`: the source, the class, the alternative text or the
      title looks like a logo. */
  predicate IsLogoAsset(src: Option<string>, alt: Option<string>, title: Option<string>, className: Option<string>) {
    var srcText := Lower(OrEmpty(src));
    var altText := Lower(OrEmpty(alt));
    var titleText := Lower(OrEmpty(title));
    var classText := Lower(OrEmpty(className));
    var srcLooksLikeLogo := LooksLikeLogoText(Some(srcText)) || BrandedSvg(srcText);
    var labelLooksLikeLogo := LooksLikeLogoText(Some(altText)) || LooksLikeLogoText(Some(titleText));
    srcLooksLikeLogo || ClassLooksLikeLogo(classText) || labelLooksLikeLogo
  }

  /** The test ignores ASCII case: lower-casing first changes nothing. */
  lemma LooksLikeLogoTextLower(s: string)
    ensures LooksLikeLogoText(Some(Lower(s))) == LooksLikeLogoText(Some(s))
  {
    LowerIdempotent(s);
  }

  /** Nothing, and the empty text, never look like a logo. */
  lemma EmptyIsNoLogo()
    ensures !LooksLikeLogoText(None) && !LooksLikeLogoText(Some(""))
    ensures !IsLogoUrl(None) && !IsLogoAsset(None, None, None, None)
  {
    assert Lower("") == "";
  }

  /** A text that looks like a logo still does inside a longer text. */
  lemma LogoTextWithin(x: string, y: string, z: string)
    requires LooksLikeLogoText(Some(y))
    ensures LooksLikeLogoText(Some(x + y + z))
  {
    var ly := Lower(y);
    LowerAppend(x, y);
    LowerAppend(x + y, z);
    assert Lower(x + y + z) == Lower(x) + ly + Lower(z);
    if Contains(ly, LogoWordFa) {
      ContainsWithin(Lower(x), ly, Lower(z), LogoWordFa);
    } else {
      var k :| 0 <= k < |LogoKeywords| && Contains(ly, LogoKeywords[k]);
      ContainsWithin(Lower(x), ly, Lower(z), LogoKeywords[k]);
    }
  }

  /** The two extra class tests of `isLogoAsset` add nothing: both need
      `logo` in the class, which the keyword test already catches. */
  lemma ClassTestIsKeywordTest(classText: string)
    requires Lower(classText) == classText
    ensures ClassLooksLikeLogo(classText) == LooksLikeLogoText(Some(classText))
  {
    if Contains(classText, "header_top-logo") {
      var i := ContainsWitness(classText, "header_top-logo");
      assert classText[i + 11..i + 15] == "logo";
      ContainsAt(classText, "logo", i + 11);
    }
    if Contains(classText, "logo") {
      assert LogoKeywords[0] == "logo";
      assert |classText| > 0;
    }
  }

  /** On its own, the source test of `isLogoAsset` is `isLogoUrl`. */
  lemma LogoAssetBySource(src: Option<string>)
    ensures IsLogoAsset(src, None, None, None) == IsLogoUrl(src)
  {
    EmptyIsNoLogo();
    assert !Contains("", "header_top-logo") && !Contains("", "footer");
  }

  /** A logo URL marks a logo asset, whatever the other attributes say. */
  lemma LogoUrlIsLogoAsset(src: Option<string>, alt: Option<string>, title: Option<string>, className: Option<string>)
    requires IsLogoUrl(src)
    ensures IsLogoAsset(src, alt, title, className)
  {
  }

  /** The attribute `name` of an element, absent when it has none. */
  function Attr(attrs: map<string, string>, name: string): (r: Option<string>)
    ensures r.Some? <==> name in attrs
    ensures r.Some? ==> r.value == attrs[name]
  {
    if name in attrs then Some(attrs[name]) else None
  }

  /** An element whose class or id looks like a logo. */
  predicate LogoMarked(attrs: map<string, string>) {
    LooksLikeLogoText(Attr(attrs, "class")) || LooksLikeLogoText(Attr(attrs, "id"))
  }

  /** `hasLogoAncestor`: the ancestors, nearest first, are checked one by one
      until one is marked as a logo. */
  method HasLogoAncestor(ancestors: seq<map<string, string>>) returns (b: bool)
    ensures b <==> exists i :: 0 <= i < |ancestors| && LogoMarked(ancestors[i])
  {
    var i := 0;
    while i < |ancestors|
      invariant 0 <= i <= |ancestors|
      invariant forall j :: 0 <= j < i ==> !LogoMarked(ancestors[j])
    {
      if LogoMarked(ancestors[i]) {
        return true;
      }
      i := i + 1;
    }
    return false;
  }
}

=== FILE: logosvgs.dfy ===
/** The logo rewrite of inline SVG: every `svg` in the body whose class,
    id, `aria-label` or title looks like a logo, or that sits below an
    element whose class or id does, is replaced by the new logo image,
    and what was inside it leaves the document. */
module LogoSvgs {
  import opened Env
  import opened Logo
  import opened Dom
  import opened Site
  import Images

  /** `looksLikeLogoText` of the class, id, `aria-label` or title. */
  predicate SvgLooksLikeLogo(m: map<string, string>) {
    || LooksLikeLogoText(Attr(m, "class"))
    || LooksLikeLogoText(Attr(m, "id"))
    || LooksLikeLogoText(Attr(m, "aria-label"))
    || LooksLikeLogoText(Attr(m, "title"))
  }

  /** An `svg` in the body that is replaced. */
  predicate Hit(ns: seq<Node>, body: Option<nat>, k: nat)
    requires k < |ns|
  {
    ns[k].Element? && ns[k].tag == "svg" && InBody(ns, body, k) && (SvgLooksLikeLogo(ns[k].attrs) || LogoAbove(ns, k))
  }

  /** The image that takes the place of a logo. */
  function LogoImg(parent: int): Node {
    Element("img", map["src" := Images.LogoPath, "alt" := SiteName, "loading" := "lazy", "decoding" := "async"], parent)
  }

  /** Node `k` lies inside an `svg` before index `i` that is replaced. */
  predicate Covered(ns: seq<Node>, body: Option<nat>, k: nat, i: nat)
    requires k < |ns|
  {
    exists t :: 0 <= t < |Ancestors(ns, k)| && Ancestors(ns, k)[t] < i && Hit(ns, body, Ancestors(ns, k)[t])
  }

  /** Node `k` once the `svg` elements before index `i` are handled. */
  function PartialAt(ns: seq<Node>, body: Option<nat>, i: nat, k: nat): Node
    requires k < |ns|
  {
    if Covered(ns, body, k, i) then Gone
    else if k < i && Hit(ns, body, k) then LogoImg(ParentOf(ns[k]))
    else ns[k]
  }

  function Partial(ns: seq<Node>, body: Option<nat>, i: nat): (r: seq<Node>)
    ensures |r| == |ns|
    ensures forall k :: 0 <= k < |ns| ==> r[k] == PartialAt(ns, body, i, k)
  {
    seq(|ns|, k requires 0 <= k < |ns| => PartialAt(ns, body, i, k))
  }

  /** The document once every `svg` is handled. */
  function SvgReplaced(ns: seq<Node>, body: Option<nat>): seq<Node> {
    Partial(ns, body, |ns|)
  }

  lemma PartialStart(ns: seq<Node>, body: Option<nat>)
    ensures Partial(ns, body, 0) == ns
  {
  }

  /** No element appears where there was none. */
  lemma NoNewElements(ns: seq<Node>, body: Option<nat>, i: nat)
    ensures forall j :: 0 <= j < |ns| && Partial(ns, body, i)[j].Element? ==> ns[j].Element?
  {
  }

  /** A replaced `svg` before `i` covers what lies below its descendants. */
  lemma CoveredBelow(ns: seq<Node>, body: Option<nat>, i: nat, j: nat, k: nat)
    requires k < |ns| && j in Ancestors(ns, k) && Covered(ns, body, j, i)
    ensures Covered(ns, body, k, i)
  {
    var aj := Ancestors(ns, j);
    var t :| 0 <= t < |aj| && aj[t] < i && Hit(ns, body, aj[t]);
    AncestorsClose(ns, j, k);
    var ak := Ancestors(ns, k);
    assert aj[t] in ak;
    var u :| 0 <= u < |ak| && ak[u] == aj[t];
  }

  /** A node that nothing before `i` covers keeps its ancestors, and they
      are as they were. */
  lemma PartialAncestors(ns: seq<Node>, body: Option<nat>, i: nat, k: nat)
    requires k < |ns| && !Covered(ns, body, k, i)
    ensures Ancestors(Partial(ns, body, i), k) == Ancestors(ns, k)
    ensures forall j :: j in Ancestors(ns, k) ==> Partial(ns, body, i)[j] == ns[j]
  {
    var p := Partial(ns, body, i);
    var anc := Ancestors(ns, k);
    forall j | j in anc ensures p[j] == ns[j] {
      var t :| 0 <= t < |anc| && anc[t] == j;
      if Covered(ns, body, j, i) {
        CoveredBelow(ns, body, i, j, k);
      }
    }
    NoNewElements(ns, body, i);
    AncestorsAlong(ns, p, k);
  }

  /** Handling a covered node, or one that is not replaced, changes
      nothing. */
  lemma StepSame(ns: seq<Node>, body: Option<nat>, i: nat)
    requires i < |ns| && (Covered(ns, body, i, i) || !Hit(ns, body, i))
    ensures Partial(ns, body, i + 1) == Partial(ns, body, i)
  {
    forall k | 0 <= k < |ns| ensures PartialAt(ns, body, i + 1, k) == PartialAt(ns, body, i, k) {
      if Covered(ns, body, k, i + 1) && !Covered(ns, body, k, i) {
        var anc := Ancestors(ns, k);
        var t :| 0 <= t < |anc| && anc[t] < i + 1 && Hit(ns, body, anc[t]);
        assert anc[t] == i;
        CoveredBelow(ns, body, i, i, k);
      }
      if k == i {
        assert Covered(ns, body, i, i + 1) == Covered(ns, body, i, i);
      }
    }
  }

  /** Handling a replaced `svg`: it becomes the logo image and all below it
      is gone. */
  lemma StepHit(ns: seq<Node>, body: Option<nat>, i: nat, k: nat)
    requires i < |ns| && !Covered(ns, body, i, i) && Hit(ns, body, i) && k < |ns|
    ensures PartialAt(ns, body, i + 1, k) ==
      if k == i then LogoImg(ParentOf(ns[i]))
      else if i in Ancestors(ns, k) then Gone
      else PartialAt(ns, body, i, k)
  {
    var anc := Ancestors(ns, k);
    if k == i {
      assert Covered(ns, body, i, i + 1) == Covered(ns, body, i, i);
    } else if i in anc {
      var t :| 0 <= t < |anc| && anc[t] == i;
    } else if Covered(ns, body, k, i + 1) {
      var t :| 0 <= t < |anc| && anc[t] < i + 1 && Hit(ns, body, anc[t]);
      assert anc[t] != i;
    }
  }

  /** What the rewrite of a page keeps in mind while the descendants of a
      replaced `svg` are removed: the page with only the `svg` replaced. */
  lemma StepHitMid(ns: seq<Node>, body: Option<nat>, i: nat, mid: seq<Node>, j: nat)
    requires i < |ns| && !Covered(ns, body, i, i) && Hit(ns, body, i)
    requires mid == Partial(ns, body, i)[i := LogoImg(ParentOf(ns[i]))]
    requires i < j < |ns|
    ensures Partial(ns, body, i + 1)[j] == if i in Ancestors(mid, j) then Gone else mid[j]
  {
    StepHit(ns, body, i, j);
    if !Covered(ns, body, j, i) {
      var p := Partial(ns, body, i);
      PartialAncestors(ns, body, i, j);
      assert p[i] == ns[i];
      AncestorsLinks(p, mid, j);
    }
  }

  /** Before index `i` the page is as it will stay. */
  lemma StepHitBefore(ns: seq<Node>, body: Option<nat>, i: nat, j: nat)
    requires i < |ns| && !Covered(ns, body, i, i) && Hit(ns, body, i) && j < i
    ensures Partial(ns, body, i + 1)[j] == Partial(ns, body, i)[j]
  {
    StepHit(ns, body, i, j);
  }

  /** The replaced `svg` with all below it removed is the page with one
      more `svg` handled. */
  lemma StepHitAll(ns: seq<Node>, body: Option<nat>, i: nat, mid: seq<Node>, after: seq<Node>)
    requires i < |ns| && !Covered(ns, body, i, i) && Hit(ns, body, i)
    requires mid == Partial(ns, body, i)[i := LogoImg(ParentOf(ns[i]))]
    requires |after| == |ns|
    requires forall j :: 0 <= j <= i ==> after[j] == mid[j]
    requires forall j :: i < j < |after| ==> after[j] == if i in Ancestors(mid, j) then Gone else mid[j]
    ensures after == Partial(ns, body, i + 1)
  {
    forall j | 0 <= j < |ns| ensures after[j] == Partial(ns, body, i + 1)[j] {
      if j < i {
        StepHitBefore(ns, body, i, j);
      } else if j > i {
        StepHitMid(ns, body, i, mid, j);
      } else {
        StepHit(ns, body, i, i);
      }
    }
  }

  /** A node that nothing before `i` covers has the place it had. */
  lemma SamePlace(ns: seq<Node>, body: Option<nat>, i: nat, k: nat)
    requires k < |ns| && !Covered(ns, body, k, i)
    ensures InBody(Partial(ns, body, i), body, k) == InBody(ns, body, k)
    ensures LogoAbove(Partial(ns, body, i), k) == LogoAbove(ns, k)
  {
    var p := Partial(ns, body, i);
    PartialAncestors(ns, body, i, k);
    var anc := Ancestors(ns, k);
    forall t | 0 <= t < |anc| ensures p[anc[t]].attrs == ns[anc[t]].attrs {
      assert anc[t] in anc;
    }
  }

  /** An `svg` that nothing covers is judged as it was in the page before
      the rewrite. */
  lemma HitNow(ns: seq<Node>, body: Option<nat>, i: nat)
    requires i < |ns| && !Covered(ns, body, i, i)
    ensures Partial(ns, body, i)[i] == ns[i]
    ensures InBody(Partial(ns, body, i), body, i) == InBody(ns, body, i)
    ensures LogoAbove(Partial(ns, body, i), i) == LogoAbove(ns, i)
  {
    SamePlace(ns, body, i, i);
  }

  /** The test on the page as it stands is the test on the page before
      the rewrite, for a node nothing covers; a covered node is gone. */
  lemma Judge(ns: seq<Node>, body: Option<nat>, i: nat)
    requires i < |ns|
    ensures Hit(Partial(ns, body, i), body, i) <==> !Covered(ns, body, i, i) && Hit(ns, body, i)
    ensures !Covered(ns, body, i, i) ==> Partial(ns, body, i)[i] == ns[i]
  {
    if !Covered(ns, body, i, i) {
      HitNow(ns, body, i);
    }
  }

  /** Nothing outside the body changes. */
  lemma SvgOutsideBodyKept(ns: seq<Node>, body: Option<nat>, k: nat)
    requires k < |ns| && !InBody(ns, body, k)
    ensures SvgReplaced(ns, body)[k] == ns[k]
  {
    if Covered(ns, body, k, |ns|) {
      var anc := Ancestors(ns, k);
      var t :| 0 <= t < |anc| && anc[t] < |ns| && Hit(ns, body, anc[t]);
      AncestorsClose(ns, anc[t], k);
      assert false;
    }
  }

  /** Below a replaced `svg` nothing is left. */
  lemma DescendantsGone(ns: seq<Node>, body: Option<nat>, h: nat, k: nat)
    requires k < |ns| && h in Ancestors(ns, k) && Hit(ns, body, h)
    ensures SvgReplaced(ns, body)[k] == Gone
  {
    var anc := Ancestors(ns, k);
    var t :| 0 <= t < |anc| && anc[t] == h;
  }

  /** After the rewrite no `svg` in the body looks like a logo or sits
      below one. */
  lemma NoLogoSvgLeft(ns: seq<Node>, body: Option<nat>, k: nat)
    requires k < |ns|
    ensures !Hit(SvgReplaced(ns, body), body, k)
  {
    var r := SvgReplaced(ns, body);
    if r[k].Element? && r[k].tag == "svg" {
      assert !Covered(ns, body, k, |ns|);
      SamePlace(ns, body, |ns|, k);
    }
  }

  /** Rewriting the page again changes nothing. */
  lemma SvgReplacedIdempotent(ns: seq<Node>, body: Option<nat>)
    ensures SvgReplaced(SvgReplaced(ns, body), body) == SvgReplaced(ns, body)
  {
    var r := SvgReplaced(ns, body);
    forall k | 0 <= k < |r| ensures !Hit(r, body, k) {
      NoLogoSvgLeft(ns, body, k);
    }
    forall k | 0 <= k < |r| ensures PartialAt(r, body, |r|, k) == r[k] {
      assert !Covered(r, body, k, |r|);
    }
  }
}

=== FILE: pages.dfy ===
/** `getLegacyPage`: the page for the segments of a request, read from its
    legacy file and rewritten, or a "not found" page; each page is worked
    out once and then served from the cache. */
module Pages {
  import opened Patterns
  import opened Env
  import opened Routes
  import opened Site
  import opened Brand
  import opened Dom
  import opened Passes
  import opened Transform

  /** What the route handler renders. */
  datatype LegacyPage = LegacyPage(html: string, title: string, description: string, routeKey: string)

  const NotFoundHtml: string := "<div>We could not find the page you requested.</div>"

  /** The page for `segments`, reading files with `read`. */
  function PageFor(mk: Markup, w: World, read: string -> string, segments: Option<seq<string>>): (p: LegacyPage)
    ensures Resolution(w, segments).None? ==> p == LegacyPage(NotFoundHtml, SiteName, "", "not-found")
    ensures Resolution(w, segments).Some? ==> p.routeKey == Resolution(w, segments).value.routeKey
  {
    match Resolution(w, segments)
    case None => LegacyPage(NotFoundHtml, SiteName, "", "not-found")
    case Some(f) =>
      var r := TransformSpec(mk, w, read(f.filePath), f.pageDir, f.siteKey, ToolsFor(w, f.pageDir, f.siteKey, false));
      LegacyPage(r.html, r.title, r.description, f.routeKey)
  }

  /** Every page has a title, and neither title nor description names an
      old brand. */
  lemma PageClean(mk: Markup, w: World, read: string -> string, segments: Option<seq<string>>)
    ensures var p := PageFor(mk, w, read, segments);
      p.title != "" && NoMatch(LatinName, p.title) && NoMatch(PersianName, p.title)
      && NoMatch(LatinName, p.description) && NoMatch(PersianName, p.description)
  {
    match Resolution(w, segments)
    case None =>
      SiteNameClean();
    case Some(f) =>
      ToolsForBrand(w, f.pageDir, f.siteKey, false);
      RenderedClean(mk, w, read(f.filePath), f.pageDir, f.siteKey, ToolsFor(w, f.pageDir, f.siteKey, false), false);
  }

  /** `getLegacyPage` without its cache: the segments resolved to a legacy
      file, its text read and rewritten for its folder and site. */
  method GetLegacyPage(mk: Markup, w: World, read: string -> string, segments: Option<seq<string>>) returns (p: LegacyPage)
    ensures p == PageFor(mk, w, read, segments)
  {
    var legacyFile := ResolveLegacyFile(w, segments);
    if legacyFile.None? {
      p := LegacyPage(NotFoundHtml, SiteName, "", "not-found");
    } else {
      var f := legacyFile.value;
      var rawHtml := read(f.filePath);
      var r := TransformLegacyHtml(mk, w, rawHtml, f.pageDir, f.siteKey);
      p := LegacyPage(r.html, r.title, r.description, f.routeKey);
    }
  }

  /** React's `cache` around a page function `load`: a page is worked out
      on its first request and served from the memo afterwards. */
  class PageCache {
    const load: Option<seq<string>> -> LegacyPage
    var memo: map<Option<seq<string>>, LegacyPage>

    /** Every page held is the one `load` gives. */
    ghost predicate Valid()
      reads this
    {
      forall s :: s in memo ==> memo[s] == load(s)
    }

    constructor (load: Option<seq<string>> -> LegacyPage)
      ensures this.load == load && memo == map[] && Valid()
    {
      this.load := load;
      memo := map[];
    }

    /** The page for `segments`, from the memo when it is there. */
    method Get(segments: Option<seq<string>>) returns (p: LegacyPage)
      requires Valid()
      modifies this
      ensures Valid() && p == load(segments)
      ensures memo == old(memo)[segments := p]
    {
      if segments in memo {
        p := memo[segments];
      } else {
        p := load(segments);
        memo := memo[segments := p];
      }
    }
  }

  /** Served from a cache around `PageFor`, a page is the one worked out
      afresh, whatever was asked before. */
  method CachedPage(mk: Markup, w: World, read: string -> string, segments: Option<seq<string>>, cache: PageCache) returns (p: LegacyPage)
    requires cache.Valid() && cache.load == (s => PageFor(mk, w, read, s))
    modifies cache
    ensures cache.Valid() && p == PageFor(mk, w, read, segments)
  {
    p := cache.Get(segments);
  }
}

=== FILE: passes.dfy ===
/** What each `.each` loop of the page rewrite does to one node: the
    passes over `img`, `source`, `[style]`, `style`, `a` and `form` inside
    the body, the brand rewrite of text and labels (`updateTextNodes`) and
    the colour rewrite of SVG paint attributes (`updateColorAttributes`). */
module Passes {
  import opened Text
  import opened Patterns
  import opened Env
  import opened Routes
  import opened Logo
  import opened Srcset
  import opened Dom
  import opened Images
  import opened Theme
  import opened Background
  import opened StyleUrls
  import opened Links
  import opened Brand

  /** The rewrites a page applies to one value, each already given the
      directory and the site of the page: the image fix (given whether an
      ancestor looks like a logo), `srcset` of a picture source, a style,
      an anchor's `href`, a form's `action`, the brand rewrite of text and
      the theme colours of paint. */
  datatype Tools = Tools(
    image: (map<string, string>, bool) -> map<string, string>,
    srcset: string -> string,
    style: string -> string,
    href: string -> string,
    action: string -> string,
    brand: string -> string,
    paint: string -> string)

  /** The page being rewritten: the outside world, the directory of the
      page, its site, its body element, chosen once before the passes, and
      its rewrites. */
  datatype Page = Page(w: World, pageDir: string, key: SiteKey, body: Option<nat>, fx: Tools)

  /** The rewrite of a style: theme colours, then the white background
      (as written, or `corrected`), then its URLs when it has any. The
      `includes('url(')` test changes nothing: the style is the URL rewrite
      of its recoloured text. */
  function StyleRewrite(w: World, pageDir: string, key: SiteKey, v: string, corrected: bool): (r: string)
    ensures var c := ApplyThemeColors(v);
      r == FixStyleUrls(w, if corrected then ApplyBackgroundTokens(c) else ApplyBackgroundTokensAsWritten(c), pageDir, key)
  {
    var c := ApplyThemeColors(v);
    var t := if corrected then ApplyBackgroundTokens(c) else ApplyBackgroundTokensAsWritten(c);
    if Contains(t, "url(") then FixStyleUrls(w, t, pageDir, key)
    else
      NoTokenKeeps(w, t, pageDir, key);
      t
  }

  /** An anchor's target: a link to the brand's own sites made relative,
      then routed to the local page. It is the renamed link, trimmed or
      not, or a route starting with `/`. */
  function AnchorHref(w: World, pageDir: string, v: string, corrected: bool): (r: string)
    ensures var u := RewriteExternalBrandUrl(w, v); r == u || r == Trim(u) || StartsWith(r, "/")
  {
    ToLocalRoute(w, RewriteExternalBrandUrl(w, v), pageDir, corrected)
  }

  /** The rewrites of `transformLegacyHtml` for a page in `pageDir` of
      site `key`, one by one; `corrected` picks the corrected brand,
      background and route rewrites over the ones as written. */
  function ImageTool(w: World, pageDir: string, key: SiteKey): (map<string, string>, bool) -> map<string, string> {
    (m, b) => FixImage(w, m, b, pageDir, key)
  }

  function SrcsetTool(w: World, pageDir: string, key: SiteKey): string -> string {
    v => FixSrcset(w, v, pageDir, key)
  }

  function StyleTool(w: World, pageDir: string, key: SiteKey, corrected: bool): string -> string {
    v => StyleRewrite(w, pageDir, key, v, corrected)
  }

  function HrefTool(w: World, pageDir: string, corrected: bool): string -> string {
    v => AnchorHref(w, pageDir, v, corrected)
  }

  function ActionTool(w: World, pageDir: string, corrected: bool): string -> string {
    v => ToLocalRoute(w, v, pageDir, corrected)
  }

  /** The rewrites of the source with `corrected` false; the same rewrites
      with the corrected brand, background and route rewrites with
      `corrected` true. */
  function ToolsFor(w: World, pageDir: string, key: SiteKey, corrected: bool): (r: Tools)
    ensures KeepsFrame(r)
  {
    Tools(ImageTool(w, pageDir, key), SrcsetTool(w, pageDir, key), StyleTool(w, pageDir, key, corrected),
      HrefTool(w, pageDir, corrected), ActionTool(w, pageDir, corrected), SiteNameRewrite(corrected), ApplyThemeColors)
  }

  lemma ToolsForBrand(w: World, pageDir: string, key: SiteKey, corrected: bool)
    ensures ToolsFor(w, pageDir, key, corrected).brand == SiteNameRewrite(corrected)
  {
  }

  /** The elements `updateColorAttributes` is given: the SVG definitions
      at the top of the document (`html > svg`), or the body. */
  datatype Scope = Defs | BodyScope

  datatype Pass =
    | ImagePass
    | SourcePass
    | StyleAttrPass
    | StyleSheetPass
    | AnchorPass
    | FormPass
    | TextPass
    | ColourPass(scope: Scope)

  /** What a pass needs to know about where a node sits. */
  datatype Place = Place(inBody: bool, isBody: bool, inDefs: bool, logoAbove: bool, inBodyStyle: bool)

  /** An SVG element whose parent is the `html` element. */
  predicate DefsRoot(ns: seq<Node>, i: nat)
    requires i < |ns|
  {
    var p := ParentOf(ns[i]);
    ns[i].Element? && ns[i].tag == "svg" && 0 <= p < i && ns[p].Element? && ns[p].tag == "html"
  }

  /** A definitions root or a node below one. */
  predicate InDefs(ns: seq<Node>, i: nat)
    requires i < |ns|
  {
    DefsRoot(ns, i) || exists t :: 0 <= t < |Ancestors(ns, i)| && DefsRoot(ns, Ancestors(ns, i)[t])
  }

  /** A node whose parent is a `style` element inside the body. */
  predicate InBodyStyle(ns: seq<Node>, body: Option<nat>, i: nat)
    requires i < |ns|
  {
    var p := ParentOf(ns[i]);
    0 <= p < i && BodyTag(ns, body, p, "style")
  }

  function PlaceOf(ns: seq<Node>, body: Option<nat>, i: nat): Place
    requires i < |ns|
  {
    Place(InBody(ns, body, i), body == Some(i), InDefs(ns, i), LogoAbove(ns, i), InBodyStyle(ns, body, i))
  }

  lemma DefsRootFrame(a: seq<Node>, b: seq<Node>, i: nat)
    requires SameFrame(a, b) && i < |a|
    ensures DefsRoot(a, i) == DefsRoot(b, i)
  {
    assert SameShape(a[i], b[i]);
    var p := ParentOf(a[i]);
    if 0 <= p < |a| {
      assert SameShape(a[p], b[p]);
    }
  }

  lemma InDefsFrame(a: seq<Node>, b: seq<Node>, i: nat)
    requires SameFrame(a, b) && i < |a|
    ensures InDefs(a, i) == InDefs(b, i)
  {
    AncestorsFrame(a, b, i);
    DefsRootFrame(a, b, i);
    var anc := Ancestors(a, i);
    forall t | 0 <= t < |anc| ensures DefsRoot(a, anc[t]) == DefsRoot(b, anc[t]) {
      DefsRootFrame(a, b, anc[t]);
    }
  }

  lemma InBodyStyleFrame(a: seq<Node>, b: seq<Node>, body: Option<nat>, i: nat)
    requires SameFrame(a, b) && i < |a|
    ensures InBodyStyle(a, body, i) == InBodyStyle(b, body, i)
  {
    assert SameShape(a[i], b[i]);
    var p := ParentOf(a[i]);
    if 0 <= p < i {
      assert SameShape(a[p], b[p]);
      PlaceFrame(a, b, body, p);
    }
  }

  /** Where a node sits depends only on the frame of the document. */
  lemma PlaceOfFrame(a: seq<Node>, b: seq<Node>, body: Option<nat>, i: nat)
    requires SameFrame(a, b) && i < |a|
    ensures PlaceOf(a, body, i) == PlaceOf(b, body, i)
  {
    PlaceFrame(a, b, body, i);
    InDefsFrame(a, b, i);
    InBodyStyleFrame(a, b, body, i);
  }

  /** `updateTextNodes` reads these attributes. */
  const LabelNames: seq<string> := ["title", "alt", "aria-label", "placeholder", "content"]

  /** `updateColorAttributes` reads these attributes. */
  const PaintNames: seq<string> := ["fill", "stroke", "stop-color"]

  /** Each of `names` that is filled and accepted by `cond`, in turn,
      rewritten by `f`. */
  function Retouch(m: map<string, string>, names: seq<string>, f: string -> string, cond: string -> bool): (r: map<string, string>)
    ensures r.Keys == m.Keys
    ensures forall k :: k in m && k !in names ==> r[k] == m[k]
    decreases |names|
  {
    if |names| == 0 then m
    else
      var m1 := if Filled(m, names[0]).Some? && cond(m[names[0]]) then m[names[0] := f(m[names[0]])] else m;
      Retouch(m1, names[1..], f, cond)
  }

  /** With distinct names, each is rewritten from its own value only. */
  lemma {:induction false} RetouchAt(m: map<string, string>, names: seq<string>, f: string -> string, cond: string -> bool, j: nat)
    requires j < |names| && forall a, b :: 0 <= a < b < |names| ==> names[a] != names[b]
    ensures var n := names[j];
      Attr(Retouch(m, names, f, cond), n) == if Filled(m, n).Some? && cond(m[n]) then Some(f(m[n])) else Attr(m, n)
    decreases |names|
  {
    var m1 := if Filled(m, names[0]).Some? && cond(m[names[0]]) then m[names[0] := f(m[names[0]])] else m;
    if j > 0 {
      RetouchAt(m1, names[1..], f, cond, j - 1);
      assert names[1..][j - 1] == names[j];
    } else {
      assert names[0] !in names[1..];
    }
  }

  /** `r` has the class and id of `m`. */
  predicate ClassIdKept(m: map<string, string>, r: map<string, string>) {
    Attr(r, "class") == Attr(m, "class") && Attr(r, "id") == Attr(m, "id")
  }

  /** The brand rewrite `f` on each label that is filled. */
  function Labels(m: map<string, string>, f: string -> string): (r: map<string, string>)
    ensures ClassIdKept(m, r)
  {
    LabelNamesDistinct();
    Retouch(m, LabelNames, f, v => true)
  }

  /** The colour rewrite `f` on each paint attribute that is filled and
      holds a `#`. */
  function Paint(m: map<string, string>, f: string -> string): (r: map<string, string>)
    ensures ClassIdKept(m, r)
  {
    PaintNamesDistinct();
    Retouch(m, PaintNames, f, v => Contains(v, "#"))
  }

  /** The attribute `name`, when filled, rewritten by `f`. */
  function Rewrite(m: map<string, string>, name: string, f: string -> string): (r: map<string, string>)
    ensures r.Keys == m.Keys
    ensures Filled(m, name).Some? ==> r[name] == f(m[name])
    ensures forall k :: k in m && k != name ==> r[k] == m[k]
    ensures name != "class" && name != "id" ==> ClassIdKept(m, r)
  {
    if Filled(m, name).Some? then m[name := f(m[name])] else m
  }

  /** The image rewrite keeps the class and id of every image. */
  ghost predicate KeepsFrame(fx: Tools) {
    forall m, b :: ClassIdKept(m, fx.image(m, b))
  }

  /** The image pass on an element. */
  function ImageAttrs(pg: Page, tag: string, m: map<string, string>, place: Place): (r: map<string, string>)
    ensures KeepsFrame(pg.fx) ==> ClassIdKept(m, r)
  {
    if tag == "img" && place.inBody then pg.fx.image(m, place.logoAbove) else m
  }

  /** The `source` pass on an element. */
  function SourceAttrs(pg: Page, tag: string, m: map<string, string>, place: Place): (r: map<string, string>)
    ensures ClassIdKept(m, r)
  {
    if tag == "source" && place.inBody then Rewrite(m, "srcset", pg.fx.srcset) else m
  }

  /** The `[style]` pass on an element. */
  function StyleAttrs(pg: Page, m: map<string, string>, place: Place): (r: map<string, string>)
    ensures ClassIdKept(m, r)
  {
    if place.inBody then Rewrite(m, "style", pg.fx.style) else m
  }

  /** The anchor pass on an element. */
  function AnchorAttrs(pg: Page, tag: string, m: map<string, string>, place: Place): (r: map<string, string>)
    ensures ClassIdKept(m, r)
  {
    if tag == "a" && place.inBody then Rewrite(m, "href", pg.fx.href) else m
  }

  /** The form pass on an element. */
  function FormAttrs(pg: Page, tag: string, m: map<string, string>, place: Place): (r: map<string, string>)
    ensures ClassIdKept(m, r)
  {
    if tag == "form" && place.inBody then Rewrite(m, "action", pg.fx.action) else m
  }

  /** What a pass makes of the attributes of an element with tag `tag`. */
  function AttrsFor(pass: Pass, pg: Page, tag: string, m: map<string, string>, place: Place): (r: map<string, string>)
    ensures KeepsFrame(pg.fx) ==> ClassIdKept(m, r)
  {
    match pass
    case ImagePass => ImageAttrs(pg, tag, m, place)
    case SourcePass => SourceAttrs(pg, tag, m, place)
    case StyleAttrPass => StyleAttrs(pg, m, place)
    case AnchorPass => AnchorAttrs(pg, tag, m, place)
    case FormPass => FormAttrs(pg, tag, m, place)
    case TextPass => Labels(m, pg.fx.brand)
    case ColourPass(Defs) => if place.inDefs then Paint(m, pg.fx.paint) else m
    case ColourPass(BodyScope) => if place.isBody || place.inBody then Paint(m, pg.fx.paint) else m
    case StyleSheetPass => m
  }

  /** What a pass makes of a text node. The content of a `style` element is
      its one text node. */
  function TextFor(pass: Pass, pg: Page, data: string, place: Place): string {
    match pass
    case StyleSheetPass => if place.inBodyStyle && data != "" then pg.fx.style(data) else data
    case TextPass => pg.fx.brand(data)
    case _ => data
  }

  function NodeRewrite(pass: Pass, pg: Page, ns: seq<Node>, i: nat): Node
    requires i < |ns|
  {
    match ns[i]
    case Element(tag, attrs, parent) => Element(tag, AttrsFor(pass, pg, tag, attrs, PlaceOf(ns, pg.body, i)), parent)
    case Text(data, parent) => Text(TextFor(pass, pg, data, PlaceOf(ns, pg.body, i)), parent)
    case Gone => Gone
  }

  /** A pass over the whole document, each node rewritten as the document
      stood before the pass. */
  function Rewritten(pass: Pass, pg: Page, ns: seq<Node>): (r: seq<Node>)
    ensures |r| == |ns|
    ensures forall k :: 0 <= k < |ns| ==> r[k] == NodeRewrite(pass, pg, ns, k)
  {
    seq(|ns|, k requires 0 <= k < |ns| => NodeRewrite(pass, pg, ns, k))
  }

  lemma LabelNamesDistinct()
    ensures forall a, b :: 0 <= a < b < |LabelNames| ==> LabelNames[a] != LabelNames[b]
    ensures "class" !in LabelNames && "id" !in LabelNames
  {
  }

  lemma PaintNamesDistinct()
    ensures forall a, b :: 0 <= a < b < |PaintNames| ==> PaintNames[a] != PaintNames[b]
    ensures "class" !in PaintNames && "id" !in PaintNames
  {
  }

  /** The rewrites of `transformLegacyHtml` keep the class and id of
      every image. */
  lemma ImageToolKeepsFrame(pg: Page)
    requires pg.fx.image == ImageTool(pg.w, pg.pageDir, pg.key)
    ensures KeepsFrame(pg.fx)
  {
    forall m, b ensures ClassIdKept(m, pg.fx.image(m, b)) {
      var r := FixImage(pg.w, m, b, pg.pageDir, pg.key);
    }
  }

  /** No pass changes the shape of a node. */
  lemma NodeRewriteShape(pass: Pass, pg: Page, ns: seq<Node>, i: nat)
    requires i < |ns| && KeepsFrame(pg.fx)
    ensures SameShape(ns[i], NodeRewrite(pass, pg, ns, i))
  {
  }

  /** A pass rewrites a node the same way in any document of the same
      frame. */
  lemma NodeRewriteFrame(pass: Pass, pg: Page, a: seq<Node>, b: seq<Node>, i: nat)
    requires SameFrame(a, b) && i < |a| && a[i] == b[i]
    ensures NodeRewrite(pass, pg, a, i) == NodeRewrite(pass, pg, b, i)
  {
    PlaceOfFrame(a, b, pg.body, i);
  }

  /** A pass keeps the frame of the document. */
  lemma RewrittenFrame(pass: Pass, pg: Page, ns: seq<Node>)
    requires KeepsFrame(pg.fx)
    ensures SameFrame(ns, Rewritten(pass, pg, ns))
  {
    forall k | 0 <= k < |ns| ensures SameShape(ns[k], Rewritten(pass, pg, ns)[k]) {
      NodeRewriteShape(pass, pg, ns, k);
    }
  }

  /** A text in which `url(` never occurs is left alone by the URL rewrite. */
  lemma NoTokenKeeps(w: World, t: string, pageDir: string, key: SiteKey)
    requires !Contains(t, "url(")
    ensures FixStyleUrls(w, t, pageDir, key) == t
  {
    forall i | 0 <= i <= |t| ensures !StartsWith(t[i..], "url(") {
      if StartsWith(t[i..], "url(") {
        assert t[i..i + 4] == t[i..][..4];
        ContainsAt(t, "url(", i);
      }
    }
    NoTokenNoUrl(t);
    NoUrlKeeps(w, t, pageDir, key);
  }

  /** The passes that start from `body.find(...)`. */
  predicate BodyPass(pass: Pass) {
    pass.ImagePass? || pass.SourcePass? || pass.StyleAttrPass? || pass.StyleSheetPass? || pass.AnchorPass? || pass.FormPass?
  }

  /** The text of a `style` inside the body lies inside the body. */
  lemma StyleTextInBody(ns: seq<Node>, body: Option<nat>, k: nat)
    requires k < |ns| && InBodyStyle(ns, body, k)
    ensures InBody(ns, body, k)
  {
    var p := ParentOf(ns[k]);
    assert Ancestors(ns, k) == Up(ns, p);
    assert p in Ancestors(ns, k);
    AncestorsClose(ns, p, k);
  }

  /** The passes over the body leave every node outside it alone, the body
      element included. */
  lemma OutsideBodyKept(pass: Pass, pg: Page, ns: seq<Node>, k: nat)
    requires BodyPass(pass) && k < |ns| && !InBody(ns, pg.body, k)
    ensures NodeRewrite(pass, pg, ns, k) == ns[k]
  {
    if ns[k].Text? && InBodyStyle(ns, pg.body, k) {
      StyleTextInBody(ns, pg.body, k);
    }
  }

  /** The colour pass over the definitions leaves every node outside them
      alone. */
  lemma OutsideDefsKept(pg: Page, ns: seq<Node>, k: nat)
    requires k < |ns| && !InDefs(ns, k)
    ensures NodeRewrite(ColourPass(Defs), pg, ns, k) == ns[k]
  {
  }

  /** After the brand pass no text node names the old brand, in Latin or
      in Persian letters. */
  lemma TextPassClean(pg: Page, ns: seq<Node>, k: nat, corrected: bool)
    requires pg.fx.brand == SiteNameRewrite(corrected) && k < |ns| && ns[k].Text?
    ensures Rewritten(TextPass, pg, ns)[k].Text?
    ensures NoMatch(LatinName, Rewritten(TextPass, pg, ns)[k].data)
    ensures NoMatch(PersianName, Rewritten(TextPass, pg, ns)[k].data)
  {
    assert Rewritten(TextPass, pg, ns)[k].data == SiteNameRewrite(corrected)(ns[k].data);
    NoOldNames(corrected, ns[k].data);
  }

  /** Each label is rewritten from its own value. */
  lemma LabelsAt(m: map<string, string>, f: string -> string, j: nat)
    requires j < |LabelNames|
    ensures var n := LabelNames[j];
      Attr(Labels(m, f), n) == if Filled(m, n).Some? then Some(f(m[n])) else Attr(m, n)
  {
    LabelNamesDistinct();
    RetouchAt(m, LabelNames, f, v => true, j);
  }

  /** After the brand pass no label names the old brand. */
  lemma LabelsClean(m: map<string, string>, j: nat, corrected: bool)
    requires j < |LabelNames| && LabelNames[j] in m
    ensures var f := SiteNameRewrite(corrected);
      LabelNames[j] in Labels(m, f)
      && NoMatch(LatinName, Labels(m, f)[LabelNames[j]])
      && NoMatch(PersianName, Labels(m, f)[LabelNames[j]])
  {
    var n := LabelNames[j];
    LabelsAt(m, SiteNameRewrite(corrected), j);
    NoOldNames(corrected, m[n]);
  }

  /** A paint attribute is recoloured only when it holds a `#`. */
  lemma PaintAt(m: map<string, string>, f: string -> string, j: nat)
    requires j < |PaintNames|
    ensures var n := PaintNames[j];
      Attr(Paint(m, f), n) == if Filled(m, n).Some? && Contains(m[n], "#") then Some(f(m[n])) else Attr(m, n)
  {
    PaintNamesDistinct();
    RetouchAt(m, PaintNames, f, v => Contains(v, "#"), j);
  }

  /** A recoloured paint attribute keeps none of the old colours. */
  lemma PaintClean(m: map<string, string>, j: nat)
    requires j < |PaintNames|
    requires Filled(m, PaintNames[j]).Some? && Contains(m[PaintNames[j]], "#")
    ensures PaintNames[j] in Paint(m, ApplyThemeColors)
    ensures forall i :: 0 <= i < |ThemeRules| ==> NoMatch(ThemeRules[i].pat, Paint(m, ApplyThemeColors)[PaintNames[j]])
  {
    PaintAt(m, ApplyThemeColors, j);
  }

  /** A link in the body points where `toLocalRoute` sends its
      brand-renamed target; every other attribute stays. */
  lemma AnchorPassHref(pg: Page, ns: seq<Node>, k: nat, corrected: bool)
    requires pg.fx.href == HrefTool(pg.w, pg.pageDir, corrected)
    requires k < |ns| && ns[k].Element? && ns[k].tag == "a" && InBody(ns, pg.body, k)
    ensures var r := Rewritten(AnchorPass, pg, ns)[k];
      var m := ns[k].attrs;
      && r.Element? && r.attrs.Keys == m.Keys
      && (Filled(m, "href").Some? ==> r.attrs["href"] == ToLocalRoute(pg.w, RewriteExternalBrandUrl(pg.w, m["href"]), pg.pageDir, corrected))
      && forall a :: a in m && a != "href" ==> r.attrs[a] == m[a]
  {
  }

  /** An image in the body below an element whose class or id looks like a
      logo shows the new logo. */
  lemma ImageBelowLogo(pg: Page, ns: seq<Node>, k: nat)
    requires pg.fx.image == ImageTool(pg.w, pg.pageDir, pg.key)
    requires k < |ns| && ns[k].Element? && ns[k].tag == "img" && InBody(ns, pg.body, k) && LogoAbove(ns, k)
    ensures Rewritten(ImagePass, pg, ns)[k].Element?
    ensures Attr(Rewritten(ImagePass, pg, ns)[k].attrs, "src") == Some(LogoPath)
  {
    FixImageLogo(pg.w, ns[k].attrs, true, pg.pageDir, pg.key);
  }

  /** The brand pass on an element is the label rewrite. */
  lemma TextPassAttrs(pg: Page, tag: string, m: map<string, string>, place: Place)
    ensures AttrsFor(TextPass, pg, tag, m, place) == Labels(m, pg.fx.brand)
  {
  }

  /** After the brand pass no label of an element names the old brand. */
  lemma TextPassLabel(pg: Page, ns: seq<Node>, k: nat, j: nat, corrected: bool)
    requires pg.fx.brand == SiteNameRewrite(corrected)
    requires k < |ns| && ns[k].Element? && j < |LabelNames| && LabelNames[j] in ns[k].attrs
    ensures var r := Rewritten(TextPass, pg, ns)[k];
      r.Element? && LabelNames[j] in r.attrs
      && NoMatch(LatinName, r.attrs[LabelNames[j]]) && NoMatch(PersianName, r.attrs[LabelNames[j]])
  {
    var n := ns[k];
    var place := PlaceOf(ns, pg.body, k);
    assert Rewritten(TextPass, pg, ns)[k] == NodeRewrite(TextPass, pg, ns, k);
    assert NodeRewrite(TextPass, pg, ns, k) == Element(n.tag, AttrsFor(TextPass, pg, n.tag, n.attrs, place), n.parent);
    TextPassAttrs(pg, n.tag, n.attrs, place);
    LabelsClean(n.attrs, j, corrected);
  }

  /** The colour pass leaves every label as it is. */
  lemma ColourPassKeepsLabel(scope: Scope, pg: Page, ns: seq<Node>, k: nat, j: nat)
    requires k < |ns| && ns[k].Element? && j < |LabelNames| && LabelNames[j] in ns[k].attrs
    ensures Rewritten(ColourPass(scope), pg, ns)[k].Element?
    ensures LabelNames[j] in Rewritten(ColourPass(scope), pg, ns)[k].attrs
    ensures Rewritten(ColourPass(scope), pg, ns)[k].attrs[LabelNames[j]] == ns[k].attrs[LabelNames[j]]
  {
    assert LabelNames[j] !in PaintNames;
  }
}

=== FILE: pathexamples.dfy ===
/** Worked examples of the path functions, on a path below `blog` and on a
    root-relative path. */
module PathExamples {
  import opened Text
  import opened Posix

  lemma SplitDoubleSlash()
    ensures Split("blog//about", '/') == ["blog", "", "about"]
  {
    SplitLeadingSlash();
    SplitAround("blog", "/about", '/');
    assert "blog" + "/" + "/about" == "blog//about";
  }

  lemma SplitLeadingSlash()
    ensures Split("/about", '/') == ["", "about"]
  {
    SplitNoSeparator("about", '/');
    SplitAround("", "about", '/');
    assert "" + "/" + "about" == "/about";
  }

  lemma SplitSingleSlash()
    ensures Split("blog/about", '/') == ["blog", "about"]
  {
    SplitNoSeparator("about", '/');
    SplitAround("blog", "about", '/');
    assert "blog" + "/" + "about" == "blog/about";
  }

  lemma ResolveBlogAbout()
    ensures Resolve(["blog", "", "about"], true) == ["blog", "about"]
    ensures Resolve(["blog", "about"], true) == ["blog", "about"]
  {
    var parts := ["blog", "", "about"];
    assert parts[..2] == ["blog", ""] && parts[..2][..1] == ["blog"];
    assert Resolve(["blog"], true) == ["blog"];
    assert Resolve(["blog", ""], true) == ["blog"];
    assert ["blog", "about"][..1] == ["blog"];
  }

  lemma JoinBlogAbout()
    ensures Join(["blog", "about"], "/") == "blog/about"
  {
    assert ["blog", "about"][1..] == ["about"];
    assert Join(["blog", "about"], "/") == "blog" + "/" + "about";
  }

  /** Normalising with a body that joins back to `b`, for a relative path
      without a trailing slash. */
  lemma NormalizeRelativeTo(p: string)
    requires |p| > 0 && p[0] != '/' && p[|p| - 1] != '/'
    requires |Join(Resolve(Split(p, '/'), true), "/")| > 0
    ensures Normalize(p) == Join(Resolve(Split(p, '/'), true), "/")
  {
  }

  lemma NormalizeBlogAbout()
    ensures Normalize("blog//about") == "blog/about"
    ensures Normalize("blog/about") == "blog/about"
  {
    SplitDoubleSlash();
    SplitSingleSlash();
    ResolveBlogAbout();
    JoinBlogAbout();
    NormalizeRelativeTo("blog//about");
    NormalizeRelativeTo("blog/about");
  }

  lemma NormalizeAbout()
    ensures Normalize("/about") == "/about"
  {
    SplitLeadingSlash();
    var r := ["", "about"];
    assert r[..1] == [""];
    assert Resolve([""], false) == [];
    assert Resolve(r, false) == ["about"];
    assert Join(["about"], "/") == "about";
  }

  lemma JoinPathsBlogAbout()
    ensures JoinPaths(["blog", "/about"]) == "blog/about"
  {
    assert ["blog", "/about"][1..] == ["/about"];
    assert ["/about"][1..] == [];
    assert JoinNonEmpty(["blog", "/about"]) == "blog" + "/" + "/about" == "blog//about";
    NormalizeBlogAbout();
  }

  lemma JoinPathsRootAbout()
    ensures JoinPaths(["", "/about"]) == "/about"
  {
    assert ["", "/about"][1..] == ["/about"];
    assert ["/about"][1..] == [];
    assert JoinNonEmpty(["", "/about"]) == "/about";
    NormalizeAbout();
  }
}

=== FILE: patterns.dfy ===
/** The global search-and-replace of the brand and colour tables: the
    JavaScript `string.replace(/re/g, text)` and `split(lit).join(text)` idioms,
    for the two kinds of regular expression those tables use. */
module Patterns {
  import opened Text

  /** A literal (case-sensitive, or ignoring ASCII case like a regular
      expression with the `i` flag), or `head\s*tail`: a literal, any run of
      white space, another literal. For patterns of ASCII letters, the `i` flag
      without `u` folds exactly the ASCII letters, so `ci` is the flag itself. */
  datatype Pattern =
    | Literal(text: string, ci: bool)
    | Spaced(head: string, tail: string, ci: bool)
  {
    /** The literal a match starts with. */
    function Head(): string {
      if Literal? then text else head
    }

    /** Matches are never empty, and the tail of a spaced pattern cannot be
        eaten by the white-space run in front of it. */
    predicate Wf() {
      match this
      case Literal(t, _) => |t| > 0
      case Spaced(h, t, _) => |h| > 0 && |t| > 0 && !IsSpace(t[0])
    }
  }

  /** `s` starts with `p`, comparing characters with `CharEq(ci, _, _)`. */
  predicate PrefixMatch(ci: bool, p: string, s: string)
    ensures PrefixMatch(ci, p, s) ==> |p| <= |s|
    decreases |p|
  {
    |p| == 0 || (|s| > 0 && CharEq(ci, s[0], p[0]) && PrefixMatch(ci, p[1..], s[1..]))
  }

  lemma {:induction false} PrefixMatchSpec(ci: bool, p: string, s: string)
    ensures PrefixMatch(ci, p, s) <==> |p| <= |s| && forall k :: 0 <= k < |p| ==> CharEq(ci, s[k], p[k])
    decreases |p|
  {
    if |p| > 0 && |s| > 0 {
      PrefixMatchSpec(ci, p[1..], s[1..]);
      if CharEq(ci, s[0], p[0]) && |p| <= |s| && forall k :: 0 <= k < |p| - 1 ==> CharEq(ci, s[1..][k], p[1..][k]) {
        forall k | 0 <= k < |p| ensures CharEq(ci, s[k], p[k]) {
          if k > 0 { assert s[1..][k - 1] == s[k] && p[1..][k - 1] == p[k]; }
        }
      }
      if |p| <= |s| && forall k :: 0 <= k < |p| ==> CharEq(ci, s[k], p[k]) {
        forall k | 0 <= k < |p| - 1 ensures CharEq(ci, s[1..][k], p[1..][k]) {
          assert s[1..][k] == s[k + 1] && p[1..][k] == p[k + 1];
        }
      }
    }
  }

  /** The length of the white-space run `s` starts with (`\s*` is greedy). */
  function SpaceRun(s: string): (n: nat)
    ensures n <= |s|
    ensures n < |s| ==> !IsSpace(s[n])
  {
    if |s| > 0 && IsSpace(s[0]) then 1 + SpaceRun(s[1..]) else 0
  }

  /** Everything the run covers is white space. */
  lemma {:induction false} SpaceRunSpaces(s: string)
    ensures forall k :: 0 <= k < SpaceRun(s) ==> IsSpace(s[k])
  {
    if |s| > 0 && IsSpace(s[0]) {
      SpaceRunSpaces(s[1..]);
      forall k | 0 < k < SpaceRun(s) ensures IsSpace(s[k]) {
        assert s[k] == s[1..][k - 1];
      }
    }
  }

  /** A run of white space followed by something else is the whole run. */
  lemma {:induction false} RunUnique(t: string, k: nat)
    requires k < |t| && AllSpace(t[..k]) && !IsSpace(t[k])
    ensures SpaceRun(t) == k
  {
    if k > 0 {
      assert t[..k][0] == t[0];
      assert t[1..][..k - 1] == t[..k][1..];
      RunUnique(t[1..], k - 1);
    }
  }

  /** The length of the match of `p` at the start of `s`, 0 when there is none.
      The regular expression engine's backtracking never changes the outcome
      here: the run of white space is followed by a non-space character. */
  function MatchLen(p: Pattern, s: string): (n: nat)
    ensures n <= |s|
  {
    match p
    case Literal(t, ci) =>
      if PrefixMatch(ci, t, s) then |t| else 0
    case Spaced(h, t, ci) => SpacedLen(h, t, ci, s)
  }

  /** The length of the match of `h\s*t` at the start of `s`, 0 when there
      is none. */
  function SpacedLen(h: string, t: string, ci: bool, s: string): (n: nat)
    ensures n <= |s|
  {
    if PrefixMatch(ci, h, s) then
      var w := SpaceRun(s[|h|..]);
      if PrefixMatch(ci, t, s[|h| + w..]) then |h| + w + |t| else 0
    else 0
  }

  /** Leftmost, non-overlapping replacement of every match by `r`. */
  function ReplaceAll(s: string, p: Pattern, r: string): string
    decreases |s|
  {
    if |s| == 0 then ""
    else
      var n := MatchLen(p, s);
      if n > 0 then r + ReplaceAll(s[n..], p, r)
      else [s[0]] + ReplaceAll(s[1..], p, r)
  }

  /** `p` matches nowhere in `s`. */
  ghost predicate NoMatch(p: Pattern, s: string) {
    forall i :: 0 <= i < |s| ==> MatchLen(p, s[i..]) == 0
  }

  /** A match only looks at the characters it covers. */
  lemma MatchLocal(p: Pattern, s: string, t: string)
    requires p.Wf() && MatchLen(p, s) > 0
    requires MatchLen(p, s) <= |t| && t[..MatchLen(p, s)] == s[..MatchLen(p, s)]
    ensures MatchLen(p, t) == MatchLen(p, s)
  {
    if p.Literal? {
      MatchLocalLiteral(p, s, t);
    } else {
      MatchLocalSpaced(p, s, t);
    }
  }

  lemma MatchLocalLiteral(p: Pattern, s: string, t: string)
    requires p.Literal? && MatchLen(p, s) > 0
    requires MatchLen(p, s) <= |t| && t[..MatchLen(p, s)] == s[..MatchLen(p, s)]
    ensures MatchLen(p, t) == MatchLen(p, s)
  {
    var n := MatchLen(p, s);
    AgreeOfTake(s, t, n);
    PrefixMatchAt(p.ci, p.text, s);
    MatchAtAgree(p.ci, p.text, s, t, 0, n);
    PrefixMatchAt(p.ci, p.text, t);
  }

  /** `p` occurs in `s` at index `i`, comparing with `CharEq(ci, _, _)`. */
  predicate MatchAt(ci: bool, p: string, s: string, i: nat) {
    i + |p| <= |s| && forall k :: 0 <= k < |p| ==> CharEq(ci, s[i + k], p[k])
  }

  /** A run of exactly `w` white-space characters starts at index `i` of `s`. */
  predicate RunAt(s: string, i: nat, w: nat) {
    && i + w <= |s|
    && (forall k :: i <= k < i + w ==> IsSpace(s[k]))
    && (i + w < |s| ==> !IsSpace(s[i + w]))
  }

  /** `s` and `t` agree on their first `n` characters. */
  predicate Agree(s: string, t: string, n: nat) {
    n <= |s| && n <= |t| && forall k :: 0 <= k < n ==> s[k] == t[k]
  }

  lemma AgreeOfTake(s: string, t: string, n: nat)
    requires n <= |s| && n <= |t| && t[..n] == s[..n]
    ensures Agree(s, t, n)
  {
    forall k | 0 <= k < n ensures s[k] == t[k] {
      assert s[k] == s[..n][k];
      assert t[k] == t[..n][k];
    }
  }

  lemma PrefixMatchAt(ci: bool, p: string, s: string)
    ensures PrefixMatch(ci, p, s) <==> MatchAt(ci, p, s, 0)
  {
    PrefixMatchSpec(ci, p, s);
  }

  lemma MatchAtSpec(ci: bool, p: string, s: string, i: nat)
    requires i <= |s|
    ensures PrefixMatch(ci, p, s[i..]) <==> MatchAt(ci, p, s, i)
  {
    var u := s[i..];
    PrefixMatchSpec(ci, p, u);
    if i + |p| <= |s| {
      forall k | 0 <= k < |p| ensures u[k] == s[i + k] {
      }
    }
  }

  lemma RunAtSpec(s: string, i: nat, w: nat)
    requires i <= |s|
    ensures RunAt(s, i, w) <==> SpaceRun(s[i..]) == w
  {
    var u := s[i..];
    var v := SpaceRun(u);
    SpaceRunSpaces(u);
    if v == w {
      forall k | i <= k < i + w ensures IsSpace(s[k]) {
        assert s[k] == u[k - i];
      }
      if i + w < |s| {
        assert u[w] == s[i + w];
      }
    }
  }

  /** A match at `i` inside the agreeing part carries over. */
  lemma MatchAtAgree(ci: bool, p: string, s: string, t: string, i: nat, n: nat)
    requires MatchAt(ci, p, s, i) && i + |p| <= n && Agree(s, t, n)
    ensures MatchAt(ci, p, t, i)
  {
    forall k | 0 <= k < |p| ensures CharEq(ci, t[i + k], p[k]) {
      assert t[i + k] == s[i + k];
    }
  }

  /** A white-space run that stops inside the agreeing part is the same run. */
  lemma RunAtAgree(s: string, t: string, i: nat, w: nat, n: nat)
    requires RunAt(s, i, w) && i + w < n && Agree(s, t, n)
    ensures RunAt(t, i, w)
  {
    forall k | i <= k < i + w ensures IsSpace(t[k]) {
      assert t[k] == s[k];
    }
    assert t[i + w] == s[i + w];
  }

  /** The three parts of a match of a spaced pattern: the head at the start,
      a run of `w` white-space characters, and the tail. */
  lemma SpacedParts(p: Pattern, s: string) returns (w: nat)
    requires p.Spaced? && MatchLen(p, s) > 0
    ensures MatchAt(p.ci, p.head, s, 0) && RunAt(s, |p.head|, w) && MatchAt(p.ci, p.tail, s, |p.head| + w)
    ensures MatchLen(p, s) == |p.head| + w + |p.tail|
  {
    var h, x, ci := p.head, p.tail, p.ci;
    assert MatchLen(p, s) == SpacedLen(h, x, ci, s);
    PrefixMatchAt(ci, h, s);
    w := SpaceRun(s[|h|..]);
    RunAtSpec(s, |h|, w);
    MatchAtSpec(ci, x, s, |h| + w);
  }

  lemma SpacedIntro(p: Pattern, t: string, w: nat)
    requires p.Spaced?
    requires MatchAt(p.ci, p.head, t, 0) && RunAt(t, |p.head|, w) && MatchAt(p.ci, p.tail, t, |p.head| + w)
    ensures MatchLen(p, t) == |p.head| + w + |p.tail|
  {
    var h, x, ci := p.head, p.tail, p.ci;
    PrefixMatchAt(ci, h, t);
    RunAtSpec(t, |h|, w);
    MatchAtSpec(ci, x, t, |h| + w);
    SpacedLenIs(h, x, ci, t, w);
    assert MatchLen(p, t) == SpacedLen(h, x, ci, t);
  }

  lemma SpacedLenIs(h: string, tl: string, ci: bool, t: string, w: nat)
    requires PrefixMatch(ci, h, t) && |h| <= |t|
    requires w == SpaceRun(t[|h|..])
    requires PrefixMatch(ci, tl, t[|h| + w..])
    ensures SpacedLen(h, tl, ci, t) == |h| + w + |tl|
  {
  }

  lemma MatchLocalSpaced(p: Pattern, s: string, t: string)
    requires p.Spaced? && p.Wf() && MatchLen(p, s) > 0
    requires MatchLen(p, s) <= |t| && t[..MatchLen(p, s)] == s[..MatchLen(p, s)]
    ensures MatchLen(p, t) == MatchLen(p, s)
  {
    var n := MatchLen(p, s);
    var w := SpacedParts(p, s);
    AgreeOfTake(s, t, n);
    MatchAtAgree(p.ci, p.head, s, t, 0, n);
    RunAtAgree(s, t, |p.head|, w, n);
    MatchAtAgree(p.ci, p.tail, s, t, |p.head| + w, n);
    SpacedIntro(p, t, w);
  }

  /** `z` is not equal, under the pattern's comparison, to any character of
      `s` from index `i` on. Stated index by index, so that the verifier can
      evaluate it on the literals of the tables. */
  predicate AbsentFrom(ci: bool, z: char, s: string, i: nat)
    decreases |s| - i
  {
    i >= |s| || (!CharEq(ci, z, s[i]) && AbsentFrom(ci, z, s, i + 1))
  }

  lemma {:induction false} AbsentSpec(ci: bool, z: char, s: string, i: nat, k: nat)
    requires AbsentFrom(ci, z, s, i) && i <= k < |s|
    ensures !CharEq(ci, z, s[k])
    decreases k - i
  {
    if i < k { AbsentSpec(ci, z, s, i + 1, k); }
  }

  /** A character that cannot occur inside a match after its first character. */
  predicate Foreign(p: Pattern, z: char) {
    match p
    case Literal(t, ci) => AbsentFrom(ci, z, t, 1)
    case Spaced(h, t, ci) => !IsSpace(z) && AbsentFrom(ci, z, h, 1) && AbsentFrom(ci, z, t, 0)
  }

  lemma CharEqSymmetric(ci: bool, a: char, b: char)
    ensures CharEq(ci, a, b) == CharEq(ci, b, a)
  {
  }

  /** A foreign character is never among the characters a match covers after
      its first one. */
  lemma ForeignShields(p: Pattern, z: char, w: string)
    requires p.Wf() && Foreign(p, z) && MatchLen(p, w) > 0
    ensures z !in w[1..MatchLen(p, w)]
  {
    if p.Literal? {
      PrefixMatchAt(p.ci, p.text, w);
      AtShields(p.ci, z, p.text, 1, w, 0);
      assert MatchLen(p, w) == |p.text|;
      NotInSlice(w, z, 1, |p.text|);
    } else {
      ForeignShieldsSpaced(p, z, w);
    }
  }

  lemma ForeignShieldsSpaced(p: Pattern, z: char, w: string)
    requires p.Spaced? && p.Wf() && Foreign(p, z) && MatchLen(p, w) > 0
    ensures z !in w[1..MatchLen(p, w)]
  {
    var n := MatchLen(p, w);
    var h, t := p.head, p.tail;
    var sp := SpacedParts(p, w);
    AtShields(p.ci, z, h, 1, w, 0);
    AtShields(p.ci, z, t, 0, w, |h| + sp);
    forall k | 1 <= k < n ensures w[k] != z {
    }
    NotInSlice(w, z, 1, n);
  }

  /** Where `t` occurs in `s` at index `i`, a character `t` lacks from index
      `j` on is not in `s` at those positions. */
  lemma AtShields(ci: bool, z: char, t: string, j: nat, s: string, i: nat)
    requires MatchAt(ci, t, s, i) && AbsentFrom(ci, z, t, j)
    ensures forall k :: i + j <= k < i + |t| ==> s[k] != z
  {
    forall k | i + j <= k < i + |t| ensures s[k] != z {
      AbsentSpec(ci, z, t, j, k - i);
      assert CharEq(ci, s[i + (k - i)], t[k - i]);
    }
  }

  lemma NotInSlice(s: string, z: char, lo: nat, hi: nat)
    requires lo <= hi <= |s| && forall k :: lo <= k < hi ==> s[k] != z
    ensures z !in s[lo..hi]
  {
    forall j | 0 <= j < hi - lo ensures s[lo..hi][j] != z {
      assert s[lo..hi][j] == s[lo + j];
    }
  }

  /** From index `k` of `h` on, `h` agrees with `r` read from index `i`, on
      every position both have. */
  predicate CompatAt(ci: bool, h: string, r: string, i: nat, k: nat)
    decreases |h| - k
  {
    k >= |h| || i + k >= |r| || (CharEq(ci, r[i + k], h[k]) && CompatAt(ci, h, r, i, k + 1))
  }

  /** No suffix of `r` from index `i` on is compatible with `h`: whatever
      follows `r`, no match of a pattern with head `h` can start there. */
  predicate NoStartFrom(ci: bool, h: string, r: string, i: nat)
    decreases |r| - i
  {
    i >= |r| || (!CompatAt(ci, h, r, i, 0) && NoStartFrom(ci, h, r, i + 1))
  }

  lemma {:induction false} CompatOfMatch(ci: bool, h: string, r: string, t: string, i: nat, k: nat)
    requires i < |r| && k <= |h| && PrefixMatch(ci, h, (r + t)[i..])
    ensures CompatAt(ci, h, r, i, k)
    decreases |h| - k
  {
    if k < |h| && i + k < |r| {
      PrefixMatchSpec(ci, h, (r + t)[i..]);
      assert (r + t)[i..][k] == r[i + k];
      CompatOfMatch(ci, h, r, t, i, k + 1);
    }
  }

  lemma {:induction false} NoStartInSpec(p: Pattern, r: string, t: string, j: nat, i: nat)
    requires NoStartFrom(p.ci, p.Head(), r, j) && j <= i < |r|
    ensures MatchLen(p, (r + t)[i..]) == 0
    decreases i - j
  {
    if j == i {
      if PrefixMatch(p.ci, p.Head(), (r + t)[i..]) {
        CompatOfMatch(p.ci, p.Head(), r, t, i, 0);
      }
    } else {
      NoStartInSpec(p, r, t, j + 1, i);
    }
  }

  /** A replacement `r` that can neither host the start of a match of `p` nor
      be straddled by one. */
  predicate Inert(p: Pattern, r: string) {
    |r| > 0 && Foreign(p, r[0]) && NoStartFrom(p.ci, p.Head(), r, 0)
  }

  lemma {:induction false} NoMatchSuffix(p: Pattern, s: string, n: nat)
    requires NoMatch(p, s) && n <= |s|
    ensures NoMatch(p, s[n..])
  {
    forall i | 0 <= i < |s[n..]| ensures MatchLen(p, s[n..][i..]) == 0 {
      assert s[n..][i..] == s[n + i..];
    }
  }

  lemma HeadInPrefix(x: string, k: nat)
    requires 0 < k <= |x|
    ensures x[0] in x[..k]
  {
    assert x[..k][0] == x[0];
  }

  /** Up to the first character of an inserted replacement, the output of a
      replacement pass is its input. */
  lemma {:induction false} UnchangedBeforeReplacement(s: string, q: Pattern, r: string, k: nat)
    requires |r| > 0 && k <= |ReplaceAll(s, q, r)| && r[0] !in ReplaceAll(s, q, r)[..k]
    ensures k <= |s| && ReplaceAll(s, q, r)[..k] == s[..k]
    decreases |s|
  {
    var out := ReplaceAll(s, q, r);
    if |s| > 0 && k > 0 {
      var n := MatchLen(q, s);
      if n > 0 {
        HeadInPrefix(out, k);
        assert false;
      } else {
        var rest := ReplaceAll(s[1..], q, r);
        assert out == [s[0]] + rest;
        assert rest[..k - 1] == out[..k][1..];
        UnchangedBeforeReplacement(s[1..], q, r, k - 1);
        assert out[..k] == [s[0]] + rest[..k - 1];
        assert s[..k] == [s[0]] + s[1..][..k - 1];
      }
    }
  }

  /** Replacing the matches of `q` by an inert `r` leaves no match of `p`: when
      `q` is `p` itself every match is removed, and otherwise none is created. */
  lemma {:induction false} ReplaceAllNoMatch(s: string, q: Pattern, r: string, p: Pattern)
    requires p.Wf() && Inert(p, r)
    requires q == p || NoMatch(p, s)
    ensures NoMatch(p, ReplaceAll(s, q, r))
    decreases |s|
  {
    if |s| == 0 {
      return;
    }
    var n := MatchLen(q, s);
    if n > 0 {
      if q != p { NoMatchSuffix(p, s, n); }
      ReplaceAllNoMatch(s[n..], q, r, p);
      InsertedNoMatch(p, r, ReplaceAll(s[n..], q, r));
    } else {
      if q != p { NoMatchSuffix(p, s, 1); }
      ReplaceAllNoMatch(s[1..], q, r, p);
      KeptNoMatch(s, q, r, p);
    }
  }

  lemma InsertedNoMatch(p: Pattern, r: string, rest: string)
    requires Inert(p, r) && NoMatch(p, rest)
    ensures NoMatch(p, r + rest)
  {
    var out := r + rest;
    forall i | 0 <= i < |out| ensures MatchLen(p, out[i..]) == 0 {
      if i < |r| {
        NoStartInSpec(p, r, rest, 0, i);
      } else {
        assert out[i..] == rest[i - |r|..];
      }
    }
  }

  lemma KeptNoMatch(s: string, q: Pattern, r: string, p: Pattern)
    requires p.Wf() && Inert(p, r) && |s| > 0 && MatchLen(q, s) == 0
    requires q == p || NoMatch(p, s)
    requires NoMatch(p, ReplaceAll(s[1..], q, r))
    ensures NoMatch(p, [s[0]] + ReplaceAll(s[1..], q, r))
  {
    var rest := ReplaceAll(s[1..], q, r);
    var out := [s[0]] + rest;
    forall i | 0 <= i < |out| ensures MatchLen(p, out[i..]) == 0 {
      if i > 0 {
        assert out[i..] == rest[i - 1..];
      } else {
        assert out[0..] == out;
        NoMatchAtFront(s, q, r, p);
      }
    }
  }

  lemma NoMatchAtFront(s: string, q: Pattern, r: string, p: Pattern)
    requires p.Wf() && Inert(p, r) && |s| > 0 && MatchLen(q, s) == 0
    requires q == p || NoMatch(p, s)
    ensures MatchLen(p, [s[0]] + ReplaceAll(s[1..], q, r)) == 0
  {
    if q != p {
      NoMatchHead(p, s);
    }
    var m := MatchLen(p, [s[0]] + ReplaceAll(s[1..], q, r));
    if m > 0 {
      SameFront(s, q, r, p);
      assert false;
    }
  }

  lemma NoMatchHead(p: Pattern, s: string)
    requires NoMatch(p, s) && |s| > 0
    ensures MatchLen(p, s) == 0
  {
    assert s[0..] == s;
  }

  lemma SameFront(s: string, q: Pattern, r: string, p: Pattern)
    requires p.Wf() && Inert(p, r) && |s| > 0
    requires MatchLen(p, [s[0]] + ReplaceAll(s[1..], q, r)) > 0
    ensures MatchLen(p, s) > 0
  {
    var rest := ReplaceAll(s[1..], q, r);
    var m := ShieldedFront(p, r[0], s[0], rest);
    UnchangedBeforeReplacement(s[1..], q, r, m - 1);
    FrontAgain(p, s, rest, m);
  }

  /** A match at the start of `[c] + rest` covers no foreign `z` in `rest`. */
  lemma ShieldedFront(p: Pattern, z: char, c: char, rest: string) returns (m: nat)
    requires p.Wf() && Foreign(p, z) && MatchLen(p, [c] + rest) > 0
    ensures m == MatchLen(p, [c] + rest) && 0 < m <= |rest| + 1 && z !in rest[..m - 1]
  {
    var out := [c] + rest;
    m := MatchLen(p, out);
    ForeignShields(p, z, out);
    assert out[1..m] == rest[..m - 1];
  }

  /** A match at the start of `[s[0]] + rest` is one at the start of `s` when
      `rest` agrees with the rest of `s` as far as the match reaches. */
  lemma FrontAgain(p: Pattern, s: string, rest: string, m: nat)
    requires p.Wf() && |s| > 0 && m == MatchLen(p, [s[0]] + rest) > 0
    requires m - 1 <= |rest| && m - 1 <= |s[1..]| && rest[..m - 1] == s[1..][..m - 1]
    ensures MatchLen(p, s) > 0
  {
    ConsPrefix(s[0], rest, s[1..], m - 1);
    assert [s[0]] + s[1..] == s;
    MatchLocal(p, [s[0]] + rest, s);
  }

  /** Two sequences that agree on their first `j` elements still do with the
      same element in front. */
  lemma ConsPrefix<T>(c: T, x: seq<T>, y: seq<T>, j: nat)
    requires j <= |x| && j <= |y| && x[..j] == y[..j]
    ensures ([c] + x)[..j + 1] == ([c] + y)[..j + 1]
  {
    assert ([c] + x)[..j + 1] == [c] + x[..j];
    assert ([c] + y)[..j + 1] == [c] + y[..j];
  }

  /** `h` occurs in `s` at index `i`, from index `k` of `h` on. */
  predicate HeadAt(ci: bool, h: string, s: string, i: nat, k: nat)
    decreases |h| - k
  {
    k >= |h| || (i + k < |s| && CharEq(ci, s[i + k], h[k]) && HeadAt(ci, h, s, i, k + 1))
  }

  /** `h` occurs nowhere in `s` from index `i` on. Stated index by index, so
      that the verifier can evaluate it on literals. */
  predicate NoHeadFrom(ci: bool, h: string, s: string, i: nat)
    decreases |s| - i
  {
    i >= |s| || (!HeadAt(ci, h, s, i, 0) && NoHeadFrom(ci, h, s, i + 1))
  }

  lemma {:induction false} HeadAtOfMatch(ci: bool, h: string, s: string, i: nat, k: nat)
    requires i <= |s| && k <= |h| && PrefixMatch(ci, h, s[i..])
    ensures HeadAt(ci, h, s, i, k)
    decreases |h| - k
  {
    if k < |h| {
      PrefixMatchSpec(ci, h, s[i..]);
      assert s[i..][k] == s[i + k];
      HeadAtOfMatch(ci, h, s, i, k + 1);
    }
  }

  /** A pattern whose first literal occurs nowhere in `s` does not match in `s`. */
  lemma {:induction false} NoHeadNoMatch(p: Pattern, s: string, j: nat)
    requires NoHeadFrom(p.ci, p.Head(), s, j)
    ensures forall i :: j <= i < |s| ==> MatchLen(p, s[i..]) == 0
    decreases |s| - j
  {
    if j < |s| {
      NoHeadNoMatch(p, s, j + 1);
      if PrefixMatch(p.ci, p.Head(), s[j..]) {
        HeadAtOfMatch(p.ci, p.Head(), s, j, 0);
      }
    }
  }

  lemma NoHeadNoMatchAll(p: Pattern, s: string)
    requires NoHeadFrom(p.ci, p.Head(), s, 0)
    ensures NoMatch(p, s)
  {
    NoHeadNoMatch(p, s, 0);
  }

  /** One replacement rule of a table: every match of `pat` becomes `repl`. */
  datatype Rule = Rule(pat: Pattern, repl: string)

  /** The rules applied one after the other, each to the whole text. */
  function ApplyRules(s: string, rules: seq<Rule>): string
    decreases |rules|
  {
    if |rules| == 0 then s else ApplyRules(ReplaceAll(s, rules[0].pat, rules[0].repl), rules[1..])
  }

  /** A table applied around its rule `i`: the rules before it, rule `i`,
      then the rules after it. */
  lemma ApplyRulesAround(s: string, rules: seq<Rule>, i: nat)
    requires i < |rules|
    ensures ApplyRules(s, rules)
      == ApplyRules(ReplaceAll(ApplyRules(s, rules[..i]), rules[i].pat, rules[i].repl), rules[i + 1..])
  {
    var before, after := rules[..i], rules[i + 1..];
    assert rules == before + [rules[i]] + after;
    ApplyRulesSplit(s, before + [rules[i]], after);
    ApplyRulesSplit(s, before, [rules[i]]);
    assert [rules[i]][1..] == [];
  }

  /** Where a pattern does not occur, replacing it changes nothing. */
  lemma {:induction false} ReplaceAllIdentity(s: string, p: Pattern, r: string)
    requires NoMatch(p, s)
    ensures ReplaceAll(s, p, r) == s
    decreases |s|
  {
    if |s| > 0 {
      assert s[0..] == s;
      NoMatchSuffix(p, s, 1);
      ReplaceAllIdentity(s[1..], p, r);
      assert [s[0]] + s[1..] == s;
    }
  }

  /** Replacing a literal by a text of the same length keeps the length. */
  lemma {:induction false} ReplaceAllLength(s: string, p: Pattern, r: string)
    requires p.Literal? && |p.text| == |r|
    ensures |ReplaceAll(s, p, r)| == |s|
    decreases |s|
  {
    if |s| > 0 {
      var n := MatchLen(p, s);
      if n > 0 {
        ReplaceAllLength(s[n..], p, r);
      } else {
        ReplaceAllLength(s[1..], p, r);
      }
    }
  }

  /** Applying two tables in a row is applying their concatenation. */
  lemma {:induction false} ApplyRulesSplit(s: string, a: seq<Rule>, b: seq<Rule>)
    ensures ApplyRules(s, a + b) == ApplyRules(ApplyRules(s, a), b)
    decreases |a|
  {
    if |a| > 0 {
      assert (a + b)[0] == a[0];
      assert (a + b)[1..] == a[1..] + b;
      ApplyRulesSplit(ReplaceAll(s, a[0].pat, a[0].repl), a[1..], b);
    } else {
      assert a + b == b;
    }
  }

  /** A table none of whose patterns occurs leaves the text as it is. */
  lemma {:induction false} ApplyRulesIdentity(s: string, rules: seq<Rule>)
    requires forall i :: 0 <= i < |rules| ==> NoMatch(rules[i].pat, s)
    ensures ApplyRules(s, rules) == s
    decreases |rules|
  {
    if |rules| > 0 {
      ReplaceAllIdentity(s, rules[0].pat, rules[0].repl);
      ApplyRulesIdentity(s, rules[1..]);
    }
  }

  /** A table whose replacements are all inert for `p` never creates a match
      of `p`. */
  lemma {:induction false} ApplyRulesKeep(s: string, rules: seq<Rule>, p: Pattern)
    requires p.Wf() && NoMatch(p, s)
    requires forall i :: 0 <= i < |rules| ==> Inert(p, rules[i].repl)
    ensures NoMatch(p, ApplyRules(s, rules))
    decreases |rules|
  {
    if |rules| > 0 {
      ReplaceAllNoMatch(s, rules[0].pat, rules[0].repl, p);
      ApplyRulesKeep(ReplaceAll(s, rules[0].pat, rules[0].repl), rules[1..], p);
    }
  }

  /** A table that starts by replacing `p`, and whose replacements are all
      inert for `p`, leaves no match of `p`. */
  lemma ApplyRulesClear(s: string, rules: seq<Rule>, p: Pattern)
    requires p.Wf() && |rules| > 0 && rules[0].pat == p
    requires forall i :: 0 <= i < |rules| ==> Inert(p, rules[i].repl)
    ensures NoMatch(p, ApplyRules(s, rules))
  {
    ReplaceAllNoMatch(s, p, rules[0].repl, p);
    ApplyRulesKeep(ReplaceAll(s, p, rules[0].repl), rules[1..], p);
  }

  /** A literal that contains a literal occurring nowhere occurs nowhere. */
  lemma NoMatchWithin(ci: bool, small: string, big: string, o: nat, s: string)
    requires |small| > 0 && o + |small| <= |big| && big[o..o + |small|] == small
    requires NoMatch(Literal(small, ci), s)
    ensures NoMatch(Literal(big, ci), s)
  {
    forall i | 0 <= i < |s| ensures MatchLen(Literal(big, ci), s[i..]) == 0 {
      if PrefixMatch(ci, big, s[i..]) {
        MatchAtSpec(ci, big, s, i);
        forall k | 0 <= k < |small| ensures CharEq(ci, s[i + o + k], small[k]) {
          assert small[k] == big[o + k];
          assert CharEq(ci, s[i + (o + k)], big[o + k]);
        }
        assert MatchAt(ci, small, s, i + o);
        MatchAtSpec(ci, small, s, i + o);
        assert false;
      }
    }
  }

  /** The same, for a literal written around the one that occurs nowhere. */
  lemma NoMatchAround(ci: bool, pre: string, small: string, post: string, s: string)
    requires |small| > 0 && NoMatch(Literal(small, ci), s)
    ensures NoMatch(Literal(pre + small + post, ci), s)
  {
    var big := pre + small + post;
    assert big[|pre|..|pre| + |small|] == small;
    NoMatchWithin(ci, small, big, |pre|, s);
  }

  lemma NoMatchBefore(ci: bool, small: string, post: string, s: string)
    requires |small| > 0 && NoMatch(Literal(small, ci), s)
    ensures NoMatch(Literal(small + post, ci), s)
  {
    var big := small + post;
    assert big[0..|small|] == small;
    NoMatchWithin(ci, small, big, 0, s);
  }

  /** A text starts with itself, whatever follows it. */
  lemma {:induction false} PrefixMatchSelf(ci: bool, p: string, t: string)
    ensures PrefixMatch(ci, p, p + t)
    decreases |p|
  {
    if |p| > 0 {
      assert (p + t)[1..] == p[1..] + t;
      PrefixMatchSelf(ci, p[1..], t);
    }
  }

  /** A text shorter than a pattern's first literal holds no match of it. */
  lemma NoMatchShort(p: Pattern, s: string)
    requires |s| < |p.Head()|
    ensures NoMatch(p, s)
  {
    forall i | 0 <= i < |s| ensures MatchLen(p, s[i..]) == 0 {
    }
  }

  /** No character `a` is followed by a character `b` in `s`, ignoring ASCII
      case. */
  predicate NoPair(s: string, a: char, b: char) {
    forall i :: 0 <= i < |s| - 1 ==> !(LowerChar(s[i]) == a && LowerChar(s[i + 1]) == b)
  }

  /** A case-insensitive pattern whose first literal holds a pair of
      characters that `s` lacks does not match in `s`. */
  lemma NoPairNoMatch(p: Pattern, s: string, j: nat)
    requires p.ci && j + 1 < |p.Head()|
    requires NoPair(s, LowerChar(p.Head()[j]), LowerChar(p.Head()[j + 1]))
    ensures NoMatch(p, s)
  {
    var h := p.Head();
    forall i | 0 <= i < |s| ensures MatchLen(p, s[i..]) == 0 {
      MatchAtSpec(true, h, s, i);
      if i + |h| <= |s| {
        assert !(CharEq(true, s[i + j], h[j]) && CharEq(true, s[i + (j + 1)], h[j + 1]));
      }
    }
  }

  /** A text that is exactly a literal is replaced as a whole. */
  lemma ReplaceAllWhole(t: string, ci: bool, r: string)
    requires |t| > 0
    ensures ReplaceAll(t, Literal(t, ci), r) == r
  {
    PrefixMatchSelf(ci, t, "");
    assert t + "" == t;
    assert t[|t|..] == "";
  }

  /** A missing pair stays missing in a concatenation when it does not
      straddle the seam. */
  lemma NoPairConcat(x: string, y: string, a: char, b: char)
    requires NoPair(x, a, b) && NoPair(y, a, b)
    requires |x| > 0 && |y| > 0 ==> !(LowerChar(x[|x| - 1]) == a && LowerChar(y[0]) == b)
    ensures NoPair(x + y, a, b)
  {
    var s := x + y;
    forall i | 0 <= i < |s| - 1 ensures !(LowerChar(s[i]) == a && LowerChar(s[i + 1]) == b) {
      if i + 1 < |x| {
        assert s[i] == x[i] && s[i + 1] == x[i + 1];
      } else if i >= |x| {
        assert s[i] == y[i - |x|] && s[i + 1] == y[i - |x| + 1];
      } else {
        assert s[i] == x[|x| - 1] && s[i + 1] == y[0];
      }
    }
  }

  /** A text without the first two characters of `h` as a pair, and not
      ending in the first one, cannot start a case-insensitive match of `h`. */
  lemma {:induction false} NoStartByPair(h: string, r: string, i: nat)
    requires |h| >= 2 && NoPair(r, LowerChar(h[0]), LowerChar(h[1]))
    requires |r| > 0 ==> LowerChar(r[|r| - 1]) != LowerChar(h[0])
    ensures NoStartFrom(true, h, r, i)
    decreases |r| - i
  {
    if i < |r| {
      NoStartByPair(h, r, i + 1);
      if i + 1 < |r| {
        assert !(LowerChar(r[i]) == LowerChar(h[0]) && LowerChar(r[i + 1]) == LowerChar(h[1]));
      }
    }
  }

  lemma InertByPair(p: Pattern, r: string)
    requires p.ci && |p.Head()| >= 2 && |r| > 0 && Foreign(p, r[0])
    requires NoPair(r, LowerChar(p.Head()[0]), LowerChar(p.Head()[1]))
    requires LowerChar(r[|r| - 1]) != LowerChar(p.Head()[0])
    ensures Inert(p, r)
  {
    NoStartByPair(p.Head(), r, 0);
  }

  /** Every pattern of the table is well formed, and every replacement is
      inert for its own pattern and for every earlier one. */
  predicate SelfClearing(rules: seq<Rule>) {
    && (forall i :: 0 <= i < |rules| ==> rules[i].pat.Wf())
    && (forall i, j :: 0 <= i <= j < |rules| ==> Inert(rules[i].pat, rules[j].repl))
  }

  /** A self-clearing table leaves no match of any of its patterns. */
  lemma {:induction false} ApplyRulesClearAll(s: string, rules: seq<Rule>)
    requires SelfClearing(rules)
    ensures forall i :: 0 <= i < |rules| ==> NoMatch(rules[i].pat, ApplyRules(s, rules))
    decreases |rules|
  {
    if |rules| > 0 {
      var t := ReplaceAll(s, rules[0].pat, rules[0].repl);
      var rest := rules[1..];
      assert SelfClearing(rest) by {
        forall i, j | 0 <= i <= j < |rest| ensures Inert(rest[i].pat, rest[j].repl) {
          assert rest[i] == rules[i + 1] && rest[j] == rules[j + 1];
        }
      }
      ApplyRulesClearAll(t, rest);
      ApplyRulesClear(s, rules, rules[0].pat);
      forall i | 0 < i < |rules| ensures NoMatch(rules[i].pat, ApplyRules(s, rules)) {
        assert rules[i] == rest[i - 1];
      }
    }
  }

  /** Applying a self-clearing table twice is applying it once. */
  lemma ApplyRulesIdempotent(s: string, rules: seq<Rule>)
    requires SelfClearing(rules)
    ensures ApplyRules(ApplyRules(s, rules), rules) == ApplyRules(s, rules)
  {
    ApplyRulesClearAll(s, rules);
    ApplyRulesIdentity(ApplyRules(s, rules), rules);
  }

  /** A table of literals, each replaced by a text of its own length, keeps
      the length. */
  lemma {:induction false} ApplyRulesLength(s: string, rules: seq<Rule>)
    requires forall i :: 0 <= i < |rules| ==> rules[i].pat.Literal? && |rules[i].pat.text| == |rules[i].repl|
    ensures |ApplyRules(s, rules)| == |s|
    decreases |rules|
  {
    if |rules| > 0 {
      ReplaceAllLength(s, rules[0].pat, rules[0].repl);
      ApplyRulesLength(ReplaceAll(s, rules[0].pat, rules[0].repl), rules[1..]);
    }
  }

  /** `AbsentFrom`, from its pointwise reading. */
  lemma {:induction false} AbsentFromAll(ci: bool, z: char, s: string, i: nat)
    requires forall k :: i <= k < |s| ==> !CharEq(ci, z, s[k])
    ensures AbsentFrom(ci, z, s, i)
    decreases |s| - i
  {
    if i < |s| {
      AbsentFromAll(ci, z, s, i + 1);
    }
  }

  /** `CompatAt`, read pointwise. */
  lemma {:induction false} CompatAtSpec(ci: bool, h: string, r: string, i: nat, k: nat, m: nat)
    requires CompatAt(ci, h, r, i, k) && k <= m < |h| && i + m < |r|
    ensures CharEq(ci, r[i + m], h[m])
    decreases m - k
  {
    if k < m {
      CompatAtSpec(ci, h, r, i, k + 1, m);
    }
  }

  /** `NoStartFrom`, from its pointwise reading. */
  lemma {:induction false} NoStartFromAll(ci: bool, h: string, r: string, i: nat)
    requires forall j :: i <= j < |r| ==> !CompatAt(ci, h, r, j, 0)
    ensures NoStartFrom(ci, h, r, i)
    decreases |r| - i
  {
    if i < |r| {
      NoStartFromAll(ci, h, r, i + 1);
    }
  }
}

=== FILE: posix.dfy ===
/** The parts of Node's `path.posix` the engine uses: `normalize`, `join`,
    `dirname` and `relative`, on `/`-separated strings. */
module Posix {
  import opened Text

  /** One segment of a path pushed onto the stack of segments kept so far:
      empty and `.` segments vanish, `..` removes the last kept segment, or is
      kept itself when there is none to remove and the path may climb above
      its start (`above`, which holds for relative paths only). */
  function Push(stack: seq<string>, seg: string, above: bool): seq<string> {
    if seg == "" || seg == "." then stack
    else if seg == ".." then
      if |stack| > 0 && stack[|stack| - 1] != ".." then stack[..|stack| - 1]
      else if above then stack + [".."]
      else stack
    else stack + [seg]
  }

  /** The segments kept after pushing every segment of `parts` in order. */
  function Resolve(parts: seq<string>, above: bool): seq<string>
    decreases |parts|
  {
    if |parts| == 0 then [] else Push(Resolve(parts[..|parts| - 1], above), parts[|parts| - 1], above)
  }

  /** A stack of segments as normalisation leaves it: no empty or `.`
      segments, no separator inside a segment, and `..` only in front (and only
      when the path may climb above its start). */
  ghost predicate Canonical(stack: seq<string>, above: bool) {
    && (forall i :: 0 <= i < |stack| ==> stack[i] != "" && stack[i] != "." && '/' !in stack[i])
    && (forall i :: 0 <= i < |stack| && stack[i] == ".." ==> above && forall j :: 0 <= j < i ==> stack[j] == "..")
  }

  lemma PushCanonical(stack: seq<string>, seg: string, above: bool)
    requires Canonical(stack, above) && '/' !in seg
    ensures Canonical(Push(stack, seg, above), above)
  {
    var r := Push(stack, seg, above);
    if seg == ".." && |stack| > 0 && stack[|stack| - 1] != ".." {
      assert forall i :: 0 <= i < |r| ==> r[i] == stack[i];
    } else if seg == ".." && above {
      forall i | 0 <= i < |r| && r[i] == ".." ensures forall j :: 0 <= j < i ==> r[j] == ".." {
        if i == |stack| && |stack| > 0 {
          assert stack[|stack| - 1] == "..";
        }
      }
    } else if seg != "" && seg != "." && seg != ".." {
      forall i | 0 <= i < |r| && r[i] == ".." ensures above && forall j :: 0 <= j < i ==> r[j] == ".." {
        assert i < |stack|;
      }
    }
  }

  lemma {:induction false} ResolveCanonical(parts: seq<string>, above: bool)
    requires forall k :: 0 <= k < |parts| ==> '/' !in parts[k]
    ensures Canonical(Resolve(parts, above), above)
    decreases |parts|
  {
    if |parts| > 0 {
      ResolveCanonical(parts[..|parts| - 1], above);
      PushCanonical(Resolve(parts[..|parts| - 1], above), parts[|parts| - 1], above);
    }
  }

  /** `path.posix.normalize`. */
  function Normalize(p: string): string {
    if |p| == 0 then "."
    else
      var abs := p[0] == '/';
      var trail := p[|p| - 1] == '/';
      var body := Join(Resolve(Split(p, '/'), !abs), "/");
      if |body| == 0 then (if abs then "/" else if trail then "./" else ".")
      else (if abs then "/" else "") + body + (if trail then "/" else "")
  }

  /** A canonical stack joined with `/` is empty only for the empty stack,
      starts with its first segment, never starts with `/` or `./`, and starts
      with `../` only when its first segment is `..`. */
  lemma JoinCanonicalHead(stack: seq<string>, above: bool)
    requires Canonical(stack, above)
    ensures |Join(stack, "/")| == 0 <==> |stack| == 0
    ensures |stack| > 0 ==> StartsWith(Join(stack, "/"), stack[0])
    ensures !StartsWith(Join(stack, "/"), "/")
    ensures var j := Join(stack, "/"); !(StartsWith(j, ".") && (|j| == 1 || j[1] == '/'))
    ensures var j := Join(stack, "/"); StartsWith(j, "..") && (|j| == 2 || j[2] == '/') ==> stack[0] == ".."
  {
    if |stack| > 0 {
      var j := Join(stack, "/");
      var h := stack[0];
      assert h != "" && '/' !in h;
      var tail := if |stack| == 1 then "" else "/" + Join(stack[1..], "/");
      assert j == h + tail;
      assert j[..|h|] == h;
      assert j[0] == h[0];
      assert |h| == 1 ==> h == [h[0]];
      assert |h| == 2 ==> h == [h[0], h[1]];
      assert |h| >= 2 ==> j[1] == h[1];
      assert |h| >= 3 ==> j[2] == h[2];
      assert |h| == 1 && |stack| > 1 ==> j[1] == '/';
      assert |h| == 2 && |stack| > 1 ==> j[2] == '/';
    }
  }

  /** The shape of a normalised path: an absolute path never climbs above the
      root, so it never starts with `//` or `/../`; a relative one starts with
      `./` only when it is exactly `./`, and never with `/`. */
  lemma NormalizeShape(p: string)
    ensures |Normalize(p)| > 0
    ensures (|p| > 0 && p[0] == '/') <==> StartsWith(Normalize(p), "/")
    ensures !StartsWith(Normalize(p), "//") && !StartsWith(Normalize(p), "/../")
    ensures StartsWith(Normalize(p), "./") ==> Normalize(p) == "./"
  {
    if |p| > 0 {
      if p[0] == '/' {
        NormalizeAbsolute(p);
      } else {
        NormalizeRelative(p);
      }
    } else {
      assert Normalize(p) == ".";
      assert Normalize(p)[0] != '/';
    }
  }

  lemma NormalizeAbsolute(p: string)
    requires |p| > 0 && p[0] == '/'
    ensures StartsWith(Normalize(p), "/")
    ensures !StartsWith(Normalize(p), "//") && !StartsWith(Normalize(p), "/../")
  {
    var stack := Resolve(Split(p, '/'), false);
    ResolveCanonical(Split(p, '/'), false);
    JoinCanonicalHead(stack, false);
    var body := Join(stack, "/");
    if |body| > 0 {
      assert stack[0] != "..";
      AbsoluteWrap(body, if p[|p| - 1] == '/' then "/" else "");
    }
  }

  /** A `/` in front of a body that starts with neither `/` nor a `..`
      segment gives a path that starts with neither `//` nor `/../`. */
  lemma AbsoluteWrap(body: string, trail: string)
    requires |body| > 0 && (trail == "" || trail == "/") && !StartsWith(body, "/")
    requires !(StartsWith(body, "..") && (|body| == 2 || body[2] == '/'))
    ensures var r := "/" + body + trail;
      StartsWith(r, "/") && !StartsWith(r, "//") && !StartsWith(r, "/../")
  {
    var r := "/" + body + trail;
    assert r[1] == body[0];
    SlashDotDot(body, trail);
  }

  lemma SlashDotDot(body: string, trail: string)
    requires |body| > 0 && (trail == "" || trail == "/")
    ensures StartsWith("/" + body + trail, "/../") ==> StartsWith(body, "..") && (|body| == 2 || body[2] == '/')
  {
    var r := "/" + body + trail;
    if StartsWith(r, "/../") {
      assert r[1] == body[0];
      if |body| >= 2 {
        assert r[2] == body[1];
        assert body[..2] == r[1..3];
      }
      if |body| >= 3 {
        assert r[3] == body[2];
      }
    }
  }

  lemma NormalizeRelative(p: string)
    requires |p| > 0 && p[0] != '/'
    ensures |Normalize(p)| > 0 && !StartsWith(Normalize(p), "/")
    ensures StartsWith(Normalize(p), "./") ==> Normalize(p) == "./"
  {
    var stack := Resolve(Split(p, '/'), true);
    ResolveCanonical(Split(p, '/'), true);
    JoinCanonicalHead(stack, true);
    var body := Join(stack, "/");
    if |body| > 0 {
      RelativeWrap(body, if p[|p| - 1] == '/' then "/" else "");
    }
  }

  /** A body that starts with neither `/` nor a `.` segment, with an
      optional `/` behind it, starts with neither `/` nor `./`. */
  lemma RelativeWrap(body: string, trail: string)
    requires |body| > 0 && !StartsWith(body, "/")
    requires !(StartsWith(body, ".") && (|body| == 1 || body[1] == '/'))
    ensures var r := body + trail; !StartsWith(r, "/") && !StartsWith(r, "./")
  {
    var r := body + trail;
    assert r[0] == body[0];
    assert |body| >= 2 ==> r[1] == body[1];
    assert |body| == 1 && StartsWith(r, "./") ==> body == ".";
  }

  /** `path.posix.join`: the non-empty arguments joined with `/`, normalised;
      `.` when there is none. */
  function JoinPaths(args: seq<string>): string {
    var joined := JoinNonEmpty(args);
    if |joined| == 0 then "." else Normalize(joined)
  }

  function JoinNonEmpty(args: seq<string>): (r: string)
    ensures |r| == 0 <==> forall k :: 0 <= k < |args| ==> |args[k]| == 0
    decreases |args|
  {
    if |args| == 0 then ""
    else
      var rest := JoinNonEmpty(args[1..]);
      if |args[0]| == 0 then rest
      else if |rest| == 0 then args[0]
      else args[0] + "/" + rest
  }

  /** The index of the separator in front of the last segment of `p`, found by
      scanning down from index `i` (never index 0); -1 when there is none.
      `matched` says every character above `i` is a separator. */
  function DirEnd(p: string, i: int, matched: bool): (e: int)
    requires 0 <= i < |p|
    ensures -1 <= e <= i && (e >= 1 ==> p[e] == '/')
    decreases i
  {
    if i < 1 then -1
    else if p[i] == '/' then (if !matched then i else DirEnd(p, i - 1, matched))
    else DirEnd(p, i - 1, false)
  }

  /** `path.posix.dirname`. */
  function Dirname(p: string): string {
    if |p| == 0 then "."
    else
      var hasRoot := p[0] == '/';
      var end := DirEnd(p, |p| - 1, true);
      if end == -1 then (if hasRoot then "/" else ".")
      else if hasRoot && end == 1 then "//"
      else p[..end]
  }

  /** The resolved segments of `p`, taken against the working directory
      `cwd` when `p` is relative (`path.posix.resolve`, for an absolute
      working directory). */
  function ResolvedSegments(cwd: string, p: string): seq<string> {
    var full := if |p| > 0 && p[0] == '/' then p else cwd + "/" + p;
    Resolve(Split(full, '/'), false)
  }

  function CommonPrefix(a: seq<string>, b: seq<string>): (n: nat)
    ensures n <= |a| && n <= |b| && a[..n] == b[..n]
    ensures n < |a| && n < |b| ==> a[n] != b[n]
    decreases |a|
  {
    if |a| > 0 && |b| > 0 && a[0] == b[0] then
      var n := 1 + CommonPrefix(a[1..], b[1..]);
      assert a[..n] == [a[0]] + a[1..][..n - 1];
      assert b[..n] == [b[0]] + b[1..][..n - 1];
      n
    else 0
  }

  function Ups(n: nat): (r: seq<string>)
    ensures |r| == n && forall i :: 0 <= i < n ==> r[i] == ".."
  {
    if n == 0 then [] else Ups(n - 1) + [".."]
  }

  /** `path.posix.relative`, on the segments of the two resolved paths: one
      `..` for every segment of `from` below the common ancestor, then the
      segments of `to` below it. */
  function Relative(cwd: string, from: string, to: string): string {
    var f := ResolvedSegments(cwd, from);
    var t := ResolvedSegments(cwd, to);
    var c := CommonPrefix(f, t);
    Join(Ups(|f| - c) + t[c..], "/")
  }

  /** A path relative to itself is empty, and a directory below `from` is
      reached by its own segments, with no climbing. */
  lemma RelativeBelow(cwd: string, from: string, to: string)
    requires ResolvedSegments(cwd, from) <= ResolvedSegments(cwd, to)
    ensures Relative(cwd, from, to) == Join(ResolvedSegments(cwd, to)[|ResolvedSegments(cwd, from)|..], "/")
  {
    var f := ResolvedSegments(cwd, from);
    var t := ResolvedSegments(cwd, to);
    var c := CommonPrefix(f, t);
    if c < |f| {
      assert false;
    }
    assert Ups(0) + t[c..] == t[c..];
  }

  /** `normalizeSlashes`: every backslash becomes `/`. */
  function NormalizeSlashes(s: string): (r: string)
    ensures |r| == |s| && '\\' !in r
    ensures forall i :: 0 <= i < |s| ==> r[i] == (if s[i] == '\\' then '/' else s[i])
  {
    if |s| == 0 then "" else [if s[0] == '\\' then '/' else s[0]] + NormalizeSlashes(s[1..])
  }

  /** Resolving keeps only segments taken from the parts, and `..`. */
  lemma {:induction false} ResolveKeepsOut(parts: seq<string>, above: bool, x: char)
    requires x != '.' && forall k :: 0 <= k < |parts| ==> x !in parts[k]
    ensures forall i :: 0 <= i < |Resolve(parts, above)| ==> x !in Resolve(parts, above)[i]
    decreases |parts|
  {
    if |parts| > 0 {
      ResolveKeepsOut(parts[..|parts| - 1], above, x);
    }
  }

  /** Normalising adds no character but `/` and `.`. */
  lemma NormalizeKeepsOut(p: string, x: char)
    requires x !in p && x != '/' && x != '.'
    ensures x !in Normalize(p)
  {
    if |p| > 0 {
      SplitKeepsOut(p, '/', x);
      ResolveKeepsOut(Split(p, '/'), p[0] != '/', x);
      JoinKeepsOut(Resolve(Split(p, '/'), p[0] != '/'), "/", x);
    }
  }

  lemma {:induction false} JoinNonEmptyKeepsOut(args: seq<string>, x: char)
    requires x != '/' && forall k :: 0 <= k < |args| ==> x !in args[k]
    ensures x !in JoinNonEmpty(args)
    decreases |args|
  {
    if |args| > 0 {
      JoinNonEmptyKeepsOut(args[1..], x);
    }
  }

  /** Joining adds no character but `/` and `.`. */
  lemma JoinPathsKeepsOut(args: seq<string>, x: char)
    requires x != '/' && x != '.' && forall k :: 0 <= k < |args| ==> x !in args[k]
    ensures x !in JoinPaths(args)
  {
    JoinNonEmptyKeepsOut(args, x);
    if |JoinNonEmpty(args)| > 0 {
      NormalizeKeepsOut(JoinNonEmpty(args), x);
    }
  }

  /** A path without backslashes is left as it is. */
  lemma NormalizeSlashesNoBackslash(s: string)
    requires '\\' !in s
    ensures NormalizeSlashes(s) == s
  {
  }

  /** No two separators in a row. */
  predicate NoDoubleSlash(s: string) {
    forall i :: 0 < i < |s| ==> s[i - 1] != '/' || s[i] != '/'
  }

  /** Non-empty segments without separators, joined with `/`, never give two
      separators in a row, nor one at either end. */
  lemma {:induction false} JoinNoDoubleSlash(parts: seq<string>)
    requires forall k :: 0 <= k < |parts| ==> parts[k] != "" && '/' !in parts[k]
    ensures var j := Join(parts, "/");
      NoDoubleSlash(j) && (|j| > 0 ==> j[0] != '/' && j[|j| - 1] != '/')
    decreases |parts|
  {
    if |parts| > 1 {
      JoinNoDoubleSlash(parts[1..]);
      var h := parts[0];
      var rest := Join(parts[1..], "/");
      var j := h + "/" + rest;
      assert Join(parts, "/") == j;
      assert rest[0] != '/';
      forall i | 0 < i < |j| ensures j[i - 1] != '/' || j[i] != '/' {
        if i < |h| {
          assert j[i] == h[i];
        } else if i == |h| {
          assert j[i - 1] == h[|h| - 1];
        } else if i == |h| + 1 {
          assert j[i] == rest[0];
        } else {
          assert j[i - 1] == rest[i - |h| - 2] && j[i] == rest[i - |h| - 1];
        }
      }
      assert j[0] == h[0];
      assert j[|j| - 1] == rest[|rest| - 1];
    } else if |parts| == 1 {
      assert parts[0][0] in parts[0];
      assert parts[0][|parts[0]| - 1] in parts[0];
    }
  }

  /** A normalised path never holds two separators in a row. */
  lemma NormalizeNoDoubleSlash(p: string)
    ensures NoDoubleSlash(Normalize(p))
  {
    if |p| > 0 {
      var abs := p[0] == '/';
      var stack := Resolve(Split(p, '/'), !abs);
      ResolveCanonical(Split(p, '/'), !abs);
      JoinNoDoubleSlash(stack);
      var body := Join(stack, "/");
      if |body| > 0 {
        WrapNoDoubleSlash(if abs then "/" else "", body, if p[|p| - 1] == '/' then "/" else "");
      }
    }
  }

  /** At most one separator on each side of a body that has none at its ends
      and none doubled adds no doubled separator. */
  lemma WrapNoDoubleSlash(lead: string, body: string, trail: string)
    requires |lead| <= 1 && |trail| <= 1 && |body| > 0
    requires body[0] != '/' && body[|body| - 1] != '/' && NoDoubleSlash(body)
    ensures NoDoubleSlash(lead + body + trail)
  {
    var r := lead + body + trail;
    forall i | 0 < i < |r| ensures r[i - 1] != '/' || r[i] != '/' {
      if i - 1 < |lead| {
        assert r[i] == body[0];
      } else if i < |lead| + |body| {
        assert r[i - 1] == body[i - 1 - |lead|] && r[i] == body[i - |lead|];
      } else {
        assert r[i - 1] == body[|body| - 1];
      }
    }
  }

}

=== FILE: routes.dfy ===
/** The route resolver: from the segments of a requested path to the archived
    HTML file that serves it, through a fixed chain of candidate files. */
module Routes {
  import opened Text
  import opened Patterns
  import opened Site
  import opened Posix
  import opened Env

  /** `s` ends with the lower-case `t`, ignoring ASCII case. */
  predicate EndsWithCI(s: string, t: string) {
    |t| <= |s| && EqualsLower(s[|s| - |t|..], t)
  }

  /** `stripHtmlExtension`: a final `/index.html` becomes `/`, then a final
      `.html` is dropped, both ignoring case. */
  function StripHtmlExtension(v: string): string {
    var a := if EndsWithCI(v, "/index.html") then v[..|v| - |"index.html"|] else v;
    if EndsWithCI(a, ".html") then a[..|a| - |".html"|] else a
  }

  /** What stripping removes is nothing, `.html` or `index.html` (in any
      case) at the very end, and a trailing `/index.html` always leaves the
      `/` in place. */
  lemma StripHtmlExtensionSpec(v: string)
    ensures var r := StripHtmlExtension(v);
      && r <= v
      && (|r| == |v| || EndsWithCI(v, ".html") || EndsWithCI(v, "index.html"))
      && (EndsWithCI(v, "/index.html") ==> r == v[..|v| - 10] && r[|r| - 1] == '/')
      && (!EndsWithCI(v, ".html") ==> r == v)
  {
    var r := StripHtmlExtension(v);
    if EndsWithCI(v, "/index.html") {
      var a := v[..|v| - 10];
      assert LowerChar(v[|v| - 11..][0]) == '/';
      assert a[|a| - 1] == v[|v| - 11];
      assert !EndsWithCI(a, ".html") by {
        if |a| >= 5 {
          assert a[|a| - 5..][4] == '/';
        }
      }
    } else if EndsWithCI(v, ".html") {
      assert v[..|v| - 5] <= v;
    } else {
      assert r == v;
    }
  }

  /** `s` with every run of white space replaced by one `-`. */
  function CollapseSpace(s: string): (r: string)
    ensures forall i :: 0 <= i < |r| ==> !IsSpace(r[i])
    ensures |r| <= |s|
    decreases |s|
  {
    if |s| == 0 then ""
    else if IsSpace(s[0]) then
      var n := SpaceRun(s);
      "-" + CollapseSpace(s[n..])
    else [s[0]] + CollapseSpace(s[1..])
  }

  /** A text without white space is kept as it is. */
  lemma {:induction false} CollapseSpaceNoSpace(s: string)
    requires forall i :: 0 <= i < |s| ==> !IsSpace(s[i])
    ensures CollapseSpace(s) == s
    decreases |s|
  {
    if |s| > 0 {
      CollapseSpaceNoSpace(s[1..]);
      assert [s[0]] + s[1..] == s;
    }
  }

  /** `sanitizeRouteKey`: at most one leading and one trailing `/` removed,
      then every run of white space replaced by `-`. */
  function SanitizeRouteKey(v: string): (r: string)
    ensures forall i :: 0 <= i < |r| ==> !IsSpace(r[i])
  {
    CollapseSpace(DropSuffix(DropPrefix(v, "/"), "/"))
  }

  /** Sanitising removes exactly one slash at each end when there is one and
      keeps a key without white space otherwise unchanged. */
  lemma SanitizeRouteKeySpec(v: string)
    requires forall i :: 0 <= i < |v| ==> !IsSpace(v[i])
    ensures var a := if |v| > 0 && v[0] == '/' then v[1..] else v;
      SanitizeRouteKey(v) == (if |a| > 0 && a[|a| - 1] == '/' then a[..|a| - 1] else a)
  {
    var a := DropPrefix(v, "/");
    assert StartsWith(v, "/") <==> |v| > 0 && v[0] == '/';
    assert EndsWith(a, "/") <==> |a| > 0 && a[|a| - 1] == '/';
    var b := DropSuffix(a, "/");
    assert forall i :: 0 <= i < |b| ==> b[i] == v[i + |v| - |a|];
    CollapseSpaceNoSpace(b);
  }

  datatype SiteKey = Main | PanelSite

  /** A resolved page: its file, which archive it belongs to, its directory
      relative to that archive's root, and the key that names the route. */
  datatype LegacyFile = LegacyFile(filePath: string, siteKey: SiteKey, pageDir: string, routeKey: string)

  function LegacyRoot(w: World): string {
    JoinPaths([w.cwd, "legacy"])
  }

  function PrimaryRoot(w: World): string {
    JoinPaths([LegacyRoot(w), Primary])
  }

  function PanelRoot(w: World): string {
    JoinPaths([LegacyRoot(w), Panel])
  }

  /** The directory of `file`, relative to the archive root, with forward slashes. */
  function PageDir(w: World, root: string, file: string): string {
    NormalizeSlashes(Relative(w.cwd, root, Dirname(file)))
  }

  /** One file the resolver probes and the route key of the page it gives
      when it is there; `fileOnly` when only a regular file will do. */
  datatype Candidate = Candidate(path: string, fileOnly: bool, routeKey: string)

  predicate Hit(d: Disk, c: Candidate) {
    if c.fileOnly then IsFile(d, c.path) else Exists(d, c.path)
  }

  /** The index of the first candidate from index `i` on that is there. */
  function FirstHitFrom(d: Disk, cs: seq<Candidate>, i: nat): (r: Option<nat>)
    requires i <= |cs|
    ensures r.Some? ==> i <= r.value < |cs| && Hit(d, cs[r.value]) && forall j :: i <= j < r.value ==> !Hit(d, cs[j])
    ensures r.None? ==> forall j :: i <= j < |cs| ==> !Hit(d, cs[j])
    decreases |cs| - i
  {
    if i == |cs| then None
    else if Hit(d, cs[i]) then Some(i)
    else FirstHitFrom(d, cs, i + 1)
  }

  /** The index of the first candidate that is there. */
  function FirstHit(d: Disk, cs: seq<Candidate>): Option<nat> {
    FirstHitFrom(d, cs, 0)
  }

  /** The candidates every request tries: the exact path (a regular file),
      the path with `.html`, and the path's `index.html`. */
  function Chain(w: World, root: string, rel: seq<string>): seq<Candidate> {
    var cp := JoinPaths([root] + rel);
    var key := SanitizeRouteKey(Join(rel, "/"));
    [Candidate(cp, true, key), Candidate(cp + ".html", false, key), Candidate(JoinPaths([cp, "index.html"]), false, key)]
  }

  /** The candidates for the segments `rel` below `root`, in the order they
      are tried: the chain, then the segment with `.html` directly below the
      root when there is exactly one segment. */
  function Candidates(w: World, root: string, rel: seq<string>): seq<Candidate> {
    if |rel| == 1 then Chain(w, root, rel) + [Candidate(JoinPaths([root, rel[0] + ".html"]), false, SanitizeRouteKey(rel[0]))]
    else Chain(w, root, rel)
  }

  /** The archive a request is served from: the panel archive when the first
      segment is `panel` (that segment is then dropped), the main one
      otherwise. */
  function Archive(w: World, safe: seq<string>): (string, SiteKey, seq<string>) {
    if |safe| > 0 && safe[0] == "panel" then (PanelRoot(w), PanelSite, safe[1..])
    else (PrimaryRoot(w), Main, safe)
  }

  function HomePage(w: World): LegacyFile {
    LegacyFile(JoinPaths([PrimaryRoot(w), "index.html"]), Main, "", "home")
  }

  /** The page a candidate gives in the archive rooted at `root`. */
  function PageOf(w: World, root: string, c: Candidate, key: SiteKey): LegacyFile {
    LegacyFile(c.path, key, PageDir(w, root, c.path), c.routeKey)
  }

  /** What the resolver returns: the home page for no segments, otherwise
      what the lookup in the request's archive gives. */
  function Resolution(w: World, segments: Option<seq<string>>): Option<LegacyFile> {
    var safe := if segments.Some? then segments.value else [];
    if |safe| == 0 then Some(HomePage(w))
    else
      var arch := Archive(w, safe);
      Lookup(w, arch.0, arch.1, arch.2)
  }

  /** The lookup below the archive root `root`: the archive's index page for
      no segments, when it is there; otherwise the first hit among the
      candidates. */
  function Lookup(w: World, root: string, key: SiteKey, rel: seq<string>): Option<LegacyFile> {
    var index := JoinPaths([root, "index.html"]);
    if |rel| == 0 && Exists(w.disk, index) then Some(LegacyFile(index, key, "", "panel"))
    else Probe(w, root, key, rel)
  }

  /** The page of the first candidate that is there, if any. */
  function Probe(w: World, root: string, key: SiteKey, rel: seq<string>): Option<LegacyFile> {
    var cs := Candidates(w, root, rel);
    var hit := FirstHit(w.disk, cs);
    if hit.None? then None else Some(PageOf(w, root, cs[hit.value], key))
  }

  /** The first hit is the one every candidate before it misses. */
  lemma FirstHitAt(d: Disk, cs: seq<Candidate>, k: nat)
    requires k < |cs| && Hit(d, cs[k]) && forall j :: 0 <= j < k ==> !Hit(d, cs[j])
    ensures FirstHit(d, cs) == Some(k)
  {
  }

  lemma FirstHitNone(d: Disk, cs: seq<Candidate>)
    requires forall j :: 0 <= j < |cs| ==> !Hit(d, cs[j])
    ensures FirstHit(d, cs) == None
  {
  }

  /** `resolveLegacyFile`: probes the candidate files one after the other and
      returns the first one that is there. */
  method ResolveLegacyFile(w: World, segments: Option<seq<string>>) returns (r: Option<LegacyFile>)
    ensures r == Resolution(w, segments)
  {
    var safeSegments := if segments.Some? then segments.value else [];
    if |safeSegments| == 0 {
      return Some(LegacyFile(JoinPaths([PrimaryRoot(w), "index.html"]), Main, "", "home"));
    }
    var siteRoot := PrimaryRoot(w);
    var siteKey := Main;
    var relativeSegments := safeSegments;
    if safeSegments[0] == "panel" {
      siteRoot := PanelRoot(w);
      siteKey := PanelSite;
      relativeSegments := safeSegments[1..];
    }
    assert Archive(w, safeSegments) == (siteRoot, siteKey, relativeSegments);
    r := LookupIn(w, siteRoot, siteKey, relativeSegments);
  }

  /** The probes of `resolveLegacyFile` below the archive root `siteRoot`. */
  method LookupIn(w: World, siteRoot: string, siteKey: SiteKey, relativeSegments: seq<string>) returns (r: Option<LegacyFile>)
    ensures r == Lookup(w, siteRoot, siteKey, relativeSegments)
  {
    if |relativeSegments| == 0 {
      var indexPath := JoinPaths([siteRoot, "index.html"]);
      if Exists(w.disk, indexPath) {
        return Some(LegacyFile(indexPath, siteKey, "", "panel"));
      }
    }
    r := ProbeIn(w, siteRoot, siteKey, relativeSegments);
  }

  /** The candidate files probed one after the other, the first one that is
      there giving the page. */
  method ProbeIn(w: World, siteRoot: string, siteKey: SiteKey, relativeSegments: seq<string>) returns (r: Option<LegacyFile>)
    ensures r == Probe(w, siteRoot, siteKey, relativeSegments)
  {
    var candidatePath := JoinPaths([siteRoot] + relativeSegments);
    var routeKey := SanitizeRouteKey(Join(relativeSegments, "/"));
    if IsFile(w.disk, candidatePath) {
      ProbeExact(w, siteRoot, siteKey, relativeSegments);
      return Some(LegacyFile(candidatePath, siteKey, PageDir(w, siteRoot, candidatePath), routeKey));
    }
    var htmlPath := candidatePath + ".html";
    if Exists(w.disk, htmlPath) {
      ProbeHtml(w, siteRoot, siteKey, relativeSegments);
      return Some(LegacyFile(htmlPath, siteKey, PageDir(w, siteRoot, htmlPath), routeKey));
    }
    var indexHtmlPath := JoinPaths([candidatePath, "index.html"]);
    if Exists(w.disk, indexHtmlPath) {
      ProbeIndex(w, siteRoot, siteKey, relativeSegments);
      return Some(LegacyFile(indexHtmlPath, siteKey, PageDir(w, siteRoot, indexHtmlPath), routeKey));
    }
    if |relativeSegments| == 1 {
      var rootHtml := JoinPaths([siteRoot, relativeSegments[0] + ".html"]);
      if Exists(w.disk, rootHtml) {
        ProbeRootHtml(w, siteRoot, siteKey, relativeSegments);
        return Some(LegacyFile(rootHtml, siteKey, PageDir(w, siteRoot, rootHtml), SanitizeRouteKey(relativeSegments[0])));
      }
    }
    ProbeMissed(w, siteRoot, siteKey, relativeSegments);
    return None;
  }

  /** The exact path, when it is a regular file, gives the page. */
  lemma ProbeExact(w: World, root: string, key: SiteKey, rel: seq<string>)
    requires IsFile(w.disk, JoinPaths([root] + rel))
    ensures var cp := JoinPaths([root] + rel);
      Probe(w, root, key, rel) == Some(LegacyFile(cp, key, PageDir(w, root, cp), SanitizeRouteKey(Join(rel, "/"))))
  {
    var cs := Candidates(w, root, rel);
    CandidatesShape(w, root, rel);
    assert FirstHit(w.disk, cs) == Some(0);
  }

  /** Otherwise the path with `.html`, when it is there, gives the page. */
  lemma ProbeHtml(w: World, root: string, key: SiteKey, rel: seq<string>)
    requires var cp := JoinPaths([root] + rel); !IsFile(w.disk, cp) && Exists(w.disk, cp + ".html")
    ensures var p := JoinPaths([root] + rel) + ".html";
      Probe(w, root, key, rel) == Some(LegacyFile(p, key, PageDir(w, root, p), SanitizeRouteKey(Join(rel, "/"))))
  {
    var cs := Candidates(w, root, rel);
    CandidatesShape(w, root, rel);
    assert !Hit(w.disk, cs[0]) && Hit(w.disk, cs[1]);
    FirstHitSecond(w.disk, cs);
    ProbeAt(w, root, key, rel, 1);
  }

  /** The second candidate is the first hit when the first one misses. */
  lemma FirstHitSecond(d: Disk, cs: seq<Candidate>)
    requires 1 < |cs| && !Hit(d, cs[0]) && Hit(d, cs[1])
    ensures FirstHit(d, cs) == Some(1)
  {
    assert FirstHitFrom(d, cs, 1) == Some(1);
    FirstHitNext(d, cs, 0, 1);
  }

  /** The probe gives the page of its first hit. */
  lemma ProbeAt(w: World, root: string, key: SiteKey, rel: seq<string>, k: nat)
    requires FirstHit(w.disk, Candidates(w, root, rel)) == Some(k)
    ensures k < |Candidates(w, root, rel)|
    ensures Probe(w, root, key, rel) == Some(PageOf(w, root, Candidates(w, root, rel)[k], key))
  {
  }

  /** Otherwise the path's `index.html`, when it is there, gives the page. */
  lemma ProbeIndex(w: World, root: string, key: SiteKey, rel: seq<string>)
    requires var cp := JoinPaths([root] + rel);
      !IsFile(w.disk, cp) && !Exists(w.disk, cp + ".html") && Exists(w.disk, JoinPaths([cp, "index.html"]))
    ensures var p := JoinPaths([JoinPaths([root] + rel), "index.html"]);
      Probe(w, root, key, rel) == Some(LegacyFile(p, key, PageDir(w, root, p), SanitizeRouteKey(Join(rel, "/"))))
  {
    var cs := Candidates(w, root, rel);
    CandidatesShape(w, root, rel);
    FirstHitThird(w.disk, cs);
  }

  /** Otherwise, for one segment, the segment's `.html` file directly below
      the root, when it is there, gives the page. */
  lemma ProbeRootHtml(w: World, root: string, key: SiteKey, rel: seq<string>)
    requires |rel| == 1
    requires var cp := JoinPaths([root] + rel);
      !IsFile(w.disk, cp) && !Exists(w.disk, cp + ".html") && !Exists(w.disk, JoinPaths([cp, "index.html"]))
    requires Exists(w.disk, JoinPaths([root, rel[0] + ".html"]))
    ensures var p := JoinPaths([root, rel[0] + ".html"]);
      Probe(w, root, key, rel) == Some(LegacyFile(p, key, PageDir(w, root, p), SanitizeRouteKey(rel[0])))
  {
    var cs := Candidates(w, root, rel);
    CandidatesShape(w, root, rel);
    FirstHitNext(w.disk, cs, 2, 3);
    FirstHitNext(w.disk, cs, 1, 3);
    FirstHitNext(w.disk, cs, 0, 3);
  }

  /** When every probed file is missing there is no page. */
  lemma ProbeMissed(w: World, root: string, key: SiteKey, rel: seq<string>)
    requires var cp := JoinPaths([root] + rel);
      !IsFile(w.disk, cp) && !Exists(w.disk, cp + ".html") && !Exists(w.disk, JoinPaths([cp, "index.html"]))
    requires |rel| == 1 ==> !Exists(w.disk, JoinPaths([root, rel[0] + ".html"]))
    ensures Probe(w, root, key, rel) == None
  {
    ChainMissed(w, root, rel);
    FirstHitNone(w.disk, Candidates(w, root, rel));
  }

  lemma FirstHitThird(d: Disk, cs: seq<Candidate>)
    requires |cs| >= 3 && !Hit(d, cs[0]) && !Hit(d, cs[1]) && Hit(d, cs[2])
    ensures FirstHit(d, cs) == Some(2)
  {
    FirstHitNext(d, cs, 1, 2);
    FirstHitNext(d, cs, 0, 2);
  }

  /** A candidate that misses passes the search on to the next one. */
  lemma FirstHitNext(d: Disk, cs: seq<Candidate>, i: nat, k: nat)
    requires i < k < |cs| && !Hit(d, cs[i]) && FirstHitFrom(d, cs, i + 1) == Some(k)
    ensures FirstHitFrom(d, cs, i) == Some(k)
  {
  }

  /** When the three files of the chain are all missing, so are the first three candidates. */
  lemma ChainMissed(w: World, root: string, rel: seq<string>)
    requires var cp := JoinPaths([root] + rel);
      !IsFile(w.disk, cp) && !Exists(w.disk, cp + ".html") && !Exists(w.disk, JoinPaths([cp, "index.html"]))
    ensures var cs := Candidates(w, root, rel); |cs| >= 3 && forall j :: 0 <= j < 3 ==> !Hit(w.disk, cs[j])
  {
    CandidatesShape(w, root, rel);
  }

  /** A request with no segments is always answered with the home page,
      whatever is on disk. */
  lemma HomeWithoutProbing(w: World, segments: Option<seq<string>>)
    requires segments.None? || |segments.value| == 0
    ensures Resolution(w, segments) == Some(HomePage(w))
    ensures forall d :: Resolution(w.(disk := d), segments) == Resolution(w, segments)
  {
  }

  /** Every page the lookup gives belongs to the archive it looked in, and
      is a file that is there. */
  lemma LookupFound(w: World, root: string, key: SiteKey, rel: seq<string>)
    ensures var r := Lookup(w, root, key, rel);
      r.Some? ==> r.value.siteKey == key && Exists(w.disk, r.value.filePath)
  {
  }

  /** Any page served for a non-empty request is a file on disk, from the
      panel archive exactly when the first segment is `panel`. */
  lemma ResolutionFound(w: World, segs: seq<string>)
    requires |segs| > 0
    ensures var r := Resolution(w, Some(segs));
      r.Some? ==> Exists(w.disk, r.value.filePath) && (r.value.siteKey == PanelSite <==> segs[0] == "panel")
  {
    var arch := Archive(w, segs);
    LookupFound(w, arch.0, arch.1, arch.2);
  }

  /** The resolver gives up exactly when the request has segments, the
      archive's index page is not the answer and every candidate misses. */
  lemma NotFoundIffAllMiss(w: World, segs: seq<string>)
    requires |segs| > 0
    ensures var arch := Archive(w, segs);
      var cs := Candidates(w, arch.0, arch.2);
      Resolution(w, Some(segs)).None? <==>
        !(|arch.2| == 0 && Exists(w.disk, JoinPaths([arch.0, "index.html"])))
        && forall j :: 0 <= j < |cs| ==> !Hit(w.disk, cs[j])
  {
    var arch := Archive(w, segs);
    var cs := Candidates(w, arch.0, arch.2);
    if forall j :: 0 <= j < |cs| ==> !Hit(w.disk, cs[j]) {
      FirstHitNone(w.disk, cs);
    }
  }

  /** The candidates below an archive: three for several segments (or none),
      four for one segment, the fourth being the segment's `.html` file
      directly below the root under the segment's own route key. */
  lemma CandidatesShape(w: World, root: string, rel: seq<string>)
    ensures var cs := Candidates(w, root, rel);
      var cp := JoinPaths([root] + rel);
      && |cs| == (if |rel| == 1 then 4 else 3)
      && cs[0] == Candidate(cp, true, SanitizeRouteKey(Join(rel, "/")))
      && cs[1] == Candidate(cp + ".html", false, SanitizeRouteKey(Join(rel, "/")))
      && cs[2] == Candidate(JoinPaths([cp, "index.html"]), false, SanitizeRouteKey(Join(rel, "/")))
      && (|rel| == 1 ==> cs[3] == Candidate(JoinPaths([root, rel[0] + ".html"]), false, SanitizeRouteKey(rel[0])))
  {
    var ch := Chain(w, root, rel);
    if |rel| == 1 {
      var cs := ch + [Candidate(JoinPaths([root, rel[0] + ".html"]), false, SanitizeRouteKey(rel[0]))];
      assert Candidates(w, root, rel) == cs;
      assert cs[0] == ch[0] && cs[1] == ch[1] && cs[2] == ch[2];
    }
  }

  /** Every route key the resolver hands out is free of white space. */
  lemma RouteKeyNoSpace(w: World, segments: Option<seq<string>>)
    ensures var r := Resolution(w, segments);
      r.Some? ==> forall i :: 0 <= i < |r.value.routeKey| ==> !IsSpace(r.value.routeKey[i])
  {
    var safe := if segments.Some? then segments.value else [];
    if |safe| > 0 {
      var arch := Archive(w, safe);
      LookupRouteKey(w, arch.0, arch.1, arch.2);
    } else {
      var key := "home";
      assert forall i :: 0 <= i < |key| ==> !IsSpace(key[i]);
    }
  }

  lemma LookupRouteKey(w: World, root: string, key: SiteKey, rel: seq<string>)
    ensures var r := Lookup(w, root, key, rel);
      r.Some? ==> forall i :: 0 <= i < |r.value.routeKey| ==> !IsSpace(r.value.routeKey[i])
  {
    var index := JoinPaths([root, "index.html"]);
    if |rel| == 0 && Exists(w.disk, index) {
      var k := "panel";
      assert forall i :: 0 <= i < |k| ==> !IsSpace(k[i]);
    } else {
      var cs := Candidates(w, root, rel);
      CandidatesShape(w, root, rel);
      var hit := FirstHit(w.disk, cs);
      if hit.Some? {
        if hit.value < 3 {
          assert cs[hit.value].routeKey == SanitizeRouteKey(Join(rel, "/"));
        }
      }
    }
  }
}

=== FILE: site.dfy ===
/** The site's constants: its names, its canonical domains, the table that maps
    the old brand's hosts onto them, and the stylesheets of the archive. */
module Site {
  import opened Text

  const SiteName: string := "Website Bama"
  const SiteNameFa: string := "\U{0648}\U{0628}\U{0633}\U{0627}\U{06cc}\U{062a}\U{0647} \U{0628}\U{0627} \U{0645}\U{0627}"

  // The canonical domains.
  const Primary: string := "websithebama.com"
  const Panel: string := "panel.websithebama.com"
  const Api: string := "api.websithebama.com"
  const Cdn: string := "cdn.websithebama.com"

  const Domains: set<string> := {Primary, Panel, Api, Cdn}

  /** The domain the old brand used. */
  const OldPrimary: string := "mihanshop.com"

  /** Host names of the old brand and the canonical host each one stands for. */
  const LegacyHostAliases: map<string, string> := map[
    Primary := Primary,
    Panel := Panel,
    Api := Api,
    Cdn := Cdn,
    "mihanshop.com" := Primary,
    "panel.mihanshop.com" := Panel,
    "api.mihanshop.com" := Api,
    "cdn.mihanshop.com" := Cdn
  ]

  const LegacyPublicPrefix: string := "/legacy/" + Primary

  const LegacyBuildStyles: seq<string> := [
    "app-f420f844.css",
    "app-27f4bc3a.css",
    "app-blog-05db8ef3.css",
    "blog-938c2921.css",
    "home-1e5cc67e.css",
    "faq-3fc42301.css",
    "marketplace-95c948b0.css",
    "package-52b2b5ba.css",
    "restaurant-27b1a8a7.css",
    "theme-sugar-26086724.css",
    "Certificate-5f8be1f2.css",
    "CounselingRequest-8054b46d.css",
    "LoginModal-846ef44f.css",
    "app-setup-84e934e8.css"
  ]

  const SwiperStylesheet: string := LegacyPublicPrefix + "/static/css/swiper-bundle.min.css"

  /** Each build stylesheet under the archive's `/build/assets/`, then the
      carousel stylesheet. */
  function LegacyStylesheets(): seq<string> {
    seq(|LegacyBuildStyles|, i requires 0 <= i < |LegacyBuildStyles| => LegacyPublicPrefix + "/build/assets/" + LegacyBuildStyles[i])
    + [SwiperStylesheet]
  }

  const LegacyFontUrl: string := LegacyPublicPrefix + "/static/fonts/yekanPlus/YEKANPLUS.woff2"

  /** Every canonical domain stands for itself. */
  lemma AliasesFixDomains()
    ensures forall d :: d in Domains ==> d in LegacyHostAliases && LegacyHostAliases[d] == d
  {
  }

  /** `h` is a host of the old brand that the table maps to the canonical
      host with the same sub-domain in front. */
  predicate KeepsSubdomain(h: string) {
    && h in LegacyHostAliases
    && EndsWith(h, OldPrimary)
    && LegacyHostAliases[h] == h[..|h| - |OldPrimary|] + Primary
  }

  /** Each host of the old brand maps to the canonical host with the same
      sub-domain in front. */
  lemma AliasesKeepSubdomain()
    ensures forall h :: h in LegacyHostAliases && h !in Domains ==> KeepsSubdomain(h)
  {
    forall h | h in LegacyHostAliases && h !in Domains ensures KeepsSubdomain(h) {
      if h == "mihanshop.com" {
        KeepsBare();
      } else if h == "panel.mihanshop.com" {
        KeepsPanel();
      } else if h == "api.mihanshop.com" {
        KeepsApi();
      } else {
        KeepsCdn();
      }
    }
  }

  /** The old brand's bare domain and its `panel.`, `api.` and `cdn.`
      sub-domains are all in the table. */
  lemma OldHostsListed()
    ensures forall sub :: sub in {"", "panel.", "api.", "cdn."} ==> KeepsSubdomain(sub + OldPrimary)
  {
    forall sub | sub in {"", "panel.", "api.", "cdn."} ensures KeepsSubdomain(sub + OldPrimary) {
      if sub == "" {
        assert sub + OldPrimary == "mihanshop.com";
        KeepsBare();
      } else if sub == "panel." {
        assert sub + OldPrimary == "panel.mihanshop.com";
        KeepsPanel();
      } else if sub == "api." {
        assert sub + OldPrimary == "api.mihanshop.com";
        KeepsApi();
      } else {
        assert sub + OldPrimary == "cdn.mihanshop.com";
        KeepsCdn();
      }
    }
  }

  lemma KeepsBare() ensures KeepsSubdomain("mihanshop.com") {
    assert "" + OldPrimary == "mihanshop.com";
    KeepsFrom("");
  }

  lemma KeepsPanel() ensures KeepsSubdomain("panel.mihanshop.com") {
    assert "panel." + OldPrimary == "panel.mihanshop.com";
    assert "panel." + Primary == Panel;
    KeepsFrom("panel.");
  }

  lemma KeepsApi() ensures KeepsSubdomain("api.mihanshop.com") {
    assert "api." + OldPrimary == "api.mihanshop.com";
    assert "api." + Primary == Api;
    KeepsFrom("api.");
  }

  lemma KeepsCdn() ensures KeepsSubdomain("cdn.mihanshop.com") {
    assert "cdn." + OldPrimary == "cdn.mihanshop.com";
    assert "cdn." + Primary == Cdn;
    KeepsFrom("cdn.");
  }

  /** A host of the old brand the table maps to the same sub-domain of the
      primary domain keeps its sub-domain. */
  lemma KeepsFrom(sub: string)
    requires sub + OldPrimary in LegacyHostAliases
    requires LegacyHostAliases[sub + OldPrimary] == sub + Primary
    ensures KeepsSubdomain(sub + OldPrimary)
  {
    var h := sub + OldPrimary;
    assert h[|h| - |OldPrimary|..] == OldPrimary;
    assert h[..|h| - |OldPrimary|] == sub;
  }

  /** The table only ever answers with a canonical domain. */
  lemma AliasValuesAreDomains()
    ensures forall h :: h in LegacyHostAliases ==> LegacyHostAliases[h] in Domains
  {
  }

  /** The public prefix is `/legacy/` followed by the primary domain. */
  lemma PublicPrefixShape()
    ensures StartsWith(LegacyPublicPrefix, "/legacy/")
    ensures LegacyPublicPrefix[|"/legacy/"|..] == Primary
  {
  }

  /** One stylesheet per build file, in order under `/build/assets/`, and the
      carousel stylesheet last. */
  lemma StylesheetsShape()
    ensures |LegacyStylesheets()| == |LegacyBuildStyles| + 1 == 15
    ensures forall i :: 0 <= i < |LegacyBuildStyles| ==>
      LegacyStylesheets()[i] == LegacyPublicPrefix + "/build/assets/" + LegacyBuildStyles[i]
    ensures LegacyStylesheets()[|LegacyBuildStyles|] == LegacyPublicPrefix + "/static/css/swiper-bundle.min.css"
  {
  }

  /** Every stylesheet lies under the public prefix. */
  lemma StylesheetsUnderPrefix()
    ensures forall i :: 0 <= i < |LegacyStylesheets()| ==> StartsWith(LegacyStylesheets()[i], LegacyPublicPrefix)
  {
    StylesheetsShape();
    var all := LegacyStylesheets();
    forall i | 0 <= i < |all| ensures StartsWith(all[i], LegacyPublicPrefix) {
      var rest := if i < |LegacyBuildStyles| then "/build/assets/" + LegacyBuildStyles[i] else "/static/css/swiper-bundle.min.css";
      assert all[i] == LegacyPublicPrefix + rest;
      assert all[i][..|LegacyPublicPrefix|] == LegacyPublicPrefix;
    }
  }
}

=== FILE: srcset.dfy ===
/** The `srcset` rewrite of images and picture sources: the list is split on
    commas, and each image candidate keeps its descriptor while its URL is
    localised (a simplified reading of section 4.8.4.2 of the HTML Living
    Standard: a URL, white space, and one descriptor). */
module Srcset {
  import opened Text
  import opened Patterns
  import opened Env
  import opened Routes
  import opened Assets

  /** The first white-space character in `t` from `k` on, or the end. */
  function SpaceFrom(t: string, k: nat): (i: nat)
    requires k <= |t|
    decreases |t| - k
    ensures k <= i <= |t|
    ensures i < |t| ==> IsSpace(t[i])
    ensures forall j :: k <= j < i ==> !IsSpace(t[j])
  {
    if k == |t| || IsSpace(t[k]) then k else SpaceFrom(t, k + 1)
  }

  /** `t.split(/\s+/, 2)`: the text before the first white-space run and,
      when there is such a run, the text after it up to the next one. */
  function FirstTwoWords(t: string): (r: (string, Option<string>))
    ensures forall j :: 0 <= j < |r.0| ==> !IsSpace(r.0[j])
  {
    var i := SpaceFrom(t, 0);
    if i == |t| then (t, None)
    else
      var j := i + SpaceRun(t[i..]);
      var k := SpaceFrom(t, j);
      (t[..i], Some(t[j..k]))
  }

  /** One image candidate: its URL localised, then its descriptor, if it
      has one, after a single space. */
  function FixEntry(w: World, entry: string, pageDir: string, key: SiteKey): string {
    var words := FirstTwoWords(Trim(entry));
    var fixed := ToLocalAsset(w, words.0, pageDir, key);
    if words.1.Some? && words.1.value != "" then fixed + " " + words.1.value else fixed
  }

  function FixEntries(w: World, parts: seq<string>, pageDir: string, key: SiteKey): (r: seq<string>)
    ensures |r| == |parts|
    ensures forall k :: 0 <= k < |parts| ==> r[k] == FixEntry(w, parts[k], pageDir, key)
  {
    if |parts| == 0 then [] else [FixEntry(w, parts[0], pageDir, key)] + FixEntries(w, parts[1..], pageDir, key)
  }

  /** The rewritten list, joined with `, `. */
  function FixSrcset(w: World, srcset: string, pageDir: string, key: SiteKey): (r: string)
    ensures ',' !in srcset ==> r == FixEntry(w, srcset, pageDir, key)
  {
    var parts := Split(srcset, ',');
    assert ',' !in srcset ==> parts == [srcset] by {
      if ',' !in srcset {
        SplitNoSeparator(srcset, ',');
      }
    }
    Join(FixEntries(w, parts, pageDir, key), ", ")
  }

  /** `SpaceFrom` stops at the first white space from `k` on. */
  lemma {:induction false} SpaceFromAt(t: string, k: nat, i: nat)
    requires k <= i <= |t| && (i < |t| ==> IsSpace(t[i]))
    requires forall j :: k <= j < i ==> !IsSpace(t[j])
    ensures SpaceFrom(t, k) == i
    decreases i - k
  {
    if k < i {
      SpaceFromAt(t, k + 1, i);
    }
  }

  /** The two words of `t`, by where the white space between them starts
      and ends. */
  lemma WordsAt(t: string, i: nat, j: nat)
    requires i < j < |t|
    requires forall m :: 0 <= m < i ==> !IsSpace(t[m])
    requires forall m :: i <= m < j ==> IsSpace(t[m])
    requires forall m :: j <= m < |t| ==> !IsSpace(t[m])
    ensures FirstTwoWords(t) == (t[..i], Some(t[j..]))
  {
    SpaceFromAt(t, 0, i);
    var rest := t[i..];
    assert rest[..j - i] == t[i..j];
    assert AllSpace(t[i..j]);
    assert rest[j - i] == t[j];
    RunUnique(rest, j - i);
    assert i + SpaceRun(t[i..]) == j;
    SpaceFromAt(t, j, |t|);
    assert t[j..|t|] == t[j..];
  }

  /** A word with white space and a second word after it splits into the
      two words. */
  lemma TwoWords(u: string, sep: string, d: string)
    requires forall j :: 0 <= j < |u| ==> !IsSpace(u[j])
    requires |sep| > 0 && AllSpace(sep)
    requires |d| > 0 && forall j :: 0 <= j < |d| ==> !IsSpace(d[j])
    ensures FirstTwoWords(u + sep + d) == (u, Some(d))
  {
    var t := u + sep + d;
    var j := |u| + |sep|;
    assert forall m :: 0 <= m < |u| ==> t[m] == u[m];
    assert forall m :: |u| <= m < j ==> t[m] == sep[m - |u|];
    assert forall m :: j <= m < |t| ==> t[m] == d[m - j];
    WordsAt(t, |u|, j);
    assert t[..|u|] == u;
    assert t[j..] == d;
  }

  /** A candidate with a descriptor keeps it: the URL is localised and the
      descriptor follows after one space. */
  lemma EntryKeepsDescriptor(w: World, u: string, sep: string, d: string, pageDir: string, key: SiteKey)
    requires |u| > 0 && forall j :: 0 <= j < |u| ==> !IsSpace(u[j])
    requires |sep| > 0 && AllSpace(sep)
    requires |d| > 0 && forall j :: 0 <= j < |d| ==> !IsSpace(d[j])
    ensures FixEntry(w, u + sep + d, pageDir, key) == ToLocalAsset(w, u, pageDir, key) + " " + d
  {
    var t := u + sep + d;
    assert t[0] == u[0] && t[|t| - 1] == d[|d| - 1];
    TrimKeeps(t);
    TwoWords(u, sep, d);
  }

  /** A candidate without a descriptor is its localised URL alone. */
  lemma EntryWithoutDescriptor(w: World, u: string, pageDir: string, key: SiteKey)
    requires forall j :: 0 <= j < |u| ==> !IsSpace(u[j])
    ensures FixEntry(w, u, pageDir, key) == ToLocalAsset(w, u, pageDir, key)
  {
    if |u| > 0 {
      assert !IsSpace(u[0]) && !IsSpace(u[|u| - 1]);
    }
    TrimKeeps(u);
    NoSpaceOneWord(u);
    assert FirstTwoWords(Trim(u)) == (u, None);
  }

  /** A text without white space is one word. */
  lemma NoSpaceOneWord(u: string)
    requires forall j :: 0 <= j < |u| ==> !IsSpace(u[j])
    ensures FirstTwoWords(u) == (u, None)
  {
    assert SpaceFrom(u, 0) == |u|;
  }

  /** The first candidate is rewritten on its own, and the rest of the list
      after the first comma in turn. */
  lemma FirstEntry(w: World, a: string, b: string, pageDir: string, key: SiteKey)
    requires ',' !in a
    ensures FixSrcset(w, a + "," + b, pageDir, key) == FixEntry(w, a, pageDir, key) + ", " + FixSrcset(w, b, pageDir, key)
  {
    var s := a + "," + b;
    assert s[..|a|] == a && s[|a|] == ',' && s[|a| + 1..] == b;
    SplitFirstPiece(s, ',', |a|);
    var parts := Split(s, ',');
    var fixed := FixEntries(w, parts, pageDir, key);
    assert fixed[1..] == FixEntries(w, parts[1..], pageDir, key);
  }
}

=== FILE: styleurls.dfy ===
/** The URL rewrite of inline styles: every `url(...)` gets the new logo
    when its target looks like a logo, and the localised asset URL
    otherwise. This is the case-sensitive regular expression
    `url\(([^)]+)\)` with the `g` flag. */
module StyleUrls {
  import opened Text
  import opened Env
  import opened Routes
  import opened Logo
  import opened Assets

  /** What a logo's URL becomes. */
  const LogoUrl: string := "url(/Logo.png)"

  /** The greedy `[^)]+` ends at the first `)` from `k` on, or at the end. */
  function CloseFrom(s: string, k: nat): (e: nat)
    requires k <= |s|
    decreases |s| - k
    ensures k <= e <= |s|
    ensures e < |s| ==> s[e] == ')'
  {
    if k == |s| || s[k] == ')' then k else CloseFrom(s, k + 1)
  }

  /** No `)` from `k` up to `e`, and `e` is where `CloseFrom` stops. */
  lemma {:induction false} CloseFromSpec(s: string, k: nat)
    requires k <= |s|
    decreases |s| - k
    ensures forall r :: k <= r < CloseFrom(s, k) ==> s[r] != ')'
  {
    if k < |s| && s[k] != ')' {
      CloseFromSpec(s, k + 1);
    }
  }

  /** A match at the start of `s`: `url(`, at least one character that is
      not `)`, and the `)` at index `e`. The engine cannot backtrack into
      another: a shorter run would have to be followed by a `)`. */
  function UrlAt(s: string): (r: Option<nat>)
    ensures r.Some? ==> 4 < r.value < |s|
  {
    if !StartsWith(s, "url(") then None
    else
      var e := CloseFrom(s, 4);
      if 4 < e < |s| then Some(e) else None
  }

  /** A `url(` token at the start of `s`, closed at index `e` with no `)`
      before it and something in between. */
  predicate UrlToken(s: string, e: nat) {
    StartsWith(s, "url(") && 4 < e < |s| && s[e] == ')' && forall r :: 4 <= r < e ==> s[r] != ')'
  }

  /** `UrlAt` finds exactly the token at the start of `s`, and nothing when
      there is none. */
  lemma UrlAtSpec(s: string, e: nat)
    ensures UrlAt(s) == Some(e) <==> UrlToken(s, e)
  {
    if StartsWith(s, "url(") {
      CloseFromSpec(s, 4);
    }
  }

  /** `raw` with every `'` and `"` removed. */
  function Unquote(raw: string): (r: string)
    ensures |r| <= |raw|
    ensures forall i :: 0 <= i < |r| ==> r[i] != '\'' && r[i] != '"'
  {
    if |raw| == 0 then ""
    else if raw[0] == '\'' || raw[0] == '"' then Unquote(raw[1..])
    else [raw[0]] + Unquote(raw[1..])
  }

  /** Removing quotes keeps a text without quotes as it is. */
  lemma {:induction false} UnquoteKeeps(raw: string)
    requires forall i :: 0 <= i < |raw| ==> raw[i] != '\'' && raw[i] != '"'
    ensures Unquote(raw) == raw
  {
    if |raw| > 0 {
      assert raw == [raw[0]] + raw[1..];
      UnquoteKeeps(raw[1..]);
    }
  }

  /** Removing quotes twice is removing them once. */
  lemma UnquoteIdempotent(raw: string)
    ensures Unquote(Unquote(raw)) == Unquote(raw)
  {
    UnquoteKeeps(Unquote(raw));
  }

  /** Quotes around a text are removed, wherever they are. */
  lemma {:induction false} UnquoteAppend(x: string, y: string)
    ensures Unquote(x + y) == Unquote(x) + Unquote(y)
  {
    if |x| > 0 {
      assert (x + y)[0] == x[0] && (x + y)[1..] == x[1..] + y;
      UnquoteAppend(x[1..], y);
    } else {
      assert x + y == y;
    }
  }

  /** The target of a `url(...)`: quotes removed, then trimmed. */
  function CleanUrl(raw: string): (r: string)
    ensures forall i :: 0 <= i < |r| ==> r[i] != '\'' && r[i] != '"'
  {
    var u := Unquote(raw);
    TrimSpec(u);
    Trim(u)
  }

  /** The replacement of one `url(...)` whose inside is `raw`. */
  function FixUrl(w: World, raw: string, pageDir: string, key: SiteKey): (r: string)
    ensures IsLogoUrl(Some(CleanUrl(raw))) ==> r == LogoUrl
    ensures !IsLogoUrl(Some(CleanUrl(raw))) ==> r == "url(" + ToLocalAsset(w, CleanUrl(raw), pageDir, key) + ")"
  {
    var cleaned := CleanUrl(raw);
    if IsLogoUrl(Some(cleaned)) then LogoUrl
    else "url(" + ToLocalAsset(w, cleaned, pageDir, key) + ")"
  }

  /** `fixStyleUrls`: every match, leftmost first and without overlap,
      replaced. */
  function FixStyleUrls(w: World, s: string, pageDir: string, key: SiteKey): (r: string)
    ensures |s| == 0 ==> r == s
    decreases |s|
  {
    if |s| == 0 then ""
    else
      match UrlAt(s)
      case Some(e) => FixUrl(w, s[4..e], pageDir, key) + FixStyleUrls(w, s[e + 1..], pageDir, key)
      case None => [s[0]] + FixStyleUrls(w, s[1..], pageDir, key)
  }

  /** A style with no complete `url(...)` anywhere is left alone; this
      includes a `url()` with nothing inside and one that is never closed. */
  lemma {:induction false} NoUrlKeeps(w: World, s: string, pageDir: string, key: SiteKey)
    requires forall i :: 0 <= i <= |s| ==> UrlAt(s[i..]).None?
    ensures FixStyleUrls(w, s, pageDir, key) == s
    decreases |s|
  {
    if |s| > 0 {
      assert s[0..] == s;
      forall i | 0 <= i <= |s[1..]| ensures UrlAt(s[1..][i..]).None? {
        assert s[1..][i..] == s[i + 1..];
      }
      NoUrlKeeps(w, s[1..], pageDir, key);
    }
  }

  /** `url()` with nothing inside is not a match, whatever follows. */
  lemma EmptyUrlNoMatch(y: string)
    ensures UrlAt("url()" + y).None?
  {
    var s := "url()" + y;
    assert s[4] == ')';
  }

  /** A `url(` that is never closed is not a match. */
  lemma UnclosedNoMatch(s: string)
    requires forall i :: 0 <= i < |s| ==> s[i] != ')'
    ensures UrlAt(s).None?
  {
  }

  /** A text with no `url(` in it has no match anywhere. */
  lemma NoTokenNoUrl(s: string)
    requires forall i :: 0 <= i <= |s| ==> !StartsWith(s[i..], "url(")
    ensures forall i :: 0 <= i <= |s| ==> UrlAt(s[i..]).None?
  {
  }

  /** A whole `url(...)` and the text after it: the token is replaced and
      the rest rewritten in turn. */
  lemma FixToken(w: World, raw: string, y: string, pageDir: string, key: SiteKey)
    requires |raw| > 0 && forall i :: 0 <= i < |raw| ==> raw[i] != ')'
    ensures FixStyleUrls(w, "url(" + raw + ")" + y, pageDir, key)
      == FixUrl(w, raw, pageDir, key) + FixStyleUrls(w, y, pageDir, key)
  {
    var s := "url(" + raw + ")" + y;
    var e := 4 + |raw|;
    assert s[..4] == "url(";
    forall r | 4 <= r < e ensures s[r] != ')' {
      assert s[r] == raw[r - 4];
    }
    assert UrlToken(s, e);
    UrlAtSpec(s, e);
    assert s[4..e] == raw;
    assert s[e + 1..] == y;
  }

  /** A text in single quotes loses its quotes. */
  lemma UnquoteWrapped(x: string)
    requires forall i :: 0 <= i < |x| ==> x[i] != '\'' && x[i] != '"'
    ensures Unquote("'" + x + "'") == x
  {
    UnquoteAppend("'" + x, "'");
    UnquoteAppend("'", x);
    UnquoteKeeps(x);
    assert Unquote("'") == "";
  }

  /** A logo file name in quotes, as a style would write it. */
  const QuotedLogoFile: string := "'logo.png'"

  lemma QuotedLogoFileShape()
    ensures |QuotedLogoFile| > 0 && forall i :: 0 <= i < |QuotedLogoFile| ==> QuotedLogoFile[i] != ')'
  {
  }

  /** Quotes around a file name are dropped. */
  lemma QuotedName()
    ensures CleanUrl(QuotedLogoFile) == "logo.png"
  {
    var name := "logo.png";
    assert QuotedLogoFile == "'" + name + "'";
    UnquoteWrapped(name);
    TrimKeeps(name);
  }

  /** `logo.png` looks like a logo. */
  lemma LogoFileIsLogo()
    ensures IsLogoUrl(Some("logo.png"))
  {
    var name := "logo.png";
    assert Lower(name) == name;
    assert LogoKeywords[0] == "logo";
    ContainsAt(name, "logo", 0);
    assert LooksLikeLogoText(Some(name));
  }

  /** A `url(...)` whose target looks like a logo becomes the new logo. */
  lemma LogoToken(w: World, raw: string, pageDir: string, key: SiteKey)
    requires |raw| > 0 && forall i :: 0 <= i < |raw| ==> raw[i] != ')'
    requires IsLogoUrl(Some(CleanUrl(raw)))
    ensures FixStyleUrls(w, "url(" + raw + ")", pageDir, key) == LogoUrl
  {
    FixToken(w, raw, "", pageDir, key);
    assert "url(" + raw + ")" + "" == "url(" + raw + ")";
  }

  /** A quoted logo file becomes the new logo. */
  lemma QuotedLogo(w: World, pageDir: string, key: SiteKey)
    ensures FixStyleUrls(w, "url(" + QuotedLogoFile + ")", pageDir, key) == LogoUrl
  {
    QuotedLogoFileShape();
    QuotedName();
    LogoFileIsLogo();
    LogoToken(w, QuotedLogoFile, pageDir, key);
  }
}

=== FILE: text.dfy ===
/** Character and string primitives, with the JavaScript semantics that the
    rehosting engine and the contact endpoint rely on. */
module Text {

  /** A code point that JavaScript's `\s` matches and `String.prototype.trim`
      removes: the WhiteSpace and LineTerminator productions of ECMAScript. */
  predicate IsSpace(c: char) {
    || c == '\t' || c == '\n' || c == '\U{B}' || c == '\U{C}' || c == '\r' || c == ' '
    || c == '\U{A0}' || c == '\U{1680}' || ('\U{2000}' <= c <= '\U{200A}')
    || c == '\U{2028}' || c == '\U{2029}' || c == '\U{202F}' || c == '\U{205F}'
    || c == '\U{3000}' || c == '\U{FEFF}'
  }

  /** ASCII lower-casing of one character; every other character is kept. */
  function LowerChar(c: char): char {
    if 'A' <= c <= 'Z' then (c as int + 32) as char else c
  }

  function Lower(s: string): (r: string)
    ensures |r| == |s|
    ensures forall i :: 0 <= i < |s| ==> r[i] == LowerChar(s[i])
  {
    seq(|s|, i requires 0 <= i < |s| => LowerChar(s[i]))
  }

  /** `s` is the lower-case `t`, ignoring the ASCII case of `s`. */
  predicate EqualsLower(s: string, t: string) {
    |s| == |t| && forall i :: 0 <= i < |s| ==> LowerChar(s[i]) == t[i]
  }

  /** Comparing ignoring case is comparing the lower-cased text. */
  lemma EqualsLowerSpec(s: string, t: string)
    ensures EqualsLower(s, t) <==> Lower(s) == t
  {
  }

  /** Two characters are equal, ignoring ASCII case when `ci` holds. */
  predicate CharEq(ci: bool, a: char, b: char) {
    if ci then LowerChar(a) == LowerChar(b) else a == b
  }

  predicate StartsWith(s: string, p: string) {
    |p| <= |s| && s[..|p|] == p
  }

  predicate EndsWith(s: string, p: string) {
    |p| <= |s| && s[|s| - |p|..] == p
  }

  /** `s.includes(p)`, computed left to right. */
  predicate Contains(s: string, p: string)
    decreases |s|
  {
    StartsWith(s, p) || (|s| > 0 && Contains(s[1..], p))
  }

  lemma {:induction false} ContainsAt(s: string, p: string, i: nat)
    requires i + |p| <= |s| && s[i..i + |p|] == p
    ensures Contains(s, p)
    decreases i
  {
    if i > 0 {
      assert s[1..][i - 1..i - 1 + |p|] == s[i..i + |p|];
      ContainsAt(s[1..], p, i - 1);
    }
  }

  /** Where `Contains` holds, `p` occurs at some index. */
  lemma {:induction false} ContainsWitness(s: string, p: string) returns (i: nat)
    requires Contains(s, p)
    ensures i + |p| <= |s| && s[i..i + |p|] == p
    decreases |s|
  {
    if StartsWith(s, p) {
      i := 0;
    } else {
      var j := ContainsWitness(s[1..], p);
      assert s[1..][j..j + |p|] == s[j + 1..j + 1 + |p|];
      i := j + 1;
    }
  }

  /** A text that contains `p` still does with more text around it. */
  lemma ContainsWithin(x: string, y: string, z: string, p: string)
    requires Contains(y, p)
    ensures Contains(x + y + z, p)
  {
    var i := ContainsWitness(y, p);
    var s := x + y + z;
    assert s[|x| + i..|x| + i + |p|] == y[i..i + |p|];
    ContainsAt(s, p, |x| + i);
  }

  /** Lower-casing twice is lower-casing once. */
  lemma LowerIdempotent(s: string)
    ensures Lower(Lower(s)) == Lower(s)
  {
  }

  /** Lower-casing works character by character. */
  lemma LowerAppend(x: string, y: string)
    ensures Lower(x + y) == Lower(x) + Lower(y)
  {
  }

  /** `s` starts with `p`, ignoring the ASCII case of `s`: for a lower-case
      `p`, what a regular expression with the `i` flag matches. */
  predicate StartsLower(s: string, p: string) {
    |p| <= |s| && forall k :: 0 <= k < |p| ==> LowerChar(s[k]) == p[k]
  }

  /** `s.replace(/^p/, '')` for a literal `p`. */
  function DropPrefix(s: string, p: string): string {
    if StartsWith(s, p) then s[|p|..] else s
  }

  /** `s.replace(/p$/, '')` for a literal `p`. */
  function DropSuffix(s: string, p: string): string {
    if EndsWith(s, p) then s[..|s| - |p|] else s
  }

  function TrimStart(s: string): (r: string)
    ensures |r| <= |s| && r == s[|s| - |r|..]
  {
    if |s| > 0 && IsSpace(s[0]) then TrimStart(s[1..]) else s
  }

  function TrimEnd(s: string): (r: string)
    ensures |r| <= |s| && r == s[..|r|]
  {
    if |s| > 0 && IsSpace(s[|s| - 1]) then TrimEnd(s[..|s| - 1]) else s
  }

  /** `String.prototype.trim`. */
  function Trim(s: string): string {
    TrimStart(TrimEnd(s))
  }

  predicate AllSpace(s: string) {
    forall i :: 0 <= i < |s| ==> IsSpace(s[i])
  }

  /** Trim removes exactly a run of white space at each end: the input is the
      result framed by two all-space strings, and the result neither starts nor
      ends with white space. */
  lemma {:induction false} TrimSpec(s: string)
    ensures exists a, b :: AllSpace(a) && AllSpace(b) && s == a + Trim(s) + b
    ensures Trim(s) == [] || (!IsSpace(Trim(s)[0]) && !IsSpace(Trim(s)[|Trim(s)| - 1]))
  {
    var e := TrimEnd(s);
    TrimEndSpec(s);
    TrimStartSpec(e);
    var t := TrimStart(e);
    assert Trim(s) == t;
    Framed(s, e, t);
  }

  /** `t` is a tail of `e`, itself a head of `s`, and only white space was cut
      off on either side. */
  lemma Framed(s: string, e: string, t: string)
    requires |e| <= |s| && e == s[..|e|] && AllSpace(s[|e|..])
    requires e == [] || !IsSpace(e[|e| - 1])
    requires |t| <= |e| && t == e[|e| - |t|..] && AllSpace(e[..|e| - |t|])
    ensures exists a, b :: AllSpace(a) && AllSpace(b) && s == a + t + b
    ensures t == [] || !IsSpace(t[|t| - 1])
  {
    var b := s[|e|..];
    var a := e[..|e| - |t|];
    assert s == e + b;
    assert e == a + t;
    assert s == a + t + b;
    if t != [] {
      assert t[|t| - 1] == e[|e| - 1];
    }
  }

  lemma {:induction false} TrimEndSpec(s: string)
    ensures AllSpace(s[|TrimEnd(s)|..])
    ensures TrimEnd(s) == [] || !IsSpace(TrimEnd(s)[|TrimEnd(s)| - 1])
  {
    if |s| > 0 && IsSpace(s[|s| - 1]) {
      TrimEndSpec(s[..|s| - 1]);
      assert s[|TrimEnd(s)|..] == s[..|s| - 1][|TrimEnd(s)|..] + [s[|s| - 1]];
    }
  }

  lemma {:induction false} TrimStartSpec(s: string)
    ensures AllSpace(s[..|s| - |TrimStart(s)|])
    ensures TrimStart(s) == [] || !IsSpace(TrimStart(s)[0])
  {
    if |s| > 0 && IsSpace(s[0]) {
      var rest := s[1..];
      var t := TrimStart(rest);
      TrimStartSpec(rest);
      assert TrimStart(s) == t;
      var k := |rest| - |t|;
      assert AllSpace(rest[..k]);
      SpaceHead(s, k + 1);
    } else {
      assert TrimStart(s) == s;
      assert s[..|s| - |TrimStart(s)|] == [];
    }
  }

  /** A white-space character in front of a run of white space. */
  lemma SpaceHead(s: string, k: nat)
    requires 0 < k <= |s| && IsSpace(s[0]) && AllSpace(s[1..][..k - 1])
    ensures AllSpace(s[..k])
  {
    forall i | 0 <= i < k ensures IsSpace(s[..k][i]) {
      if i > 0 {
        assert s[..k][i] == s[1..][..k - 1][i - 1];
      }
    }
  }

  /** Trimming twice changes nothing more. */
  lemma {:induction false} TrimIdempotent(s: string)
    ensures Trim(Trim(s)) == Trim(s)
  {
    TrimSpec(s);
    var t := Trim(s);
    assert TrimEnd(t) == t;
    assert TrimStart(t) == t;
  }

  /** A text that neither starts nor ends with white space is its own trim. */
  lemma TrimKeeps(s: string)
    requires |s| == 0 || (!IsSpace(s[0]) && !IsSpace(s[|s| - 1]))
    ensures Trim(s) == s
  {
    assert TrimEnd(s) == s;
  }

  /** `s.split(c)` for a one-character separator: the pieces between the
      separators, in order; there is always at least one piece. */
  function Split(s: string, c: char): (r: seq<string>)
    ensures |r| >= 1
    ensures forall k :: 0 <= k < |r| ==> c !in r[k]
  {
    if |s| == 0 then [""]
    else if s[0] == c then [""] + Split(s[1..], c)
    else
      var rest := Split(s[1..], c);
      [[s[0]] + rest[0]] + rest[1..]
  }

  /** `parts.join(sep)`. */
  function Join(parts: seq<string>, sep: string): string {
    if |parts| == 0 then ""
    else if |parts| == 1 then parts[0]
    else parts[0] + sep + Join(parts[1..], sep)
  }

  /** Splitting and joining again on the same separator gives back the input. */
  lemma {:induction false} SplitJoin(s: string, c: char)
    ensures Join(Split(s, c), [c]) == s
  {
    if |s| == 0 {
    } else if s[0] == c {
      SplitJoin(s[1..], c);
      var rest := Split(s[1..], c);
      assert Split(s, c) == [""] + rest;
      assert Join(Split(s, c), [c]) == "" + [c] + Join(rest, [c]);
    } else {
      SplitJoin(s[1..], c);
      var rest := Split(s[1..], c);
      var r := [[s[0]] + rest[0]] + rest[1..];
      assert Split(s, c) == r;
      if |rest| == 1 {
        assert Join(r, [c]) == [s[0]] + rest[0];
      } else {
        assert Join(rest, [c]) == rest[0] + [c] + Join(rest[1..], [c]);
        assert Join(r, [c]) == [s[0]] + rest[0] + [c] + Join(rest[1..], [c]);
      }
    }
  }

  /** A string without the separator splits into itself alone. */
  lemma {:induction false} SplitNoSeparator(s: string, c: char)
    requires c !in s
    ensures Split(s, c) == [s]
  {
    if |s| > 0 {
      assert c !in s[1..];
      SplitNoSeparator(s[1..], c);
      assert [s[0]] + s[1..] == s;
    }
  }

  /** The first piece is the text before the first separator. */
  lemma {:induction false} SplitFirstPiece(s: string, c: char, i: nat)
    requires i < |s| && s[i] == c && c !in s[..i]
    ensures Split(s, c)[0] == s[..i]
    ensures |Split(s, c)| >= 2
    ensures Split(s, c)[1..] == Split(s[i + 1..], c)
  {
    if i > 0 {
      assert c !in s[1..][..i - 1];
      SplitFirstPiece(s[1..], c, i - 1);
      assert s[1..][i..] == s[i + 1..];
    }
  }

  /** A text that starts with a separator-free part and a separator splits
      into that part and the pieces of the rest. */
  lemma SplitAround(a: string, b: string, c: char)
    requires c !in a
    ensures Split(a + [c] + b, c) == [a] + Split(b, c)
  {
    var s := a + [c] + b;
    assert s[..|a|] == a && s[|a|] == c && s[|a| + 1..] == b;
    SplitFirstPiece(s, c, |a|);
    var r := Split(s, c);
    assert r == [r[0]] + r[1..];
  }

  /** The first piece is the longest prefix free of the separator; there is a
      second piece exactly when the separator occurs, and the remaining pieces
      are those of the text after the first separator. */
  lemma {:induction false} SplitHead(s: string, c: char)
    ensures var h := Split(s, c)[0];
      && h <= s && c !in h
      && (|h| < |s| ==> s[|h|] == c)
      && (|Split(s, c)| > 1 <==> c in s)
      && (c in s ==> Split(s, c)[1..] == Split(s[|h| + 1..], c))
    decreases |s|
  {
    if |s| > 0 && s[0] != c {
      SplitHead(s[1..], c);
      var rest := Split(s[1..], c);
      var h := [s[0]] + rest[0];
      assert Split(s, c) == [h] + rest[1..];
      assert s == [s[0]] + s[1..];
      assert c in s <==> c in s[1..];
      if c in s {
        assert s[|h| + 1..] == s[1..][|rest[0]| + 1..];
      }
    } else if |s| > 0 {
      assert Split(s, c) == [""] + Split(s[1..], c);
    }
  }

  /** A character missing from the text is missing from every piece. */
  lemma {:induction false} SplitKeepsOut(s: string, c: char, x: char)
    requires x !in s
    ensures forall k :: 0 <= k < |Split(s, c)| ==> x !in Split(s, c)[k]
    decreases |s|
  {
    if |s| > 0 {
      assert x !in s[1..];
      SplitKeepsOut(s[1..], c, x);
    }
  }

  /** Joining pieces that all miss a character, with a separator that misses
      it too, gives a text that misses it. */
  lemma {:induction false} JoinKeepsOut(parts: seq<string>, sep: string, x: char)
    requires x !in sep && forall k :: 0 <= k < |parts| ==> x !in parts[k]
    ensures x !in Join(parts, sep)
    decreases |parts|
  {
    if |parts| > 1 {
      JoinKeepsOut(parts[1..], sep, x);
    }
  }

  /** The number of UTF-16 code units JavaScript's `length` counts: one per code
      point in the Basic Multilingual Plane, two for every other one. */
  function Utf16Length(s: string): (n: nat)
    ensures |s| <= n <= 2 * |s|
  {
    if |s| == 0 then 0 else (if s[0] as int > 0xFFFF then 2 else 1) + Utf16Length(s[1..])
  }
}

=== FILE: theme.dfy ===
/** The colour rewrite: the old theme's amber and green hex colours become
    the new theme's three blues, ignoring case, in a fixed order. */
module Theme {
  import opened Text
  import opened Patterns

  const Blue: string := "#2d6fda"
  const DeepBlue: string := "#1d56b8"
  const LightBlue: string := "#9fc6ff"

  /** Every match of the colour `was`, in any case, becomes `now`. */
  function Recolour(was: string, now: string): (r: Rule)
    ensures r.pat == Literal(was, true) && r.repl == now
  {
    Rule(Literal(was, true), now)
  }

  /** The colour pairs of `applyThemeColors`, in the order the replacements
      are made: the amber accents, the old greens, the emerald greens, and
      the mint greens with one gold. */
  const AmberRows: seq<(string, string)> := [
    ("#ffbf40", Blue),
    ("#fbbf24", Blue),
    ("#f59e0b", DeepBlue),
    ("#fde68a", LightBlue)
  ]

  const GreenRows: seq<(string, string)> := [
    ("#3daa89", Blue),
    ("#2e866b", DeepBlue),
    ("#2a8066", DeepBlue),
    ("#359374", Blue),
    ("#31b88a", Blue),
    ("#48c39d", Blue),
    ("#17a77d", Blue),
    ("#0e8f6b", DeepBlue)
  ]

  const EmeraldRows: seq<(string, string)> := [
    ("#1dc37f", Blue),
    ("#22c55e", Blue),
    ("#10b981", Blue),
    ("#059669", DeepBlue),
    ("#16a34a", DeepBlue)
  ]

  const LastRows: seq<(string, string)> := [
    ("#34d399", LightBlue),
    ("#5bd5a9", LightBlue),
    ("#65d6ad", LightBlue),
    ("#d39a35", DeepBlue)
  ]

  const ThemeTable: seq<(string, string)> := AmberRows + GreenRows + EmeraldRows + LastRows

  /** One replacement per pair, in the order of the pairs. */
  function Recolourings(rows: seq<(string, string)>): (rules: seq<Rule>)
    ensures |rules| == |rows|
    ensures forall i :: 0 <= i < |rows| ==> rules[i] == Recolour(rows[i].0, rows[i].1)
  {
    if |rows| == 0 then [] else [Recolour(rows[0].0, rows[0].1)] + Recolourings(rows[1..])
  }

  /** The replacements of `applyThemeColors`. */
  const ThemeRules: seq<Rule> := Recolourings(ThemeTable)

  predicate HexDigit(c: char) {
    '0' <= c <= '9' || 'a' <= c <= 'f'
  }

  /** A six-digit hex colour written in lower case. */
  predicate Colour(t: string) {
    |t| == 7 && t[0] == '#' && forall k :: 1 <= k < 7 ==> HexDigit(t[k])
  }

  predicate InPalette(t: string) {
    t == Blue || t == DeepBlue || t == LightBlue
  }

  /** Each rule replaces an old lower-case colour, none of them in the new
      palette, by a colour of the new palette. */
  predicate ThemeRuleShape(rule: Rule) {
    && rule.pat.Literal? && rule.pat.ci
    && Colour(rule.pat.text) && !InPalette(rule.pat.text)
    && Colour(rule.repl) && InPalette(rule.repl)
  }

  lemma PaletteColours()
    ensures Colour(Blue) && Colour(DeepBlue) && Colour(LightBlue)
  {
  }

  /** A row of the table: an old lower-case colour outside the new palette,
      and its replacement from the palette. */
  predicate RowShape(row: (string, string)) {
    Colour(row.0) && !InPalette(row.0) && InPalette(row.1)
  }

  lemma AmberRowsShape()
    ensures forall i :: 0 <= i < |AmberRows| ==> RowShape(AmberRows[i])
  {
  }

  lemma GreenRowsShape()
    ensures forall i :: 0 <= i < |GreenRows| ==> RowShape(GreenRows[i])
  {
  }

  lemma EmeraldRowsShape()
    ensures forall i :: 0 <= i < |EmeraldRows| ==> RowShape(EmeraldRows[i])
  {
  }

  lemma LastRowsShape()
    ensures forall i :: 0 <= i < |LastRows| ==> RowShape(LastRows[i])
  {
  }

  lemma ThemeRulesShape()
    ensures |ThemeRules| == 21
    ensures forall i :: 0 <= i < |ThemeRules| ==> ThemeRuleShape(ThemeRules[i])
  {
    AmberRowsShape();
    GreenRowsShape();
    EmeraldRowsShape();
    LastRowsShape();
    PaletteColours();
    assert forall i :: 0 <= i < |ThemeTable| ==> RowShape(ThemeTable[i]);
  }

  /** No old colour is listed twice. */
  lemma OldColoursDistinct()
    ensures forall i, j :: 0 <= i < j < |ThemeTable| ==> ThemeTable[i].0 != ThemeTable[j].0
  {
  }

  lemma ThemeRulesDistinct()
    ensures forall i, j :: 0 <= i < j < |ThemeRules| ==> ThemeRules[i].pat.text != ThemeRules[j].pat.text
  {
    OldColoursDistinct();
  }

  /** Lower-casing leaves a lower-case hex digit and `#` alone. */
  lemma ColourLower(t: string)
    requires Colour(t)
    ensures forall k :: 0 <= k < |t| ==> LowerChar(t[k]) == t[k]
  {
  }

  /** Two different colours never match one another. */
  lemma ColourNoMatch(h: string, t: string)
    requires Colour(h) && Colour(t) && h != t
    ensures NoMatch(Literal(h, true), t)
  {
    forall i | 0 <= i < |t| ensures MatchLen(Literal(h, true), t[i..]) == 0 {
      if i == 0 && PrefixMatch(true, h, t) {
        PrefixMatchSpec(true, h, t);
        ColourLower(h);
        ColourLower(t);
      }
    }
  }

  /** A colour replaced by a different colour: the new one can neither hold
      nor start a match of the old one, since `#` occurs only in front. */
  lemma ColourInert(h: string, r: string)
    requires Colour(h) && Colour(r) && h != r
    ensures Inert(Literal(h, true), r)
  {
    ColourLower(h);
    ColourLower(r);
    AbsentFromAll(true, '#', h, 1);
    forall j | 0 <= j < |r| ensures !CompatAt(true, h, r, j, 0) {
      if CompatAt(true, h, r, j, 0) {
        if j == 0 {
          forall m | 0 <= m < 7 ensures r[m] == h[m] {
            CompatAtSpec(true, h, r, 0, 0, m);
          }
        } else {
          CompatAtSpec(true, h, r, j, 0, 0);
        }
      }
    }
    NoStartFromAll(true, h, r, 0);
  }

  /** No replacement of the table is undone or re-matched by a later one. */
  lemma ThemeRulesClear()
    ensures SelfClearing(ThemeRules)
  {
    ThemeRulesShape();
    forall i, j | 0 <= i <= j < |ThemeRules| ensures Inert(ThemeRules[i].pat, ThemeRules[j].repl) {
      assert ThemeRuleShape(ThemeRules[i]) && ThemeRuleShape(ThemeRules[j]);
      ColourInert(ThemeRules[i].pat.text, ThemeRules[j].repl);
    }
  }

  /** `applyThemeColors`: the rules in order, on a non-empty value. Each
      colour is replaced by one of the same length, and afterwards none of
      the old colours is left, in any case. */
  function ApplyThemeColors(v: string): (r: string)
    ensures |r| == |v|
    ensures forall i :: 0 <= i < |ThemeRules| ==> NoMatch(ThemeRules[i].pat, r)
  {
    if |v| == 0 then v
    else
      ThemeRulesShape();
      ThemeRulesClear();
      ApplyRulesLength(v, ThemeRules);
      ApplyRulesClearAll(v, ThemeRules);
      ApplyRules(v, ThemeRules)
  }

  /** Recolouring twice is recolouring once. */
  lemma ThemeColorsIdempotent(v: string)
    ensures ApplyThemeColors(ApplyThemeColors(v)) == ApplyThemeColors(v)
  {
    if |v| > 0 {
      ThemeRulesClear();
      ApplyRulesIdempotent(v, ThemeRules);
    }
  }

  /** A value without any of the old colours is kept as it is. */
  lemma ThemeColorsKeep(v: string)
    requires forall i :: 0 <= i < |ThemeRules| ==> NoMatch(ThemeRules[i].pat, v)
    ensures ApplyThemeColors(v) == v
  {
    if |v| > 0 {
      ApplyRulesIdentity(v, ThemeRules);
    }
  }

  /** The rules before row `i` leave that row's old colour alone. */
  lemma EarlierRulesIdle(i: nat)
    requires i < |ThemeRules|
    ensures ApplyRules(ThemeRules[i].pat.text, ThemeRules[..i]) == ThemeRules[i].pat.text
  {
    ThemeRulesShape();
    ThemeRulesDistinct();
    var was := ThemeRules[i].pat.text;
    var before := ThemeRules[..i];
    forall j | 0 <= j < |before| ensures NoMatch(before[j].pat, was) {
      assert before[j] == ThemeRules[j];
      assert ThemeRuleShape(ThemeRules[j]) && ThemeRuleShape(ThemeRules[i]);
      ColourNoMatch(ThemeRules[j].pat.text, was);
    }
    ApplyRulesIdentity(was, before);
  }

  /** The rules after row `i` leave that row's new colour alone. */
  lemma LaterRulesIdle(i: nat)
    requires i < |ThemeRules|
    ensures ApplyRules(ThemeRules[i].repl, ThemeRules[i + 1..]) == ThemeRules[i].repl
  {
    ThemeRulesShape();
    var now := ThemeRules[i].repl;
    var after := ThemeRules[i + 1..];
    forall j | 0 <= j < |after| ensures NoMatch(after[j].pat, now) {
      assert after[j] == ThemeRules[i + 1 + j];
      assert ThemeRuleShape(ThemeRules[i + 1 + j]) && ThemeRuleShape(ThemeRules[i]);
      ColourNoMatch(ThemeRules[i + 1 + j].pat.text, now);
    }
    ApplyRulesIdentity(now, after);
  }

  /** Each old colour, written alone, becomes its new colour. */
  lemma ThemeColorsMap(i: nat)
    requires i < |ThemeRules|
    ensures ApplyThemeColors(ThemeRules[i].pat.text) == ThemeRules[i].repl
  {
    ThemeRulesShape();
    var rule := ThemeRules[i];
    assert ThemeRuleShape(rule);
    ApplyRulesAround(rule.pat.text, ThemeRules, i);
    EarlierRulesIdle(i);
    ReplaceAllWhole(rule.pat.text, true, rule.repl);
    LaterRulesIdle(i);
  }

  /** The new palette is left alone. */
  lemma ThemeColorsKeepPalette(t: string)
    requires InPalette(t)
    ensures ApplyThemeColors(t) == t
  {
    ThemeRulesShape();
    PaletteColours();
    forall j | 0 <= j < |ThemeRules| ensures NoMatch(ThemeRules[j].pat, t) {
      assert ThemeRuleShape(ThemeRules[j]);
      ColourNoMatch(ThemeRules[j].pat.text, t);
    }
    ThemeColorsKeep(t);
  }
}

=== FILE: transform.dfy ===
/** `transformLegacyHtml`: the page is parsed, its title and description
    read, the SVG definitions at the top recoloured and kept, every pass
    run over the body in turn, and the definitions followed by the body
    serialised. */
module Transform {
  import opened Text
  import opened Patterns
  import opened Env
  import opened Routes
  import opened Site
  import opened Brand
  import opened Logo
  import opened Dom
  import opened Passes
  import opened LogoSvgs
  import opened Document

  /** What the page rewrite hands back. */
  datatype Rendered = Rendered(html: string, title: string, description: string)

  /** `replaceSiteName($('title').first().text().trim()) || SITE_NAME`,
      with the brand rewrite `brand`: never empty. */
  function PageTitle(ns: seq<Node>, brand: string -> string): (r: string)
    ensures r != ""
  {
    var t := FirstTag(ns, "title", 0);
    var text := if t.Some? then TextFrom(ns, t.value, 0) else "";
    var r := brand(Trim(text));
    if r == "" then SiteName else r
  }

  /** A `meta` element named `description`: what
      `$('meta[name="description"]')` selects. */
  predicate DescriptionMeta(n: Node) {
    n.Element? && n.tag == "meta" && Attr(n.attrs, "name") == Some("description")
  }

  /** The first `meta` element named `description`, from index `from` on. */
  function FirstDescription(ns: seq<Node>, from: nat): (r: Option<nat>)
    decreases |ns| - from
    ensures r.Some? ==> from <= r.value < |ns| && DescriptionMeta(ns[r.value])
    ensures r.Some? ==> forall j :: from <= j < r.value ==> !DescriptionMeta(ns[j])
    ensures r.None? ==> forall j :: from <= j < |ns| ==> !DescriptionMeta(ns[j])
  {
    if from >= |ns| then None
    else if DescriptionMeta(ns[from]) then Some(from)
    else FirstDescription(ns, from + 1)
  }

  /** An element that is a description, with none before it, is the one
      `FirstDescription` finds. */
  lemma FirstDescriptionFirst(ns: seq<Node>)
    ensures forall k :: 0 <= k < |ns| && DescriptionMeta(ns[k]) && (forall j :: 0 <= j < k ==> !DescriptionMeta(ns[j])) ==>
      FirstDescription(ns, 0) == Some(k)
  {
    forall k | 0 <= k < |ns| && DescriptionMeta(ns[k]) && (forall j :: 0 <= j < k ==> !DescriptionMeta(ns[j]))
      ensures FirstDescription(ns, 0) == Some(k)
    {
    }
  }

  /** `replaceSiteName($('meta[name="description"]').attr('content') ?? '')`:
      the content of the first such element, even when a later one has
      one and it has none; a page without one rewrites the empty text. */
  function PageDescription(ns: seq<Node>, brand: string -> string): (r: string)
    ensures (forall j :: 0 <= j < |ns| ==> !DescriptionMeta(ns[j])) ==> r == brand("")
    ensures forall k :: 0 <= k < |ns| && DescriptionMeta(ns[k]) && (forall j :: 0 <= j < k ==> !DescriptionMeta(ns[j])) ==>
      r == brand(if "content" in ns[k].attrs then ns[k].attrs["content"] else "")
  {
    FirstDescriptionFirst(ns);
    var m := FirstDescription(ns, 0);
    brand(if m.Some? && "content" in ns[m.value].attrs then ns[m.value].attrs["content"] else "")
  }

  /** The markup of the definitions roots before index `i`, in order. */
  function DefsUpTo(mk: Markup, ns: seq<Node>, i: nat): string
    requires i <= |ns|
  {
    if i == 0 then ""
    else DefsUpTo(mk, ns, i - 1) + (if DefsRoot(ns, i - 1) then mk.outer(ns, i - 1) else "")
  }

  /** The passes over the body, from the images to the forms. */
  function BodyPasses(pg: Page, ns: seq<Node>): seq<Node> {
    var images := Rewritten(ImagePass, pg, ns);
    var svgs := SvgReplaced(images, pg.body);
    var sources := Rewritten(SourcePass, pg, svgs);
    var styles := Rewritten(StyleAttrPass, pg, sources);
    var sheets := Rewritten(StyleSheetPass, pg, styles);
    var anchors := Rewritten(AnchorPass, pg, sheets);
    Rewritten(FormPass, pg, anchors)
  }

  /** `updateTextNodes`, then the colours of the body. */
  function Finished(pg: Page, ns: seq<Node>): seq<Node> {
    Rewritten(ColourPass(BodyScope), pg, Rewritten(TextPass, pg, ns))
  }

  /** The whole rewrite, with the rewrites `fx`: those of the source are
      `ToolsFor(w, pageDir, key, false)`, the corrected ones
      `ToolsFor(w, pageDir, key, true)`. The title is never empty. */
  function TransformSpec(mk: Markup, w: World, html: string, pageDir: string, key: SiteKey, fx: Tools): (r: Rendered)
    ensures r.title != ""
  {
    var ns := mk.parse(html);
    var defs := Rewritten(ColourPass(Defs), Page(w, pageDir, key, None, fx), ns);
    var body := FirstTag(defs, "body", 0);
    var pg := Page(w, pageDir, key, body, fx);
    var out := Finished(pg, BodyPasses(pg, defs));
    Rendered(DefsUpTo(mk, defs, |defs|) + (if body.Some? then mk.inner(out, body.value) else html), PageTitle(ns, fx.brand), PageDescription(ns, fx.brand))
  }

  /** The rewrite of one page, step by step on one document. */
  method TransformWith(mk: Markup, w: World, html: string, pageDir: string, key: SiteKey, fx: Tools) returns (r: Rendered)
    requires KeepsFrame(fx)
    ensures r == TransformSpec(mk, w, html, pageDir, key, fx)
  {
    var doc := new LegacyDocument(mk.parse(html));
    var title := PageTitle(doc.nodes, fx.brand);
    var description := PageDescription(doc.nodes, fx.brand);
    doc.Run(ColourPass(Defs), Page(w, pageDir, key, None, fx));
    var defs := DefsUpTo(mk, doc.nodes, |doc.nodes|);
    var body := FirstTag(doc.nodes, "body", 0);
    var pg := Page(w, pageDir, key, body, fx);
    ghost var start := doc.nodes;
    doc.Run(ImagePass, pg);
    doc.ReplaceLogoSvgs(body);
    doc.Run(SourcePass, pg);
    doc.Run(StyleAttrPass, pg);
    doc.Run(StyleSheetPass, pg);
    doc.Run(AnchorPass, pg);
    doc.Run(FormPass, pg);
    assert doc.nodes == BodyPasses(pg, start);
    doc.Run(TextPass, pg);
    doc.Run(ColourPass(BodyScope), pg);
    var bodyHtml := if body.Some? then mk.inner(doc.nodes, body.value) else html;
    r := Rendered(defs + bodyHtml, title, description);
  }

  /** `transformLegacyHtml` of `html`, for a page in `pageDir` of site
      `key`. */
  method TransformLegacyHtml(mk: Markup, w: World, html: string, pageDir: string, key: SiteKey) returns (r: Rendered)
    ensures r == TransformSpec(mk, w, html, pageDir, key, ToolsFor(w, pageDir, key, false))
  {
    var fx := ToolsFor(w, pageDir, key, false);
    r := TransformWith(mk, w, html, pageDir, key, fx);
  }

  /** The site's own name names neither old brand. */
  lemma SiteNameClean()
    ensures NoMatch(LatinName, SiteName) && NoMatch(PersianName, SiteName)
  {
    LatinInert();
    InsertedNoMatch(LatinName, SiteName, "");
    assert SiteName + "" == SiteName;
    assert PersianName.Head()[0] == '\U{0645}';
    AsciiNoMatch(PersianName, SiteName);
  }

  /** The title names neither old brand. */
  lemma TitleClean(ns: seq<Node>, corrected: bool)
    ensures var r := PageTitle(ns, SiteNameRewrite(corrected));
      NoMatch(LatinName, r) && NoMatch(PersianName, r)
  {
    var t := FirstTag(ns, "title", 0);
    var text := if t.Some? then TextFrom(ns, t.value, 0) else "";
    NoOldNames(corrected, Trim(text));
    SiteNameClean();
  }

  /** The description names neither old brand; a page without one gets
      the empty text. */
  lemma DescriptionClean(ns: seq<Node>, corrected: bool)
    ensures var r := PageDescription(ns, SiteNameRewrite(corrected));
      NoMatch(LatinName, r) && NoMatch(PersianName, r)
      && ((forall j :: 0 <= j < |ns| ==> !DescriptionMeta(ns[j])) ==> r == "")
  {
    var m := FirstDescription(ns, 0);
    var v := if m.Some? && "content" in ns[m.value].attrs then ns[m.value].attrs["content"] else "";
    NoOldNames(corrected, v);
  }

  /** No text of the finished page names either old brand: the colours of
      the body come after the brand rewrite and leave text alone. */
  lemma FinishedTextClean(pg: Page, ns: seq<Node>, k: nat, corrected: bool)
    requires pg.fx.brand == SiteNameRewrite(corrected)
    requires k < |ns| && Finished(pg, ns)[k].Text?
    ensures NoMatch(LatinName, Finished(pg, ns)[k].data) && NoMatch(PersianName, Finished(pg, ns)[k].data)
  {
    var t := Rewritten(TextPass, pg, ns);
    assert Finished(pg, ns)[k] == t[k];
    TextPassClean(pg, ns, k, corrected);
  }

  /** No label the brand pass reads names either old brand once the page
      is finished: the colours of the body touch only paint attributes. */
  lemma FinishedLabelsClean(pg: Page, ns: seq<Node>, k: nat, j: nat, corrected: bool)
    requires pg.fx.brand == SiteNameRewrite(corrected)
    requires k < |ns| && ns[k].Element? && j < |LabelNames| && LabelNames[j] in ns[k].attrs
    ensures Finished(pg, ns)[k].Element? && LabelNames[j] in Finished(pg, ns)[k].attrs
    ensures NoMatch(LatinName, Finished(pg, ns)[k].attrs[LabelNames[j]])
    ensures NoMatch(PersianName, Finished(pg, ns)[k].attrs[LabelNames[j]])
  {
    var t := Rewritten(TextPass, pg, ns);
    TextPassLabel(pg, ns, k, j, corrected);
    ColourPassKeepsLabel(BodyScope, pg, t, k, j);
  }

  /** With either brand rewrite, the title and description handed back
      name neither old brand. */
  lemma RenderedClean(mk: Markup, w: World, html: string, pageDir: string, key: SiteKey, fx: Tools, corrected: bool)
    requires fx.brand == SiteNameRewrite(corrected)
    ensures var r := TransformSpec(mk, w, html, pageDir, key, fx);
      NoMatch(LatinName, r.title) && NoMatch(PersianName, r.title)
      && NoMatch(LatinName, r.description) && NoMatch(PersianName, r.description)
  {
    TitleClean(mk.parse(html), corrected);
    DescriptionClean(mk.parse(html), corrected);
  }
}
